=== FILE: README.md ===
# ClubTrack core in Dafny

ClubTrack is a command-line club membership tracker built on the AddressBook-3
code base. A club keeps several member lists, one JSON file per list under
`data/`. A member has a name, a mobile number, an email, a year of study, a
faculty, an address and tags. A member also has a tri-state attendance mark
(unmarked, present, absent) and a non-negative points balance. Commands mark
attendance, add and take away points, untag members and search the roster.
`switch` changes the active list; `remove` deletes a list. Each switch also
reconciles points across lists: a member's points become the sum of the points
held under the same identity (email, else phone) in every list file.

This project models that core as pure functions over immutable data. It covers:

- the value objects: `Points`, `Phone` and `Person`;
- the field parsers (`ParserUtil`) and the load-time checks of the JSON form of
  a member (`JsonAdaptedPerson`);
- the three search predicates and the `search` parser;
- the per-member commands and their argument parsers, the `add` command and
  its parser;
- the list manager (`ClubTrackListManager`): switching lists, the cross-list
  points index, reconciliation and list removal, over an abstract disk.

Java's `int` is modelled explicitly. `Int32` holds the values of an `int`, and
`Wrap32` gives the two's-complement wrap of `+`. The overflow of `addPoint`,
of `addpoints` and of the summed totals is therefore visible in the
contracts. Java exceptions are data: `Exceptions.Error` records the exception
class and the message. Validity checks of classes this model does not contain
(`Name`, `Email`, `Address`, `Tag`, `StringUtil`) come in as a `Validators`
record of uninterpreted predicates, so every property holds whatever they
accept.

The `data` directory is a `ListStorage.Disk`, which holds:

- a map from path to stored file. Each file is in one of three states: it loads
  as a roster; the loader refuses it with `DataLoadingException`; or a member's
  negative points make the load throw `IllegalArgumentException`, which no caller
  in the list manager catches;
- the paths whose writes and deletes fail with an `IOException`;
- whether the directory itself can be listed;
- the log of saves.

The directory scan lists only the `*.json` files directly inside `data`
(`ListStorage.ListFiles`); any other entry of the map is never read for the
points index. The order in which the scan lists those files is a parameter,
constrained to list each of them exactly once. The outcome of a switch is
proved not to depend on it.

Modules follow the Java classes:

- `Points`, `Phone`, `Persons`;
- `ParserUtil`, `JsonAdaptedPerson` (with `JsonRoundTrip`);
- `NamePrefixPredicate`, `TagsPredicate`, `NameContainsKeywordsPredicate`, `SearchCommandParser`;
- `ClubModel` (the member list and filter of `Model`);
- one module per command and per parser;
- `ListStorage`, `PointsIndex`, `ClubTrackListManager`.

The modules `JavaString`, `Wrappers`, `Exceptions`, `Validators` and
`CliSyntax`/`ArgumentMultimap` supply the Java library behaviour and the
argument map the code relies on.

## Model

| member | source | states |
|---|---|---|
| Points.New | src/main/java/seedu/address/model/person/Points.java:17-22 | Construction succeeds exactly for a non-negative value and keeps it unchanged; a negative value fails with the points constraint message. |
| Points.AddPoint | src/main/java/seedu/address/model/person/Points.java:34-36 | One point more below `Integer.MAX_VALUE`; at the maximum the wrapped sum is negative, so the constructor throws. |
| Points.Subtract | src/main/java/seedu/address/model/person/Points.java:44-49 | Fails exactly for a negative delta. Otherwise the result is max(0, value - delta), never more than the original. |
| Points.SubtractPoint | src/main/java/seedu/address/model/person/Points.java:54-56 | Equals `subtract(1)`, which never fails; zero stays zero and a positive value drops by one. |
| Points.NewOfValue | src/main/java/seedu/address/model/person/Points.java:61-63 | Rebuilding from a stored value gives the same points, so values round-trip through `getValue` and the constructor. |
| Points.SubtractPointUndoesAddPoint | src/main/java/seedu/address/model/person/Points.java:34-56 | Taking a point back after awarding one restores the original value. |
| Points.SubtractComposes | src/main/java/seedu/address/model/person/Points.java:44-49 | Two subtractions in a row equal one subtraction of their sum, even across the floor at zero. |
| Phone.Normalize | src/main/java/seedu/address/model/person/Phone.java:47-49 | Trims, then deletes every whitespace and '-' character. Its partners NormalizeOfPattern, DigitsKeepAll and GroupsLoseSeparator state the effect: text matching the pattern is a fixed point, digit strings lose nothing, and one separator between digit groups disappears. |
| Phone.IsValidPhone | src/main/java/seedu/address/model/person/Phone.java:38-42 | The normalised text matches `^[89]\d{7}$`. DigitsValidIff characterises it on digit strings both ways, and StoredIsValid shows that every stored phone passes it again. |
| Phone.NewAsWritten | src/main/java/seedu/address/model/person/Phone.java:27-32 | The constructor as written: it succeeds iff the normalised text is itself valid after a second normalisation, and stores the once-normalised text. |
| Phone.AsWrittenStoresNonDigits | src/main/java/seedu/address/model/person/Phone.java:27-32 | For any control character x and valid number t, "-" + x + t is accepted and stored as x + t, which does not match `^[89]\d{7}$`. |
| Phone.New | src/main/java/seedu/address/model/person/Phone.java:27-49 | Corrected constructor: it succeeds exactly when `isValidPhone` holds and stores the normalised form; otherwise it fails with the phone constraint message. |
| Phone.NewAgreesWithAsWritten | src/main/java/seedu/address/model/person/Phone.java:27-42 | On every input `isValidPhone` accepts, the corrected and the as-written constructors store the same value. |
| Phone.NormalizeOfPattern | src/main/java/seedu/address/model/person/Phone.java:47-49 | Text already matching the pattern is unchanged by normalisation. |
| Phone.StoredIsFixedPoint | src/main/java/seedu/address/model/person/Phone.java:27-49 | Every stored value is a fixed point of normalisation. |
| Phone.StoredIsValid | src/main/java/seedu/address/model/person/Phone.java:38-42 | Every stored value validates again. |
| Phone.RebuildStored | src/main/java/seedu/address/model/person/Phone.java:27-32 | Constructing a phone from a stored value gives back the same phone. |
| Phone.EqualityIsOnNormalizedValue | src/main/java/seedu/address/model/person/Phone.java:56-66 | Two phones built from valid inputs are equal iff the inputs normalise to the same text. |
| Phone.RemoveSeparatorsShape | src/main/java/seedu/address/model/person/Phone.java:47-49 | Deleting `[\s-]` leaves no separator, never lengthens the text, and keeps separator-free text whole. |
| Phone.RemoveSeparatorsAppend | src/main/java/seedu/address/model/person/Phone.java:47-49 | Deleting separators distributes over concatenation. |
| Phone.DigitsKeepAll | src/main/java/seedu/address/model/person/Phone.java:47-49 | A string of digits loses nothing to separator deletion. |
| Phone.DigitsValidIff | src/test/java/seedu/address/model/person/PhoneTest.java:27-42 | A digit string is a valid phone iff it has eight digits and starts with 8 or 9 ("71234567", "8123456" and "" are invalid). |
| Phone.GroupsLoseSeparator | src/main/java/seedu/address/model/person/Phone.java:47-49 | A single space or '-' between two digit groups is deleted and the digits are kept in order. |
| Phone.SeparatedGroupsNormalize | src/test/java/seedu/address/model/person/PhoneTest.java:39-40 | "9312 1534"-shaped input normalises to the digits alone. |
| Phone.SeparatedEqualsPlain | src/main/java/seedu/address/model/person/Phone.java:44-49 | A number written with one separator makes the same phone as the plain digits ("9123-4567" equals "91234567"). |
| Persons.New7 | src/main/java/seedu/address/model/person/Person.java:35-48 | The seven-argument constructor gives an unmarked member with zero points and every other field as given. |
| Persons.New8 | src/main/java/seedu/address/model/person/Person.java:54-68 | The eight-argument constructor keeps the given presence and gives zero points. |
| Persons.New9 | src/main/java/seedu/address/model/person/Person.java:74-88 | The nine-argument constructor stores every field as given. |
| Persons.WithPoints | src/main/java/seedu/address/model/person/Person.java:74-88 | Rebuilding a member with new points changes the points and nothing else. |
| Persons.IsSamePerson | src/main/java/seedu/address/model/person/Person.java:132-139 | Two members are the same person when they share an email or a phone; the name plays no part. SamePersonIgnoresOtherFields shows that only email and phone matter, EqualIsSamePerson that equal members are the same person, and SamePersonNotTransitive that the relation is not transitive. |
| Persons.EqualIsSamePerson | src/main/java/seedu/address/model/person/Person.java:131-159 | Equal members (all nine fields) are the same person. |
| Persons.SamePersonNotTransitive | src/main/java/seedu/address/model/person/Person.java:136-138 | Identity is not transitive: b may share an email with a and a phone with c while a and c share nothing. |
| Persons.SamePersonIgnoresOtherFields | src/main/java/seedu/address/model/person/Person.java:136-138 | Identity depends on email and phone only; changing any other field keeps it. |
| ParserUtil.ParseIndex | src/main/java/seedu/address/logic/parser/ParserUtil.java:55-61 | Succeeds iff the trimmed text passes `isNonZeroUnsignedInteger` and fits in an `int`; the result is the parsed number minus one. A failed check gives the invalid-index message; an overflow escapes as `NumberFormatException`. |
| ParserUtil.ParseIndexOfDecimal | src/main/java/seedu/address/logic/parser/ParserUtil.java:55-61 | The decimal text of k+1, when accepted by `isNonZeroUnsignedInteger`, parses to index k. |
| ParserUtil.ParseIntRejectsNonDigit | src/main/java/seedu/address/logic/parser/ParserUtil.java:60 | A non-digit after the first character makes `Integer.parseInt` fail. |
| ParserUtil.ParseIndexRejectsSpaced | src/main/java/seedu/address/logic/parser/ParserUtil.java:55-61 | Two non-blank parts around a space ("10 a") are never an index. |
| ParserUtil.ParseIndexRejectsNonPositive | src/main/java/seedu/address/logic/parser/ParserUtil.java:55-61 | Zero and negative numbers are rejected. |
| ParserUtil.ParseIndexRejectsTooLarge | src/main/java/seedu/address/logic/parser/ParserUtil.java:55-61 | Numbers beyond `Integer.MAX_VALUE` are rejected. |
| ParserUtil.TrimOfDecimal | src/main/java/seedu/address/logic/parser/ParserUtil.java:56 | Decimal text has nothing to trim. |
| ParserUtil.ParseCapped | src/main/java/seedu/address/logic/parser/ParserUtil.java:69-130 | The shared shape of name, address and email parsing: it succeeds with the trimmed text iff that is within the cap and valid. The length is checked before validity, each failure with its own message. |
| ParserUtil.ParseCappedIdempotent | src/main/java/seedu/address/logic/parser/ParserUtil.java:69-130 | Re-parsing an accepted value accepts it unchanged. |
| ParserUtil.ParseName | src/main/java/seedu/address/logic/parser/ParserUtil.java:69-79 | Accepts the trimmed name iff it has at most 100 characters and is valid. Over 100 gives the too-long message before validity is checked. |
| ParserUtil.ParseAddress | src/main/java/seedu/address/logic/parser/ParserUtil.java:102-112 | As for names, with a cap of 200 and the address messages. |
| ParserUtil.ParseEmail | src/main/java/seedu/address/logic/parser/ParserUtil.java:120-130 | As for names, with a cap of 254 and the email messages. |
| ParserUtil.ParsePhone | src/main/java/seedu/address/logic/parser/ParserUtil.java:87-94 | Succeeds exactly when `isValidPhone` holds for the trimmed input and stores its normalised form; otherwise the phone constraint message. |
| ParserUtil.ParseYearOfStudy | src/main/java/seedu/address/logic/parser/ParserUtil.java:140-152 | Accepts exactly the trimmed `int`s in [1, 5]; a non-integer or an out-of-range value gives the same year message. |
| ParserUtil.ParseYearOfDecimal | src/main/java/seedu/address/logic/parser/ParserUtil.java:140-152 | Every year 1 to 5 written in decimal parses to itself. |
| ParserUtil.ParseYearRejectsOutOfRange | src/main/java/seedu/address/logic/parser/ParserUtil.java:145-147 | Every year outside [1, 5] ("0", "6") is rejected. |
| ParserUtil.ParseYearRejectsNonDigit | src/main/java/seedu/address/logic/parser/ParserUtil.java:143-151 | Text with an inner non-digit ("2.0") is rejected. |
| ParserUtil.ParseFaculty | src/main/java/seedu/address/logic/parser/ParserUtil.java:162-172 | Returns the trimmed faculty. Empty text gives the empty-faculty message and over 100 characters the too-long message. |
| ParserUtil.ParseFacultyIdempotent | src/main/java/seedu/address/logic/parser/ParserUtil.java:162-172 | Re-parsing an accepted faculty returns it unchanged. |
| ParserUtil.ParseTag | src/main/java/seedu/address/logic/parser/ParserUtil.java:180-187 | Accepts the trimmed tag iff it is a valid tag name, otherwise the tag constraint message. |
| ParserUtil.TrimmedNamesCons | src/main/java/seedu/address/logic/parser/ParserUtil.java:196-200 | The set built by the loop is the first trimmed name added to the set of the rest. |
| ParserUtil.ParseTags | src/main/java/seedu/address/logic/parser/ParserUtil.java:194-201 | Fails iff some tag is invalid. Otherwise returns the set of trimmed names, and empty input gives the empty set. |
| JsonAdaptedPerson.FromPerson | src/main/java/seedu/address/storage/JsonAdaptedPerson.java:68-80 | Copies every field; presence becomes a nullable boolean that is null exactly for an unmarked member. |
| JsonAdaptedPerson.Load | src/main/java/seedu/address/storage/JsonAdaptedPerson.java:87-166 | Succeeds exactly when every check passes. Null points load as 0 and a null presence loads as absent. Checks run in the order tags, name, phone, email, year, faculty, address. Each check that fails after all earlier ones passed gives its own error: the tag message, a missing or invalid name, phone or email, a missing or out-of-range year, a missing faculty, a missing or invalid address. An empty faculty is accepted. Negative points escape as `IllegalArgumentException`. |
| JsonAdaptedPerson.ToModelTypeAsWritten | src/main/java/seedu/address/storage/JsonAdaptedPerson.java:124-129 | The loader as written accepts years 1 to 4 only, so a stored year 5 always fails. |
| JsonAdaptedPerson.ToModelType | src/main/java/seedu/address/storage/JsonAdaptedPerson.java:87-166 | The loader corrected to the parser's year range [1, 5]. |
| JsonRoundTrip.StoredIsLoadable | src/main/java/seedu/address/storage/JsonAdaptedPerson.java:68-166 | The stored form of a member with valid fields, an in-range year and a faculty passes every load check. |
| JsonRoundTrip.LoadedIsReloaded | src/main/java/seedu/address/storage/JsonAdaptedPerson.java:68-166 | Whatever loads from a member's stored form is that member with null presence read back as absent. |
| JsonRoundTrip.RoundTrip | src/main/java/seedu/address/storage/JsonAdaptedPerson.java:68-166 | Save then load gives the member back, except that an unmarked member comes back absent. |
| JsonRoundTrip.AsWrittenLosesYearFive | src/main/java/seedu/address/storage/JsonAdaptedPerson.java:127-129 | No member in year 5 survives the loader as written. |
| JsonRoundTrip.CorrectedRoundTrip | src/main/java/seedu/address/storage/JsonAdaptedPerson.java:68-166 | With the corrected range every storable member survives a save and reload. |
| NamePrefixPredicate.FromQuery | src/main/java/seedu/address/model/person/predicates/NamePrefixPredicate.java:41-47 | A null or blank query gives no tokens, any other query at least one; every token is lower-case. |
| NamePrefixPredicate.FromList | src/main/java/seedu/address/model/person/predicates/NamePrefixPredicate.java:55-58 | A null list gives no tokens; otherwise token k is entry k lower-cased, and there are as many tokens as entries. |
| NamePrefixPredicate.Test | src/main/java/seedu/address/model/person/predicates/NamePrefixPredicate.java:68-76 | No tokens match everyone; otherwise each token must begin some lower-cased word of the name. BlankQueryMatchesAll, AddingTokenNarrows, MatchIgnoresNameCase, PrefixesOfBothWordsMatch and TokenBeginningNoWordRejects state its behaviour from outside. |
| NamePrefixPredicate.NonBlankHasTokens | src/main/java/seedu/address/model/person/predicates/NamePrefixPredicate.java:42-46 | A non-blank query splits into at least one piece. |
| NamePrefixPredicate.BlankQueryMatchesAll | src/main/java/seedu/address/model/person/predicates/NamePrefixPredicate.java:41-47 | A null or blank query matches every member. |
| NamePrefixPredicate.AddingTokenNarrows | src/main/java/seedu/address/model/person/predicates/NamePrefixPredicate.java:74-75 | Adding a token never enlarges the set of members matched. |
| NamePrefixPredicate.FromListIgnoresCase | src/main/java/seedu/address/model/person/predicates/NamePrefixPredicate.java:84-89 | Token lists that agree once lower-cased make equal predicates. |
| NamePrefixPredicate.QueryAgreesWithList | src/main/java/seedu/address/model/person/predicates/NamePrefixPredicate.java:41-58 | The string constructor equals the list constructor applied to the trimmed query split on whitespace. |
| NamePrefixPredicate.MatchIgnoresNameCase | src/main/java/seedu/address/model/person/predicates/NamePrefixPredicate.java:73-75 | The case of the member's name never changes the outcome. |
| NamePrefixPredicate.PrefixesOfBothWordsMatch | src/test/java/seedu/address/model/person/predicates/NamePrefixPredicateTest.java:27-36 | Prefixes of the two words of a two-word name match it in any case ("char oli" matches "Charlotte Oliveira"). |
| NamePrefixPredicate.TokenBeginningNoWordRejects | src/test/java/seedu/address/model/person/predicates/NamePrefixPredicateTest.java:38-40 | A token that begins neither word rejects the name ("cha dav"). |
| NamePrefixPredicate.LowerWordsSplit | src/main/java/seedu/address/model/person/predicates/NamePrefixPredicate.java:73 | A two-word name splits into its two lower-cased words. |
| NamePrefixPredicate.LowerAllIsLower | src/main/java/seedu/address/model/person/predicates/NamePrefixPredicate.java:57 | Every lower-cased token is its own lower case. |
| TagsPredicate.New | src/main/java/seedu/address/model/person/predicates/TagsPredicate.java:46-51 | The needed set is exactly the lower-cased requested names (empty for null); the mode flag is kept. |
| TagsPredicate.Test | src/main/java/seedu/address/model/person/predicates/TagsPredicate.java:61-73 | An empty request matches everyone; in AND mode the member must hold every requested tag, in OR mode at least one, comparing lower-cased names. AndMatchesIffAll and OrMatchesIffSome characterise it both ways. |
| TagsPredicate.NoTagsMatchAll | src/main/java/seedu/address/model/person/predicates/TagsPredicate.java:46-65 | A null or empty tag collection matches everyone in both modes. |
| TagsPredicate.AndMatchesIffAll | src/main/java/seedu/address/model/person/predicates/TagsPredicate.java:66-71 | AND mode matches iff every requested name equals, ignoring case, one of the member's tag names. |
| TagsPredicate.OrMatchesIffSome | src/main/java/seedu/address/model/person/predicates/TagsPredicate.java:66-70 | OR mode matches iff the list is empty or some requested name equals, ignoring case, one of the member's tag names. |
| TagsPredicate.OrderAndDuplicatesIrrelevant | src/main/java/seedu/address/model/person/predicates/TagsPredicate.java:47-49 | Collections with the same names in any order or multiplicity make equal predicates. |
| TagsPredicate.RequestCaseIrrelevant | src/main/java/seedu/address/model/person/predicates/TagsPredicate.java:47-49 | Upper- and lower-case requests make equal predicates. |
| TagsPredicate.MemberCaseIrrelevant | src/main/java/seedu/address/model/person/predicates/TagsPredicate.java:66-68 | The case of the member's own tag names does not matter. |
| TagsPredicate.NotPrefixMatching | src/main/java/seedu/address/model/person/predicates/TagsPredicate.java:66-71 | A tag that merely begins with a requested name does not match it. |
| NameContainsKeywordsPredicate.Keyword | src/main/java/seedu/address/model/person/predicates/NameContainsKeywordsPredicate.java:30 | A null keyword becomes empty; otherwise the keyword is trimmed and lower-cased, and empty exactly when blank. |
| NameContainsKeywordsPredicate.Test | src/main/java/seedu/address/model/person/predicates/NameContainsKeywordsPredicate.java:20-40 | Some non-blank keyword occurs, ignoring case, in the name, phone, email, address, faculty or year. BlankKeywordsMatchNobody, TagsNeverSearched, MoreKeywordsMatchMore and YearFindsMember state its behaviour. |
| NameContainsKeywordsPredicate.BlankKeywordsMatchNobody | src/main/java/seedu/address/model/person/predicates/NameContainsKeywordsPredicate.java:29-33 | A list of only null or blank keywords, or an empty list, matches nobody. |
| NameContainsKeywordsPredicate.TagsNeverSearched | src/main/java/seedu/address/model/person/predicates/NameContainsKeywordsPredicate.java:21-40 | Changing a member's tags never changes whether they match. |
| NameContainsKeywordsPredicate.MoreKeywordsMatchMore | src/main/java/seedu/address/model/person/predicates/NameContainsKeywordsPredicate.java:29 | Keywords combine by OR: an extra keyword never loses a match. |
| NameContainsKeywordsPredicate.YearFindsMember | src/main/java/seedu/address/model/person/predicates/NameContainsKeywordsPredicate.java:27-39 | A member's year written in decimal finds that member. |
| NameContainsKeywordsPredicate.DecimalIsTrimmedLower | src/main/java/seedu/address/model/person/predicates/NameContainsKeywordsPredicate.java:27-30 | Decimal text is unchanged by trimming and lower-casing. |
| SearchCommandParser.NonBlankTrimmed | src/main/java/seedu/address/logic/parser/SearchCommandParser.java:48-51 | Trimming and dropping blanks never adds values. |
| SearchCommandParser.NonBlankTrimmedMembers | src/main/java/seedu/address/logic/parser/SearchCommandParser.java:48-51 | The kept tag values are exactly the non-empty trimmed values. |
| SearchCommandParser.Parse | src/main/java/seedu/address/logic/parser/SearchCommandParser.java:35-70 | A preamble is a usage error and a repeated `n/` a duplicate-prefix error. Success requires a non-empty name query or tag, with `any/` only alongside a tag. The filter is the name-prefix predicate of the query together with the tags predicate of the kept tags. |
| SearchCommandParser.AnyAloneIsUsageError | src/main/java/seedu/address/logic/parser/SearchCommandParser.java:56-58 | `any/` with neither a name nor a tag is a usage error, not the `any/` message. |
| SearchCommandParser.AnyWithoutTagIsRejected | src/main/java/seedu/address/logic/parser/SearchCommandParser.java:61-63 | `any/` with a name but no usable tag gives "any/ requires at least one t/TAG.". |
| SearchCommandParser.BlankTagsAreNoTags | src/main/java/seedu/address/logic/parser/SearchCommandParser.java:48-51 | Tags that are all blank count as no tags. |
| SearchCommandParser.BlankValuesDropped | src/main/java/seedu/address/logic/parser/SearchCommandParser.java:48-51 | Blank values all disappear. |
| SearchCommandParser.TagsOnlySearch | src/main/java/seedu/address/logic/parser/SearchCommandParser.java:65-67 | Without a name query the filter keeps exactly whom the tags predicate keeps. |
| ArgumentMultimap.GetValue | src/main/java/seedu/address/logic/parser/AddCommandParser.java:70-71 | A prefix has a value iff it was given, and the value is the last one given. |
| ArgumentMultimap.Repeated | src/main/java/seedu/address/logic/parser/AddCommandParser.java:40-41 | The checked prefixes given more than once. |
| ArgumentMultimap.VerifyNoDuplicates | src/main/java/seedu/address/logic/parser/AddCommandParser.java:40-41 | No error iff every checked prefix appears at most once; otherwise a duplicate-prefix parse error. |
| ClubModel.Shown | src/main/java/seedu/address/logic/commands/MarkCommand.java:54 | The shown list holds exactly the members the filter keeps and is no longer than the roster. |
| ClubModel.HasPerson | src/main/java/seedu/address/logic/commands/AddCommand.java:80 | Some member shares the candidate's email or phone. AddCommand.Execute refuses exactly such candidates, and AppendKeepsNoDuplicates shows that appending any other member keeps identities unique. |
| ClubModel.IndexOf | src/main/java/seedu/address/logic/commands/MarkCommand.java:79 | The position of the first member equal to the target. |
| ClubModel.SetPerson | src/main/java/seedu/address/logic/commands/MarkCommand.java:79 | Replaces the first member equal to the target and nothing else. |
| ClubModel.SetPersonKeepsNoDuplicates | src/main/java/seedu/address/logic/commands/MarkCommand.java:67-79 | Replacing a member by one with the same email and phone keeps identities unique. |
| ClubModel.AppendKeepsNoDuplicates | src/main/java/seedu/address/logic/commands/AddCommand.java:80-84 | Appending a member whose identity is new keeps identities unique. |
| ClubModel.ShownAreMembers | src/main/java/seedu/address/logic/commands/MarkCommand.java:56-60 | Every shown member is a member the filter keeps, so a command's target is always found. |
| AddCommand.Execute | src/main/java/seedu/address/logic/commands/AddCommand.java:76-86 | Fails with the duplicate message iff some member shares the email or phone, changing nothing. Otherwise the roster gains exactly the new member at the end. |
| AddCommand.AddKeepsNoDuplicates | src/main/java/seedu/address/logic/commands/AddCommand.java:80-84 | Adding keeps identities unique. |
| AddCommand.SameIdentityRefused | src/test/java/seedu/address/model/ClubTrackTest.java:73-79 | A member sharing an email or a phone with a registered one is refused, whatever the other fields. |
| AddCommandParser.Parse | src/main/java/seedu/address/logic/parser/AddCommandParser.java:28-64 | A missing `n/`, `p/`, `e/` or `a/`, or a preamble, is a usage error; a repeated single-valued prefix is a duplicate error. Otherwise it succeeds exactly when every field parses. The first failing field, in the order name, phone, email, year, faculty, address, tags, gives the error. On success each field is its parser's result, presence is unmarked and points are zero. |
| AddCommandParser.Defaults | src/main/java/seedu/address/logic/parser/AddCommandParser.java:49-56 | Without `y/` the year is 1; without `f/` the faculty is "School of Computing". |
| AddCommandParser.YearInRange | src/main/java/seedu/address/logic/parser/AddCommandParser.java:49-52 | Every accepted year lies in [1, 5]. |
| AddedMemberStorage.ParsedIsStorable | src/main/java/seedu/address/logic/parser/AddCommandParser.java:42-61 | Everything the parser builds passes the load checks with the parser's year range. |
| AddedMemberStorage.AddedMemberReloads | src/main/java/seedu/address/storage/JsonAdaptedPerson.java:68-166 | With the corrected loader an added member survives a save and reload, coming back absent. |
| AddedMemberStorage.AddedYearFiveIsLost | src/main/java/seedu/address/storage/JsonAdaptedPerson.java:127-129 | Where the validators accept the name "A", the email "a@b.c" and the address "X", `add n/A p/91234567 e/a@b.c a/X y/5` succeeds with year 5. The loader as written then refuses the saved member, while the corrected loader reads it back. |
| MarkCommand.Marked | src/main/java/seedu/address/logic/commands/MarkCommand.java:63-77 | The marked member keeps the six details and gains the "present" tag, presence and one point. It fails only at `Integer.MAX_VALUE`. |
| MarkCommand.Execute | src/main/java/seedu/address/logic/commands/MarkCommand.java:51-83 | An index past the shown list is refused. Otherwise exactly the target's position is replaced by the marked member and the message reports the new total. |
| MarkCommand.MarkKeepsNoDuplicates | src/main/java/seedu/address/logic/commands/MarkCommand.java:79 | Marking keeps identities unique. |
| MarkCommand.MarkTwice | src/main/java/seedu/address/logic/commands/MarkCommand.java:63-76 | Marking twice leaves tags and presence as one mark does but awards two points. |
| UnmarkCommand.Unmarked | src/main/java/seedu/address/logic/commands/UnmarkCommand.java:63-83 | The six details are kept, the "present" tag is removed, presence is absent, and points drop by one if positive and otherwise stay 0. |
| UnmarkCommand.Execute | src/main/java/seedu/address/logic/commands/UnmarkCommand.java:52-91 | Succeeds iff the index is inside the shown list; exactly the target's position is replaced by the unmarked member. |
| UnmarkCommand.UnmarkKeepsNoDuplicates | src/main/java/seedu/address/logic/commands/UnmarkCommand.java:85 | Unmarking keeps identities unique. |
| UnmarkCommand.UnmarkUndoesMark | src/main/java/seedu/address/logic/commands/UnmarkCommand.java:63-82 | Unmarking a freshly marked member restores the points and leaves them absent without the "present" tag. |
| UnmarkCommand.UnmarkAtZero | src/main/java/seedu/address/logic/commands/UnmarkCommand.java:86-90 | A member with no points is still told "1 point deducted. New total: 0". |
| AddPointsCommand.NewTotal | src/main/java/seedu/address/logic/commands/AddPointsCommand.java:66 | `new Points(value + n)` with Java's wrapping sum: it succeeds iff the exact sum is in [0, `Integer.MAX_VALUE`] and then equals it. |
| AddPointsCommand.Execute | src/main/java/seedu/address/logic/commands/AddPointsCommand.java:54-85 | An index past the shown list is refused. Otherwise only the target's points change, to old plus n, with presence and tags kept, and only its position is replaced. |
| AddPointsCommand.AddPointsKeepsNoDuplicates | src/main/java/seedu/address/logic/commands/AddPointsCommand.java:80 | Adding points keeps identities unique. |
| AddPointsCommand.LargeTotalOverflows | src/main/java/seedu/address/logic/commands/AddPointsCommand.java:66 | Even under the parser's cap, a sum past `Integer.MAX_VALUE` wraps negative and is refused. |
| MinusPointsCommand.Execute | src/main/java/seedu/address/logic/commands/MinusPointsCommand.java:55-86 | An index past the shown list is refused. Otherwise only the target's points change, to max(0, old - n): underflow floors and does not fail. A negative n is refused by `Points`. |
| MinusPointsCommand.MinusPointsKeepsNoDuplicates | src/main/java/seedu/address/logic/commands/MinusPointsCommand.java:81 | Subtracting points keeps identities unique. |
| MinusPointsCommand.SubtractUndoesAdd | src/main/java/seedu/address/logic/commands/MinusPointsCommand.java:67 | Subtracting what `addpoints` just added restores the points. |
| PointsCommand.Execute | src/main/java/seedu/address/logic/commands/PointsCommand.java:33-46 | Succeeds iff the index is inside the shown list, never changes the model, and reports that member's name and points. |
| UntagCommand.Untagged | src/main/java/seedu/address/logic/commands/UntagCommand.java:33-45 | The tag is removed from the set and every other field is kept. |
| UntagCommand.Execute | src/main/java/seedu/address/logic/commands/UntagCommand.java:27-48 | A negative index or one past the shown list is refused; otherwise exactly the target's position is replaced by the untagged member. |
| UntagCommand.UntagAbsentTagChangesNothing | src/main/java/seedu/address/logic/commands/UntagCommand.java:33-46 | Removing a tag the member lacks leaves the roster as it was. |
| UntagCommand.UntagKeepsNoDuplicates | src/main/java/seedu/address/logic/commands/UntagCommand.java:46 | Untagging keeps identities unique. |
| PointsArguments.IndexAndAmount | src/main/java/seedu/address/logic/parser/AddPointsCommandParser.java:36-52 | The shared `try` block. A number-format failure of either piece is a usage error; other index errors pass through; a non-positive amount gives "Points must be a positive integer". |
| PointsArguments.DecimalIsWord | src/main/java/seedu/address/logic/parser/AddPointsCommandParser.java:29 | Decimal text is one whitespace-free piece. |
| PointsArguments.FormattedPair | src/main/java/seedu/address/logic/parser/AddPointsCommandParser.java:22-29 | "K N" in decimal is already trimmed and splits into exactly its two numbers. |
| AddPointsCommandParser.Parse | src/main/java/seedu/address/logic/parser/AddPointsCommandParser.java:20-53 | Blank input, or anything but exactly two pieces, is a usage error. On success the command holds the parsed index and a count in (0, `MAX_VALUE / 2`]. |
| AddPointsCommandParser.ParseOfFormatted | src/main/java/seedu/address/logic/parser/AddPointsCommandParser.java:20-53 | "K N" with N in (0, `MAX_VALUE / 2`] parses to index K-1 and count N. |
| AddPointsCommandParser.TooLargeRefused | src/main/java/seedu/address/logic/parser/AddPointsCommandParser.java:44-46 | A count above `MAX_VALUE / 2` gives "Points value too large". |
| AddPointsCommandParser.NonPositiveRefused | src/main/java/seedu/address/logic/parser/AddPointsCommandParser.java:40-42 | A count of zero or below gives the positive-integer message. |
| AddPointsCommandParser.OverflowIsUsage | src/main/java/seedu/address/logic/parser/AddPointsCommandParser.java:49-52 | A count beyond `int` is a usage error. |
| MinusPointsCommandParser.Parse | src/main/java/seedu/address/logic/parser/MinusPointsCommandParser.java:19-41 | Anything but exactly two pieces is a usage error. On success the command holds the parsed index and a positive count, with no upper cap. |
| MinusPointsCommandParser.BlankIsUsage | src/main/java/seedu/address/logic/parser/MinusPointsCommandParser.java:20-26 | Without a blank check, blank input is still a usage error. |
| MinusPointsCommandParser.ParseOfFormatted | src/main/java/seedu/address/logic/parser/MinusPointsCommandParser.java:19-41 | "K N" with any positive `int` N parses to index K-1 and count N. |
| MinusPointsCommandParser.AgreesWithAddPoints | src/main/java/seedu/address/logic/parser/MinusPointsCommandParser.java:19-41 | What `addpoints` accepts, `minuspoints` accepts with the same index and count. A `minuspoints` success is an `addpoints` success iff the count is within the cap. |
| UntagCommandParser.Parse | src/main/java/seedu/address/logic/parser/UntagCommandParser.java:32-56 | Null or blank input, or a missing or blank tag part, is a usage error. A non-integer or non-positive index gives "Index must be a positive integer.". On success the index is one-based minus one and the tag is the trimmed rest. |
| UntagCommandParser.SplitAtFirstSpace | src/main/java/seedu/address/logic/parser/UntagCommandParser.java:38 | The two-piece split cuts at the first whitespace run and keeps the rest whole. |
| UntagCommandParser.FormattedPieces | src/main/java/seedu/address/logic/parser/UntagCommandParser.java:33-39 | "K TAG" is trimmed and splits into K and the whole tag, which is not blank. |
| UntagCommandParser.ParseOfFormatted | src/main/java/seedu/address/logic/parser/UntagCommandParser.java:38-54 | "K TAG" gives index K-1 and the whole tag, spaces included. |
| UntagCommandParser.NonPositiveIndexRefused | src/main/java/seedu/address/logic/parser/UntagCommandParser.java:49-51 | An index of zero or below gives the positive-index message. |
| SwitchCommandParser.Parse | src/main/java/seedu/address/logic/parser/SwitchCommandParser.java:18-32 | Blank input is a usage error and a vertical bar or any of `* ? < > " : \ /` gives the special-characters message. Otherwise the name is the trimmed argument. |
| SwitchCommandParser.ParseIdempotent | src/main/java/seedu/address/logic/parser/SwitchCommandParser.java:18-32 | An accepted name is accepted again unchanged. |
| RemoveCommandParser.Parse | src/main/java/seedu/address/logic/parser/RemoveCommandParser.java:18-29 | Succeeds iff the trimmed argument matches `[A-Za-z0-9_-]+` and returns it; otherwise a usage error. |
| RemoveCommandParser.AcceptedBySwitch | src/main/java/seedu/address/logic/parser/RemoveCommandParser.java:25 | Every name `remove` accepts, `switch` accepts as the same name. |
| RemoveCommandParser.SwitchOnlyNames | src/main/java/seedu/address/logic/parser/SwitchCommandParser.java:25-31 | Names joined by a space or '.' are accepted by `switch` and rejected by `remove`. |
| ListStorage.Save | src/main/java/seedu/address/logic/ClubTrackListManager.java:62 | A save fails with the file-operations error iff the path is read-only. Otherwise the file loads as the roster written and the save is logged. |
| ListStorage.Delete | src/main/java/seedu/address/logic/ClubTrackListManager.java:182 | `deleteIfExists`: a missing file is no error; an existing file is gone unless read-only, which fails. |
| ListStorage.PathOfIsListFile | src/main/java/seedu/address/logic/ClubTrackListManager.java:90 | The file of a list name is one the `*.json` scan of `data` lists exactly when the name holds no `/`; a name with `/` names a file in a sub-directory. |
| ListStorage.PathOfInjective | src/main/java/seedu/address/logic/ClubTrackListManager.java:51 | Different list names name different files. |
| ListStorage.SaveThenRead | src/main/java/seedu/address/logic/ClubTrackListManager.java:62 | A saved file reads back as the roster saved. |
| PointsIndex.IdentityKey | src/main/java/seedu/address/logic/ClubTrackListManager.java:148-162 | "E:" and the trimmed email when that is non-empty, else "P:" and the trimmed phone. EveryMemberHasKey, KeyKind and EmailKeyIsCaseSensitive state which key a member gets and that email keys keep their case. |
| PointsIndex.EveryMemberHasKey | src/main/java/seedu/address/logic/ClubTrackListManager.java:148-162 | Every member has a key, because a phone is never empty, so the "no key" branches are unreachable. |
| PointsIndex.KeyKind | src/main/java/seedu/address/logic/ClubTrackListManager.java:148-162 | The key is an email key ("E:") exactly when the trimmed email is not empty. |
| PointsIndex.EmailKeyIsCaseSensitive | src/main/java/seedu/address/logic/ClubTrackListManager.java:150-152 | Two members share an email key only if their trimmed emails are identical, case included. |
| PointsIndex.PlusAssociative | src/main/java/seedu/address/logic/ClubTrackListManager.java:102 | Arithmetic helper for the sum lemmas: partial sums are associative. |
| PointsIndex.PlusCommutative | src/main/java/seedu/address/logic/ClubTrackListManager.java:102 | Arithmetic helper for FilesTotalRemove: partial sums are commutative. |
| PointsIndex.Merge | src/main/java/seedu/address/logic/ClubTrackListManager.java:102 | `Map.merge` with `Integer::sum`: MergeSpec shows that the key's entry becomes the wrapped sum of the old entry and the value, and that other keys keep theirs. |
| PointsIndex.MergeSpec | src/main/java/seedu/address/logic/ClubTrackListManager.java:102 | `merge` adds the value to the key's entry with `int` wrap and leaves other keys alone. |
| PointsIndex.WrapPlus | src/main/java/seedu/address/logic/ClubTrackListManager.java:102 | Arithmetic helper for the fold lemmas: wrapping at every step equals wrapping the exact sum once. |
| PointsIndex.MergeRoster | src/main/java/seedu/address/logic/ClubTrackListManager.java:97-103 | The inner loop over one roster: MergeRosterSpec shows that each key's entry becomes the wrapped sum of its old entry and the points of that key's members. |
| PointsIndex.MergeRosterSpec | src/main/java/seedu/address/logic/ClubTrackListManager.java:97-103 | The inner loop adds each key's exact roster total, wrapped. |
| PointsIndex.MergeFiles | src/main/java/seedu/address/logic/ClubTrackListManager.java:91-108 | The outer loop over the listed files: MergeFilesSpec shows that each entry is the wrapped sum over the readable files, with unreadable ones skipped. |
| PointsIndex.MergeFilesSpec | src/main/java/seedu/address/logic/ClubTrackListManager.java:91-108 | The outer loop adds each key's exact total over the loadable files, skipping unreadable ones. |
| PointsIndex.BuildTotals | src/main/java/seedu/address/logic/ClubTrackListManager.java:87-114 | `buildGlobalPointsIndex` over the `*.json` files of `data`: BuildTotalsSpec relates each entry to an independent exact sum over the readable lists, BuildTotalsOrderIndependent shows the listing order does not matter, and BuildTotalsIgnoresOtherFiles shows other files are never counted. |
| PointsIndex.BuildTotalsSpec | src/main/java/seedu/address/logic/ClubTrackListManager.java:87-114 | The index entry for a key is the wrapped sum of that key's points over every readable list; an unlistable directory gives no totals. |
| PointsIndex.FilesTotalAppend | src/main/java/seedu/address/logic/ClubTrackListManager.java:91-108 | The total over two listings is the sum of their totals. |
| PointsIndex.FilesTotalRemove | src/main/java/seedu/address/logic/ClubTrackListManager.java:91-108 | Taking one file out of a listing takes its share out of the total. |
| PointsIndex.MultisetRemove | src/main/java/seedu/address/logic/ClubTrackListManager.java:90-91 | Removing one entry of a listing removes one occurrence from its multiset. |
| PointsIndex.FilesTotalPermutation | src/main/java/seedu/address/logic/ClubTrackListManager.java:90-108 | The exact total does not depend on the listing order. |
| PointsIndex.BuildTotalsIgnoresOtherFiles | src/main/java/seedu/address/logic/ClubTrackListManager.java:90 | A file the `*.json` glob does not match, or one outside `data`, leaves the listing and every index entry unchanged, whatever it holds. |
| PointsIndex.BuildTotalsOrderIndependent | src/main/java/seedu/address/logic/ClubTrackListManager.java:87-114 | Every listing order of the same files gives the same index. |
| ClubTrackListManager.Reconcile | src/main/java/seedu/address/logic/ClubTrackListManager.java:117-145 | `reconcilePointsWithTotals`: ReconcileSpec characterises the result position by position up to the first refused total, ReconcileChanged the changed flag, and ReconcileStable shows that a finished run leaves nothing to correct. |
| ClubTrackListManager.Adjusted | src/main/java/seedu/address/logic/ClubTrackListManager.java:120-142 | Only points change. A member changes iff its key has a total different from its points that `Points` accepts, and then takes that total. |
| ClubTrackListManager.FirstRefused | src/main/java/seedu/address/logic/ClubTrackListManager.java:119-143 | The first member whose total `new Points` would refuse, or the roster length. |
| ClubTrackListManager.ReconcileSpec | src/main/java/seedu/address/logic/ClubTrackListManager.java:117-145 | Reconciliation keeps the length and adjusts every member before the first refused one, leaving the rest as they were. It finishes iff no member is refused; otherwise it ends with the points `IllegalArgumentException`. |
| ClubTrackListManager.ReconcileChanged | src/main/java/seedu/address/logic/ClubTrackListManager.java:117-145 | A finished reconciliation reports a change iff some member had a total different from its points. |
| ClubTrackListManager.ReconcileStable | src/main/java/seedu/address/logic/ClubTrackListManager.java:117-145 | Reconciling the result again with the same totals changes nothing. |
| ClubTrackListManager.NothingToCorrect | src/main/java/seedu/address/logic/ClubTrackListManager.java:117-145 | With nothing to correct the roster is kept and no change is reported. |
| ClubTrackListManager.PositionalIsSetPerson | src/main/java/seedu/address/logic/ClubTrackListManager.java:140 | In a roster of unique identities, `setPerson` on a member replaces exactly its own position. |
| ClubTrackListManager.ReconcileAndSave | src/main/java/seedu/address/logic/ClubTrackListManager.java:66-71 | The roster is the reconciled one and the path is set. It ends without an error exactly when reconciliation finishes and, if something changed, the list file may be written. Without an error the list is re-saved iff something changed. An error is the points error or a failed save, and leaves the disk unchanged. |
| ClubTrackListManager.ReconciledIsSettled | src/main/java/seedu/address/logic/ClubTrackListManager.java:66-71 | After an error-free reconciliation, reconciling the kept roster again against the same totals changes nobody. |
| ClubTrackListManager.SwitchToList | src/main/java/seedu/address/logic/ClubTrackListManager.java:47-84 | On success the active path is `data/<name>.json`. A readable file is loaded and reconciled. A missing file starts empty (the sample for the default name), is saved, then reconciled. An unreadable file becomes an empty saved list without reconciliation. A file whose load throws `IllegalArgumentException` lets that exception escape, with the disk and session unchanged. A failed save is a file-operations error. The points index is built from the `*.json` files of `data`, target included. |
| ClubTrackListManager.SwitchOrderIndependent | src/main/java/seedu/address/logic/ClubTrackListManager.java:87-114 | The outcome of a switch does not depend on the order the directory is listed in. |
| ClubTrackListManager.TwoListTotal | src/main/java/seedu/address/logic/ClubTrackListManager.java:87-114 | For two lists each holding one member with the same email, that key's entry is the wrapped sum of both members' points. |
| ClubTrackListManager.SwitchSumsTwoLists | src/main/java/seedu/address/logic/ClubTrackListManager.java:47-145 | With two such lists, named without `/` as `switch` demands, switching to one sets its member's points to the sum of both and saves it. |
| ClubTrackListManager.SwitchFeedsBackOwnPoints | src/main/java/seedu/address/logic/ClubTrackListManager.java:66-71 | Switching is not idempotent. With 3 in A and 4 in B, switching to A gives 7; switching to B then gives 11, and so does switching to A again. |
| ClubTrackListManager.RemoveList | src/main/java/seedu/address/logic/ClubTrackListManager.java:168-204 | It succeeds exactly when the list is not the default, its file is absent or writable, and, for the active list, a missing default file may be created and an existing one does not throw on load. The default path is refused with "Cannot remove the default list '…'." and nothing changes. On success the file is gone and every other file except the default is as before. Removing an inactive list leaves the session and the save log alone; removing the active one makes the default path active. |
| ClubTrackListManager.RemoveActiveFallsBack | src/main/java/seedu/address/logic/ClubTrackListManager.java:184-199 | Removing the active list falls back to the default. A readable default is loaded with no write. An unreadable default gives an empty roster with no write and stays unreadable. A missing default is written from the sample. A default whose load throws `IllegalArgumentException` lets it escape after the delete, with the session unchanged. |
| ClubTrackListManager.RemoveThenSwitch | src/main/java/seedu/address/logic/ClubTrackListManager.java:168-204 | A list removed and then switched to again starts fresh (empty, or the sample for the default name). |

## Left out

- Storage: JSON serialisation, Jackson, `JsonClubTrackStorage`, `StorageManager` and the real file system are replaced by `ListStorage.Disk`. A file loads, is refused with `DataLoadingException`, or throws `IllegalArgumentException` on load (`Rejected`); the contents of a refused or rejected file are not modelled. Writes and deletes fail exactly on read-only paths.
- ListStorage.Save: a saved file is taken to read back as the roster saved. Real storage differs in two ways. With the loader as written, members in year 5 do not load back (see Findings). An unmarked member is saved with a null presence and reloads as absent (JsonAdaptedPerson.java:152; JsonRoundTrip.RoundTrip proves this). A list saved by `switch` therefore reads back with different presence marks in the program than in the model.
- Directory scan: the scan order is the `order` parameter. An `IOException` from opening the directory is the `dirReadable` flag. A `DirectoryIteratorException` partway through a scan is not modelled.
- Logging is dropped.
- `UserPrefs` and `SampleDataUtil` are not part of this model. The default list name, path, file name and sample roster come in as `ClubTrackListManager.Config`.
- ClubTrackListManager.SwitchToList and ClubTrackListManager.RemoveList: the `IOException` message inside `FILE_OPS_ERROR_FORMAT` is not modelled. The error is the file-operations error without its text.
- ClubTrackListManager.Reconcile: the loop walks the roster by position rather than calling `setPerson` on a live list. The two agree when identities are unique, which `UniquePersonList` maintains (PositionalIsSetPerson).
- The `id == null` branches of the list manager are unreachable (EveryMemberHasKey). They are modelled, but nothing further is stated about them.
- The session holds only the roster and the active path. The filter of the displayed list is not part of the list manager's model.
- `ModelManager`, `UniquePersonList` and `ClubTrack` are not part of this model. The member list is a sequence with the `hasPerson`/`setPerson`/append behaviour the commands use (ClubModel). `add` shows the whole list again (`ShowAll`).
- `ArgumentTokenizer` is not part of this model. The parsers that use prefixes take the tokenised `ArgMap` as input.
- `Name.isValidName`, `Email.isValidEmail`, `Address.isValidAddress`, `Tag.isValidTagName` and `StringUtil.isNonZeroUnsignedInteger` are parameters (`Validators`). `Tag` is represented by its name, so `new Tag(...)` is its validity check.
- `Email.toString` is taken to return the stored value.
- `Messages.format(person)` and `Tag.toString` are not modelled: the `add` and `untag` success messages are `NewMemberAdded(person)` and `TagRemoved(name)`.
- UI (`MainWindow`, `UiManager`, `PersonCard`) and `LogicManager` dispatch: they are glue with no logic of their own.
- `SearchCommand`, `ListCommand`, `AttendanceCommand`, `SwitchCommand`, `RemoveCommand`, `TagCommand` and the Tag/Points/Attendance parsers: thin setters and delegations. `TagCommand` calls a six-argument `Person` constructor that `Person.java` does not define.
- Equality and `hashCode` of `Points`, `Person`, the predicates and the commands are Dafny's structural equality on the corresponding datatypes. Hash codes are not modelled.
- Person tags: copying the set at construction and the read-only view are implicit, because Dafny sets are values.
- Several tests disagree with the code, and the model follows the code. `TagsPredicateTest` expects prefix matching (NotPrefixMatching shows the code matches whole names). `MinusPointsCommandTest` expects an underflow error. `PointsTest` uses members `Points` lacks.
- Strings are ASCII-minded: `\s` is space, tab, line feed, vertical tab, form feed and carriage return. `trim` removes characters up to U+0020 and `toLowerCase` maps A-Z only. Other Unicode case mappings and whitespace are not modelled.
- `Integer.parseInt` is modelled for ASCII digits with an optional sign. Non-ASCII digits are not accepted.

## Findings

| source | as written | input that shows it | evidently intended | confidence | as-written member | corrected member |
|---|---|---|---|---|---|---|
| src/main/java/seedu/address/model/person/Phone.java:27-32 | The constructor checks `isValidPhone(normalized)`, which normalises a second time, and stores the once-normalised text. | `"-\u0001" + "91234567"`: `trim` keeps the leading '-', separator deletion leaves `"\u000191234567"`, and the second `trim` removes the control character, so the check passes. | A stored phone always matches `^[89]\d{7}$`, as the class comment promises. | not executed; high | Phone.NewAsWritten, Phone.AsWrittenStoresNonDigits | Phone.New, Phone.StoredIsValid |
| src/main/java/seedu/address/storage/JsonAdaptedPerson.java:127-129 | The loader accepts years 1 to 4 only, while `parseYearOfStudy` and `add` accept 1 to 5. | `add n/A p/91234567 e/a@b.c a/X y/5` succeeds. When the list is read back, the member fails the year check, the load fails, and `switchToList` replaces the list with an empty one. | Saved members reload: the loader uses the parser's range [1, 5]. | not executed; medium | JsonAdaptedPerson.ToModelTypeAsWritten, JsonRoundTrip.AsWrittenLosesYearFive | JsonAdaptedPerson.ToModelType, JsonRoundTrip.CorrectedRoundTrip |

=== FILE: add_command.dfy ===
/** `add`: registers a new member unless one with the same email or phone exists. */
module AddCommand {
  import opened Wrappers
  import opened Exceptions
  import opened Persons
  import opened ClubModel

  const MESSAGE_DUPLICATE_PERSON: string := "This member already exists in the club membership list"

  /** The member to add; two commands are equal exactly when their members are. */
  datatype Command = Command(toAdd: Person)

  /** `execute`: a member sharing an identity is refused; otherwise the roster gains
      exactly `toAdd`, at the end, and the whole roster is shown. */
  function Execute(c: Command, m: Model): (r: Result<Executed, Error>)
    ensures r.Failure? <==> HasPerson(m.persons, c.toAdd)
    ensures r.Failure? ==> r.error == CommandError(Text(MESSAGE_DUPLICATE_PERSON))
    ensures r.Success? ==>
      && |r.value.model.persons| == |m.persons| + 1
      && r.value.model.persons[..|m.persons|] == m.persons
      && r.value.model.persons[|m.persons|] == c.toAdd
      && r.value.model.filter == ShowAll
      && r.value.feedback == NewMemberAdded(c.toAdd)
  {
    if HasPerson(m.persons, c.toAdd) then Failure(CommandError(Text(MESSAGE_DUPLICATE_PERSON)))
    else Success(Executed(Model(m.persons + [c.toAdd], ShowAll), NewMemberAdded(c.toAdd)))
  }

  /** Adding keeps every identity unique. */
  lemma AddKeepsNoDuplicates(c: Command, m: Model)
    requires NoDuplicates(m.persons) && Execute(c, m).Success?
    ensures NoDuplicates(Execute(c, m).value.model.persons)
  {
    AppendKeepsNoDuplicates(m.persons, c.toAdd);
  }

  /** A member who shares an email or a phone with someone already registered is
      refused, however much else differs. */
  lemma SameIdentityRefused(c: Command, m: Model, existing: Person)
    requires existing in m.persons
    requires c.toAdd.email == existing.email || c.toAdd.phone == existing.phone
    ensures Execute(c, m) == Failure(CommandError(Text(MESSAGE_DUPLICATE_PERSON)))
  {
    assert IsSamePerson(existing, c.toAdd);
  }
}

=== FILE: add_command_parser.dfy ===
/** `add n/NAME p/PHONE e/EMAIL a/ADDRESS [y/YEAR] [f/FACULTY] [t/TAG]...`. */
module AddCommandParser {
  import opened Wrappers
  import opened JavaString
  import opened Exceptions
  import opened Validators
  import opened CliSyntax
  import opened ArgumentMultimap
  import opened ParserUtil
  import opened Persons
  import Points
  import AddCommand

  const COMMAND_WORD: string := "add"
  const DEFAULT_YEAR_OF_STUDY: Int32 := 1
  const DEFAULT_FACULTY: string := "School of Computing"

  /** The prefixes that may be given at most once. */
  const SINGLE_VALUED: set<Prefix> := {Name, Phone, Email, Address, YearOfStudy, Faculty}

  /** `arePrefixesPresent(n/, a/, p/, e/)`. */
  predicate RequiredPresent(m: ArgMap) {
    GetValue(m, Name).Some? && GetValue(m, Address).Some?
    && GetValue(m, Phone).Some? && GetValue(m, Email).Some?
  }

  /** The shape checks that come before any field is parsed: the four required
      prefixes, an empty preamble and no repeated single-valued prefix. */
  predicate WellFormed(m: ArgMap) {
    RequiredPresent(m) && m.preamble == [] && VerifyNoDuplicates(m, SINGLE_VALUED).None?
  }

  /** The year: parsed if `y/` is given, otherwise 1. */
  function Year(m: ArgMap): Result<Int32, Error> {
    match GetValue(m, YearOfStudy)
    case Some(y) => ParseYearOfStudy(y)
    case None => Success(DEFAULT_YEAR_OF_STUDY)
  }

  /** The faculty: parsed if `f/` is given, otherwise "School of Computing". */
  function FacultyOf(m: ArgMap): Result<string, Error> {
    match GetValue(m, Faculty)
    case Some(f) => ParseFaculty(f)
    case None => Success(DEFAULT_FACULTY)
  }

  /** The field parses `parse` makes in turn, each stage including the ones before
      it: name, phone, email, year, faculty, address, then tags. */
  predicate PassesName(v: Validators, m: ArgMap) {
    WellFormed(m) && ParseName(v, GetValue(m, Name).value).Success?
  }

  predicate PassesPhone(v: Validators, m: ArgMap) {
    PassesName(v, m) && ParsePhone(GetValue(m, Phone).value).Success?
  }

  predicate PassesEmail(v: Validators, m: ArgMap) {
    PassesPhone(v, m) && ParseEmail(v, GetValue(m, Email).value).Success?
  }

  predicate PassesYear(v: Validators, m: ArgMap) {
    PassesEmail(v, m) && Year(m).Success?
  }

  predicate PassesFaculty(v: Validators, m: ArgMap) {
    PassesYear(v, m) && FacultyOf(m).Success?
  }

  predicate PassesAddress(v: Validators, m: ArgMap) {
    PassesFaculty(v, m) && ParseAddress(v, GetValue(m, Address).value).Success?
  }

  /** Every field parses. */
  predicate FieldsParse(v: Validators, m: ArgMap) {
    PassesAddress(v, m) && ParseTags(v, AllValues(m, Tag)).Success?
  }

  /** `parse`: the four required prefixes and an empty preamble, no repeated
      single-valued prefix, then each field through `ParserUtil` in the order
      name, phone, email, year, faculty, address, tags.  The new member is
      unmarked and has no points. */
  function Parse(v: Validators, m: ArgMap): (r: Result<AddCommand.Command, Error>)
    ensures !RequiredPresent(m) || m.preamble != [] ==>
      r == Failure(ParseError(InvalidCommandFormat(COMMAND_WORD)))
    ensures RequiredPresent(m) && m.preamble == [] && VerifyNoDuplicates(m, SINGLE_VALUED).Some? ==>
      r == Failure(VerifyNoDuplicates(m, SINGLE_VALUED).value)
    ensures r.Success? <==> FieldsParse(v, m)
    ensures WellFormed(m) && ParseName(v, GetValue(m, Name).value).Failure? ==>
      r == Failure(ParseName(v, GetValue(m, Name).value).error)
    ensures PassesName(v, m) && ParsePhone(GetValue(m, Phone).value).Failure? ==>
      r == Failure(ParsePhone(GetValue(m, Phone).value).error)
    ensures PassesPhone(v, m) && ParseEmail(v, GetValue(m, Email).value).Failure? ==>
      r == Failure(ParseEmail(v, GetValue(m, Email).value).error)
    ensures PassesEmail(v, m) && Year(m).Failure? ==> r == Failure(Year(m).error)
    ensures PassesYear(v, m) && FacultyOf(m).Failure? ==> r == Failure(FacultyOf(m).error)
    ensures PassesFaculty(v, m) && ParseAddress(v, GetValue(m, Address).value).Failure? ==>
      r == Failure(ParseAddress(v, GetValue(m, Address).value).error)
    ensures PassesAddress(v, m) && ParseTags(v, AllValues(m, Tag)).Failure? ==>
      r == Failure(ParseTags(v, AllValues(m, Tag)).error)
    ensures r.Success? ==>
      var p := r.value.toAdd;
      && p.presence == Unmarked && p.points == Points.Zero
      && Success(p.name) == ParseName(v, GetValue(m, Name).value)
      && Success(p.phone) == ParsePhone(GetValue(m, Phone).value)
      && Success(p.email) == ParseEmail(v, GetValue(m, Email).value)
      && Success(p.year) == Year(m)
      && p.faculty.Some? && Success(p.faculty.value) == FacultyOf(m)
      && Success(p.address) == ParseAddress(v, GetValue(m, Address).value)
      && Success(p.tags) == ParseTags(v, AllValues(m, Tag))
  {
    if !RequiredPresent(m) || m.preamble != [] then Failure(ParseError(InvalidCommandFormat(COMMAND_WORD)))
    else if VerifyNoDuplicates(m, SINGLE_VALUED).Some? then Failure(VerifyNoDuplicates(m, SINGLE_VALUED).value)
    else
      var name :- ParseName(v, GetValue(m, Name).value);
      var phone :- ParsePhone(GetValue(m, Phone).value);
      var email :- ParseEmail(v, GetValue(m, Email).value);
      var year :- Year(m);
      var faculty :- FacultyOf(m);
      var address :- ParseAddress(v, GetValue(m, Address).value);
      var tags :- ParseTags(v, AllValues(m, Tag));
      Success(AddCommand.Command(New7(name, phone, email, year, Some(faculty), address, tags)))
  }

  /** Without `y/` the member is in year 1, and without `f/` in "School of Computing". */
  lemma Defaults(v: Validators, m: ArgMap)
    requires Parse(v, m).Success?
    ensures GetValue(m, YearOfStudy).None? ==> Parse(v, m).value.toAdd.year == DEFAULT_YEAR_OF_STUDY
    ensures GetValue(m, Faculty).None? ==> Parse(v, m).value.toAdd.faculty == Some(DEFAULT_FACULTY)
  {
  }

  /** Every year the parser accepts lies in [1, 5]. */
  lemma YearInRange(m: ArgMap)
    requires Year(m).Success?
    ensures MIN_YEAR <= Year(m).value <= MAX_YEAR
  {
  }
}

/** What happens to a freshly added member when the list is saved and read back. */
module AddedMemberStorage {
  import opened Wrappers
  import opened JavaString
  import opened Validators
  import CliSyntax
  import opened ArgumentMultimap
  import opened ParserUtil
  import opened Persons
  import opened JsonAdaptedPerson
  import opened JsonRoundTrip
  import opened AddCommandParser
  import Phone

  /** Everything the parser builds passes the load-time checks with the year range
      [1, 5]. */
  lemma ParsedIsStorable(v: Validators, m: ArgMap)
    requires Parse(v, m).Success?
    ensures Storable(v, Parse(v, m).value.toAdd, 5)
  {
    var p := Parse(v, m).value.toAdd;
    YearInRange(m);
    forall t | t in p.tags ensures v.isValidTagName(t) {
      var tags := AllValues(m, CliSyntax.Tag);
      var i :| 0 <= i < |tags| && Trim(tags[i]) == t;
    }
  }

  /** With the corrected loader an added member survives a save and reload, and
      comes back absent rather than unmarked. */
  lemma AddedMemberReloads(v: Validators, m: ArgMap)
    requires Parse(v, m).Success?
    ensures ToModelType(v, FromPerson(Parse(v, m).value.toAdd))
         == Success(Parse(v, m).value.toAdd.(presence := Absent))
  {
    ParsedIsStorable(v, m);
    CorrectedRoundTrip(v, Parse(v, m).value.toAdd);
  }

  /** `add n/A p/91234567 e/a@b.c a/X y/5`, as the tokenizer splits it. */
  function YearFiveArgs(): ArgMap {
    ArgMap([], map[CliSyntax.Name := ["A"], CliSyntax.Phone := ["91234567"], CliSyntax.Email := ["a@b.c"],
                   CliSyntax.Address := ["X"], CliSyntax.YearOfStudy := ["5"]])
  }

  lemma YearFiveNameEmailAddress(v: Validators)
    requires v.isValidName("A") && v.isValidEmail("a@b.c") && v.isValidAddress("X")
    ensures ParseName(v, "A") == Success("A") && ParseEmail(v, "a@b.c") == Success("a@b.c")
    ensures ParseAddress(v, "X") == Success("X")
  {
    TrimOfTrimmed("A");
    TrimOfTrimmed("a@b.c");
    TrimOfTrimmed("X");
  }

  lemma YearFivePhone()
    ensures ParsePhone("91234567") == Success("91234567")
  {
    Phone.NormalizeOfPattern("91234567");
  }

  lemma YearFiveYear()
    ensures ParseYearOfStudy("5") == Success(5)
  {
    TrimOfTrimmed("5");
    assert ParseInt("5") == Some(5);
  }

  lemma YearFiveShape()
    ensures WellFormed(YearFiveArgs()) && AllValues(YearFiveArgs(), CliSyntax.Tag) == []
    ensures GetValue(YearFiveArgs(), CliSyntax.YearOfStudy) == Some("5")
    ensures GetValue(YearFiveArgs(), CliSyntax.Faculty) == None
    ensures GetValue(YearFiveArgs(), CliSyntax.Name) == Some("A")
    ensures GetValue(YearFiveArgs(), CliSyntax.Phone) == Some("91234567")
    ensures GetValue(YearFiveArgs(), CliSyntax.Email) == Some("a@b.c")
    ensures GetValue(YearFiveArgs(), CliSyntax.Address) == Some("X")
  {
  }

  /** Where the name, email and address validators accept "A", "a@b.c" and "X",
      `add n/A p/91234567 e/a@b.c a/X y/5` succeeds and adds a member in year 5.
      The loader as written refuses that member once saved; the corrected loader
      reads it back. */
  lemma AddedYearFiveIsLost(v: Validators)
    requires v.isValidName("A") && v.isValidEmail("a@b.c") && v.isValidAddress("X")
    ensures Parse(v, YearFiveArgs()).Success?
    ensures Parse(v, YearFiveArgs()).value.toAdd.year == 5
    ensures ToModelTypeAsWritten(v, FromPerson(Parse(v, YearFiveArgs()).value.toAdd)).Failure?
    ensures ToModelType(v, FromPerson(Parse(v, YearFiveArgs()).value.toAdd)).Success?
  {
    var m := YearFiveArgs();
    YearFiveShape();
    YearFiveNameEmailAddress(v);
    YearFivePhone();
    YearFiveYear();
    assert FieldsParse(v, m);
    var p := Parse(v, m).value.toAdd;
    AsWrittenLosesYearFive(v, p);
    AddedMemberReloads(v, m);
  }
}

=== FILE: add_points_command.dfy ===
/** `addpoints INDEX POINTS`: adds points to the shown member at INDEX. */
module AddPointsCommand {
  import opened Wrappers
  import opened JavaString
  import opened Exceptions
  import opened Persons
  import Points
  import opened ClubModel

  /** The zero-based position in the shown list and the points to add; equality is
      on this pair. */
  datatype Command = Command(targetIndex: nat, pointsToAdd: Int32)

  /** `new Points(value + pointsToAdd)`, with Java's wrapping `int` sum: the result
      exists exactly when the exact sum is a non-negative `int`. */
  function NewTotal(p: Points.Points, n: Int32): (r: Result<Points.Points, Error>)
    ensures r.Success? <==> 0 <= p + n <= INT_MAX
    ensures r.Success? ==> r.value == p + n
    ensures r.Failure? ==> r.error == IllegalArgument(Text(Points.MESSAGE_CONSTRAINTS))
  {
    if p + n > INT_MAX then Wrap32Overflow(p + n); Points.New(Wrap32(p + n))
    else Points.New(Wrap32(p + n))
  }

  function SuccessMessage(name: string, added: int, total: int): string {
    "Added " + IntToDecimal(added) + " points to " + name + ". New total: " + IntToDecimal(total) + " points."
  }

  /** `execute`: an index past the shown list is refused; otherwise only the target's
      points change, to the old value plus `pointsToAdd`. */
  function Execute(c: Command, m: Model): (r: Result<Executed, Error>)
    ensures c.targetIndex >= |ShownList(m)| ==> r == Failure(CommandError(InvalidMemberDisplayedIndex))
    ensures c.targetIndex < |ShownList(m)| ==>
      var target := ShownList(m)[c.targetIndex];
      && (r.Success? <==> 0 <= target.points + c.pointsToAdd <= INT_MAX)
      && (r.Failure? ==> r.error == IllegalArgument(Text(Points.MESSAGE_CONSTRAINTS)))
      && (r.Success? ==>
            && r.value.model.filter == m.filter
            && ReplacedAt(m.persons, r.value.model.persons, IndexOf(m.persons, target),
                          WithPoints(target, target.points + c.pointsToAdd))
            && r.value.feedback
               == Said(SuccessMessage(target.name, c.pointsToAdd, target.points + c.pointsToAdd)))
  {
    var shown := ShownList(m);
    if c.targetIndex >= |shown| then Failure(CommandError(InvalidMemberDisplayedIndex))
    else
      var target := shown[c.targetIndex];
      ShownAreMembers(m, c.targetIndex);
      match NewTotal(target.points, c.pointsToAdd)
      case Failure(e) => Failure(e)
      case Success(total) =>
        var updated := New9(target.name, target.phone, target.email, target.year, target.faculty,
                            target.address, target.tags, target.presence, total);
        Success(Executed(m.(persons := SetPerson(m.persons, target, updated)),
                         Said(SuccessMessage(target.name, c.pointsToAdd, total))))
  }

  /** Adding points keeps every identity unique. */
  lemma AddPointsKeepsNoDuplicates(c: Command, m: Model)
    requires NoDuplicates(m.persons) && Execute(c, m).Success?
    ensures NoDuplicates(Execute(c, m).value.model.persons)
  {
    var target := ShownList(m)[c.targetIndex];
    ShownAreMembers(m, c.targetIndex);
    SetPersonKeepsNoDuplicates(m.persons, target, WithPoints(target, target.points + c.pointsToAdd));
  }

  /** The parser admits at most `Integer.MAX_VALUE / 2` points, which still
      overflows for a member holding more than half the range. */
  lemma LargeTotalOverflows(p: Points.Points, n: Int32)
    requires 0 < n <= INT_MAX / 2 && p > INT_MAX - n
    ensures NewTotal(p, n).Failure?
  {
  }
}

=== FILE: cli_syntax.dfy ===
/** The command-line prefixes (`n/`, `p/`, `e/`, `y/`, `f/`, `a/`, `t/`, `any/`).
    Their spelling lives in a class this model does not contain, so they are
    named rather than spelled. */
module CliSyntax {
  datatype Prefix = Name | Phone | Email | YearOfStudy | Faculty | Address | Tag | Any
}

/** What `ArgumentTokenizer.tokenize` produces: the text before the first prefix,
    and for every prefix the values that followed it, in order. */
module ArgumentMultimap {
  import opened Wrappers
  import opened Exceptions
  import opened CliSyntax

  datatype ArgMap = ArgMap(preamble: string, values: map<Prefix, seq<string>>)

  /** `getAllValues`: every value given for the prefix, in order; none if absent. */
  function AllValues(m: ArgMap, prefix: Prefix): seq<string> {
    if prefix in m.values then m.values[prefix] else []
  }

  /** `getValue`: the last value given for the prefix, if any. */
  function GetValue(m: ArgMap, prefix: Prefix): (r: Option<string>)
    ensures r.Some? <==> AllValues(m, prefix) != []
    ensures r.Some? ==> r.value == AllValues(m, prefix)[|AllValues(m, prefix)| - 1]
  {
    var vs := AllValues(m, prefix);
    if vs == [] then None else Some(vs[|vs| - 1])
  }

  /** The prefixes among `prefixes` given more than once. */
  function Repeated(m: ArgMap, prefixes: set<Prefix>): (r: set<Prefix>)
    ensures r <= prefixes
    ensures forall p :: p in prefixes ==> (p in r <==> |AllValues(m, p)| > 1)
  {
    set p | p in prefixes && |AllValues(m, p)| > 1
  }

  /** `verifyNoDuplicatePrefixesFor`: `None` when each of `prefixes` appears at
      most once, otherwise the parse error naming the repeated ones. */
  function VerifyNoDuplicates(m: ArgMap, prefixes: set<Prefix>): (r: Option<Error>)
    ensures r.None? <==> forall p :: p in prefixes ==> |AllValues(m, p)| <= 1
    ensures r.Some? ==> r.value.kind == ParseException && r.value.message.DuplicatePrefixes?
  {
    var repeated := Repeated(m, prefixes);
    if repeated == {} then None
    else Some(ParseError(DuplicatePrefixes(repeated)))
  }
}

=== FILE: exceptions.dfy ===
/** The exceptions the modelled Java code throws, as data: which exception class,
    and which message it carries. */
module Exceptions {
  import CliSyntax

  /** The Java exception class. The first three are the checked exceptions the
      application reports to the user; the last three are unchecked runtime
      exceptions that escape the modelled code. */
  datatype Kind =
    | ParseException
    | CommandException
    | IllegalValueException
    | IllegalArgumentException
    | NumberFormatException
    | IndexOutOfBoundsException

  /** An exception message: literal text built by the modelled code, or a message
      constant defined in a class this model does not contain. */
  datatype Message =
    | Text(text: string)
      /** `Messages.MESSAGE_INVALID_COMMAND_FORMAT` filled with the usage text of the named command. */
    | InvalidCommandFormat(commandWord: string)
      /** `MESSAGE_CONSTRAINTS` of the named value class (Name, Email, Address, Tag). */
    | ConstraintsOf(className: string)
      /** `Messages.getErrorMessageForDuplicatePrefixes` over the repeated prefixes. */
    | DuplicatePrefixes(prefixes: set<CliSyntax.Prefix>)
      /** `Messages.MESSAGE_INVALID_MEMBER_DISPLAYED_INDEX`. */
    | InvalidMemberDisplayedIndex
      /** `FILE_OPS_ERROR_FORMAT` filled with the message of an `IOException`. */
    | FileOpsError
      /** A runtime-library exception whose message is not modelled. */
    | LibraryMessage

  datatype Error = Error(kind: Kind, message: Message)

  function ParseError(m: Message): Error {
    Error(ParseException, m)
  }

  function CommandError(m: Message): Error {
    Error(CommandException, m)
  }

  function IllegalValue(m: Message): Error {
    Error(IllegalValueException, m)
  }

  function IllegalArgument(m: Message): Error {
    Error(IllegalArgumentException, m)
  }
}

=== FILE: java_string.dfy ===
/** The parts of Java's `int` and `String` semantics the ClubTrack code relies on:
    32-bit wrap-around, `trim`, `isBlank`, ASCII `toLowerCase`, `contains`,
    `startsWith`, `split("\\s+")`, `split("\\s+", 2)`, `Integer.parseInt` and
    `String.valueOf(int)`.  Characters are taken to be ASCII. */
module JavaString {
  import opened Wrappers

  const INT_MIN: int := -0x8000_0000
  const INT_MAX: int := 0x7FFF_FFFF

  /** Values of Java's `int`. */
  type Int32 = x: int | INT_MIN <= x <= INT_MAX

  /** Two's-complement wrap-around of an exact result into `int`, as Java's `+` does. */
  function Wrap32(x: int): (r: Int32)
    ensures INT_MIN <= x <= INT_MAX ==> r == x
    ensures (r - x) % 0x1_0000_0000 == 0
  {
    (x - INT_MIN) % 0x1_0000_0000 + INT_MIN
  }

  /** Wrapping after every addition is the same as wrapping the exact sum once. */
  lemma Wrap32Add(a: int, b: int)
    ensures Wrap32(Wrap32(a) + b) == Wrap32(a + b)
  {
    var y := a - INT_MIN;
    var d, r1 := y / 0x1_0000_0000, y % 0x1_0000_0000;
    var e, r2 := (r1 + b) / 0x1_0000_0000, (r1 + b) % 0x1_0000_0000;
    assert y + b == (d + e) * 0x1_0000_0000 + r2;
    ModUnique(y + b, d + e, r2);
  }

  /** A sum of two non-negative `int`s that exceeds `Integer.MAX_VALUE` wraps to a
      negative number. */
  lemma Wrap32Overflow(x: int)
    requires INT_MAX < x <= 2 * INT_MAX
    ensures Wrap32(x) == x - 0x1_0000_0000 && Wrap32(x) < 0
  {
    ModUnique(x - INT_MIN, 1, x - INT_MIN - 0x1_0000_0000);
  }

  /** Euclidean remainder by 2^32 is determined by any quotient/remainder split. */
  lemma ModUnique(x: int, q: int, r: int)
    requires 0 <= r < 0x1_0000_0000 && x == q * 0x1_0000_0000 + r
    ensures x % 0x1_0000_0000 == r
  {
  }

  /** Characters matched by the regular expression `\s`. */
  predicate IsRegexSpace(c: char) {
    c == ' ' || c == '\t' || c == '\n' || c == '\U{0B}' || c == '\U{0C}' || c == '\r'
  }

  /** Characters `String.trim` removes: every code point up to U+0020. */
  predicate IsTrimmable(c: char) {
    c <= ' '
  }

  /** `Character.isWhitespace`, restricted to ASCII. */
  predicate IsJavaWhitespace(c: char) {
    IsRegexSpace(c) || ('\U{1C}' <= c <= '\U{1F}')
  }

  /** `String.isBlank`. */
  predicate IsBlank(s: string) {
    forall i :: 0 <= i < |s| ==> IsJavaWhitespace(s[i])
  }

  function TrimStart(s: string): string {
    if s == [] || !IsTrimmable(s[0]) then s else TrimStart(s[1..])
  }

  function TrimEnd(s: string): string {
    if s == [] || !IsTrimmable(s[|s| - 1]) then s else TrimEnd(s[..|s| - 1])
  }

  /** `String.trim`: drops leading and trailing characters up to U+0020. */
  function Trim(s: string): string {
    TrimEnd(TrimStart(s))
  }

  /** `TrimStart` drops a prefix of trimmable characters and stops at a kept one. */
  lemma {:induction false} TrimStartShape(s: string)
    ensures var r := TrimStart(s);
      |r| <= |s| && r == s[|s| - |r|..] && (r == [] || !IsTrimmable(r[0]))
      && forall i :: 0 <= i < |s| - |r| ==> IsTrimmable(s[i])
  {
    if s != [] && IsTrimmable(s[0]) {
      TrimStartShape(s[1..]);
      var r := TrimStart(s);
      forall i | 0 < i < |s| - |r| ensures IsTrimmable(s[i]) {
        assert s[i] == s[1..][i - 1];
      }
    }
  }

  /** `TrimEnd` drops a suffix of trimmable characters and stops at a kept one. */
  lemma {:induction false} TrimEndShape(s: string)
    ensures var r := TrimEnd(s);
      |r| <= |s| && r == s[..|r|] && (r == [] || !IsTrimmable(r[|r| - 1]))
      && forall i :: |r| <= i < |s| ==> IsTrimmable(s[i])
  {
    if s != [] && IsTrimmable(s[|s| - 1]) {
      TrimEndShape(s[..|s| - 1]);
    }
  }

  /** The trimmed text is no longer than the input and starts and ends with a kept
      character. */
  lemma TrimShape(s: string)
    ensures |Trim(s)| <= |s|
    ensures Trim(s) == [] || (!IsTrimmable(Trim(s)[0]) && !IsTrimmable(Trim(s)[|Trim(s)| - 1]))
  {
    TrimStartShape(s);
    var t := TrimStart(s);
    TrimEndShape(t);
  }

  /** Trimming leaves nothing exactly when every character is trimmable. */
  lemma TrimEmptyIff(s: string)
    ensures Trim(s) == [] <==> forall i :: 0 <= i < |s| ==> IsTrimmable(s[i])
  {
    TrimStartShape(s);
    var t := TrimStart(s);
    TrimEndShape(t);
    if Trim(s) != [] {
      var r := Trim(s);
      assert r[0] == t[0] == s[|s| - |t|];
    }
  }

  /** A string without trimmable characters at either end is its own trim. */
  lemma TrimOfTrimmed(s: string)
    requires s == [] || (!IsTrimmable(s[0]) && !IsTrimmable(s[|s| - 1]))
    ensures Trim(s) == s
  {
  }

  /** Trimming twice is trimming once. */
  lemma TrimIdempotent(s: string)
    ensures Trim(Trim(s)) == Trim(s)
  {
    TrimShape(s);
    TrimOfTrimmed(Trim(s));
  }

  function LowerChar(c: char): char {
    if 'A' <= c <= 'Z' then (c as int + 32) as char else c
  }

  /** `String.toLowerCase`, ASCII letters only. */
  function ToLower(s: string): (r: string)
    ensures |r| == |s|
  {
    seq(|s|, i requires 0 <= i < |s| => LowerChar(s[i]))
  }

  lemma ToLowerIdempotent(s: string)
    ensures ToLower(ToLower(s)) == ToLower(s)
  {
  }

  /** Lower-cases every string of a list, keeping its order. */
  function ToLowerAll(ss: seq<string>): (r: seq<string>)
    ensures |r| == |ss|
  {
    seq(|ss|, i requires 0 <= i < |ss| => ToLower(ss[i]))
  }

  /** Lower-casing keeps `\s` characters where they are. */
  lemma ToLowerKeepsSpaces(s: string)
    ensures forall i :: 0 <= i < |s| ==> (IsRegexSpace(ToLower(s)[i]) <==> IsRegexSpace(s[i]))
  {
  }

  /** Lower-casing distributes over concatenation. */
  lemma ToLowerAppend(a: string, b: string)
    ensures ToLower(a + b) == ToLower(a) + ToLower(b)
  {
  }

  /** `String.startsWith`. */
  predicate StartsWith(s: string, prefix: string) {
    |prefix| <= |s| && s[..|prefix|] == prefix
  }

  /** `String.contains`: `needle` occurs somewhere in `s`. */
  predicate Contains(s: string, needle: string) {
    exists i :: 0 <= i <= |s| - |needle| && OccursAt(s, needle, i)
  }

  predicate OccursAt(s: string, needle: string, i: int) {
    0 <= i <= |s| - |needle| && s[i..i + |needle|] == needle
  }

  /** Length of the longest prefix of `s` free of `\s` characters. */
  function NonSpacePrefixLength(s: string): (n: nat)
    ensures n <= |s|
    ensures forall i :: 0 <= i < n ==> !IsRegexSpace(s[i])
    ensures n == |s| || IsRegexSpace(s[n])
  {
    if s == [] || IsRegexSpace(s[0]) then 0 else 1 + NonSpacePrefixLength(s[1..])
  }

  /** Length of the longest prefix of `s` made only of `\s` characters. */
  function SpacePrefixLength(s: string): (n: nat)
    ensures n <= |s|
    ensures forall i :: 0 <= i < n ==> IsRegexSpace(s[i])
    ensures n == |s| || !IsRegexSpace(s[n])
  {
    if s == [] || !IsRegexSpace(s[0]) then 0 else 1 + SpacePrefixLength(s[1..])
  }

  /** A word: non-empty and free of `\s` characters. */
  predicate IsWord(w: string) {
    w != [] && forall i :: 0 <= i < |w| ==> !IsRegexSpace(w[i])
  }

  /** The maximal runs of non-`\s` characters of `s`, left to right. */
  function Runs(s: string): (r: seq<string>)
    ensures forall k :: 0 <= k < |r| ==> IsWord(r[k])
    ensures r == [] <==> forall i :: 0 <= i < |s| ==> IsRegexSpace(s[i])
    decreases |s|
  {
    if s == [] then []
    else if IsRegexSpace(s[0]) then
      var r := Runs(s[1..]);
      assert r == [] <==> forall i :: 0 <= i < |s| ==> IsRegexSpace(s[i]) by {
        if r == [] {
          forall i | 0 <= i < |s| ensures IsRegexSpace(s[i]) {
            if i > 0 { assert s[i] == s[1..][i - 1]; }
          }
        }
      }
      r
    else
      var n := NonSpacePrefixLength(s);
      [s[..n]] + Runs(s[n..])
  }

  /** `String.split("\\s+")`: a leading separator yields a leading empty string,
      trailing empty strings are dropped, and a string with no separator is its
      own single piece. */
  function SplitWs(s: string): seq<string> {
    if s == [] then [""]
    else
      var runs := Runs(s);
      if runs == [] then []
      else (if IsRegexSpace(s[0]) then [""] else []) + runs
  }

  /** A string that does not start with a `\s` character splits into its runs. */
  lemma SplitWsOfUnpadded(s: string)
    requires s != [] && !IsRegexSpace(s[0])
    ensures SplitWs(s) == Runs(s)
  {
  }

  /** A word followed by nothing or by a `\s` character is the whole first run. */
  lemma {:induction false} NonSpacePrefixOfWord(w: string, rest: string)
    requires IsWord(w) && (rest == [] || IsRegexSpace(rest[0]))
    ensures NonSpacePrefixLength(w + rest) == |w|
  {
    assert (w + rest)[0] == w[0];
    if |w| > 1 {
      assert (w + rest)[1..] == w[1..] + rest;
      NonSpacePrefixOfWord(w[1..], rest);
    } else {
      assert (w + rest)[1..] == rest;
    }
  }

  lemma RunsOfWordThen(w: string, rest: string)
    requires IsWord(w) && (rest == [] || IsRegexSpace(rest[0]))
    ensures Runs(w + rest) == [w] + Runs(rest)
  {
    NonSpacePrefixOfWord(w, rest);
    assert (w + rest)[..|w|] == w;
    assert (w + rest)[|w|..] == rest;
  }

  /** Two words joined by one space split into exactly those two words. */
  lemma SplitWsTwoWords(a: string, b: string)
    requires IsWord(a) && IsWord(b)
    ensures SplitWs(a + " " + b) == [a, b]
  {
    RunsOfWordThen(a, " " + b);
    assert a + " " + b == a + (" " + b);
    assert (" " + b)[1..] == b;
    RunsOfWordThen(b, []);
    assert b + [] == b;
  }

  /** `String.split("\\s+", 2)`: at most two pieces, split at the first separator run;
      with a positive limit trailing empty strings are kept. */
  function SplitWsLimit2(s: string): (r: seq<string>)
    ensures 1 <= |r| <= 2
    ensures |r| == 1 <==> forall i :: 0 <= i < |s| ==> !IsRegexSpace(s[i])
  {
    var i := NonSpacePrefixLength(s);
    if i == |s| then [s]
    else
      var rest := s[i..];
      [s[..i], rest[SpacePrefixLength(rest)..]]
  }

  predicate IsDigit(c: char) {
    '0' <= c <= '9'
  }

  predicate AllDigits(s: string) {
    forall i :: 0 <= i < |s| ==> IsDigit(s[i])
  }

  /** The value of a string of decimal digits, most significant first. */
  function DigitsValue(ds: string): nat
    requires AllDigits(ds)
  {
    if ds == [] then 0 else DigitsValue(ds[..|ds| - 1]) * 10 + (ds[|ds| - 1] as int - '0' as int)
  }

  /** `Integer.parseInt`: an optional sign, at least one decimal digit, and a value
      inside `int`; `None` stands for `NumberFormatException`. */
  function ParseInt(s: string): (r: Option<Int32>)
    ensures r.Some? ==> s != [] && AllDigits(if s[0] == '-' || s[0] == '+' then s[1..] else s)
  {
    if s == [] then None
    else
      var digits := if s[0] == '-' || s[0] == '+' then s[1..] else s;
      if digits == [] || !AllDigits(digits) then None
      else
        var v: int := if s[0] == '-' then -(DigitsValue(digits) as int) else DigitsValue(digits);
        if INT_MIN <= v <= INT_MAX then Some(v) else None
  }

  function DigitChar(d: nat): char
    requires d < 10
  {
    ('0' as int + d) as char
  }

  /** Decimal digits of a natural number, no leading zeros. */
  function NatToDecimal(n: nat): (r: string)
    ensures r != [] && AllDigits(r)
    ensures r[0] != '-' && r[0] != '+'
  {
    if n < 10 then [DigitChar(n)] else NatToDecimal(n / 10) + [DigitChar(n % 10)]
  }

  /** `String.valueOf(int)`. */
  function IntToDecimal(n: int): string {
    if n < 0 then "-" + NatToDecimal(-n) else NatToDecimal(n)
  }

  lemma {:induction false} DigitsValueOfDecimal(n: nat)
    ensures DigitsValue(NatToDecimal(n)) == n
  {
    if n >= 10 {
      var r := NatToDecimal(n);
      DigitsValueOfDecimal(n / 10);
      assert r[..|r| - 1] == NatToDecimal(n / 10);
    }
  }

  /** `Integer.parseInt` reads back what `String.valueOf` writes, for every `int`. */
  lemma ParseIntOfDecimal(n: Int32)
    ensures ParseInt(IntToDecimal(n)) == Some(n)
  {
    if n < 0 {
      var m: nat := -(n as int);
      DigitsValueOfDecimal(m);
      assert IntToDecimal(n)[1..] == NatToDecimal(m);
    } else {
      DigitsValueOfDecimal(n);
    }
  }
}

=== FILE: json_adapted_person.dfy ===
/** `JsonAdaptedPerson`: the stored form of a member, in which every field may be
    missing, and the load-time check that turns it back into a `Person`. */
module JsonAdaptedPerson {
  import opened Wrappers
  import opened JavaString
  import opened Exceptions
  import opened Validators
  import Phone
  import Points
  import opened Persons

  /** A member as read from or written to JSON; `None` is a missing (`null`) field.
      The tag list is held as the set of its names: its order cannot change the
      outcome of loading, since every bad tag raises the same error. */
  datatype Adapted = Adapted(
    name: Option<string>,
    phone: Option<string>,
    email: Option<string>,
    yearOfStudy: Option<Int32>,
    faculty: Option<string>,
    address: Option<string>,
    tags: set<string>,
    isPresent: Option<bool>,
    points: Option<Int32>)

  /** `String.format(MISSING_FIELD_MESSAGE_FORMAT, field)`. */
  function MissingField(field: string): Error {
    IllegalValue(Text("Person's " + field + " field is missing!"))
  }

  /** The stored form of the tri-state presence. */
  function PresenceToBoolean(p: Presence): Option<bool> {
    match p
    case Unmarked => None
    case Present => Some(true)
    case Absent => Some(false)
  }

  /** `new JsonAdaptedPerson(Person)`: every field copied, presence as a nullable
      boolean. */
  function FromPerson(p: Person): (r: Adapted)
    ensures r.name == Some(p.name) && r.phone == Some(p.phone) && r.email == Some(p.email)
    ensures r.yearOfStudy == Some(p.year) && r.faculty == p.faculty && r.address == Some(p.address)
    ensures r.tags == p.tags && r.points == Some(p.points)
    ensures r.isPresent.None? <==> p.presence == Unmarked
  {
    Adapted(Some(p.name), Some(p.phone), Some(p.email), Some(p.year), p.faculty,
            Some(p.address), p.tags, PresenceToBoolean(p.presence), Some(p.points))
  }

  /** The year-of-study range message for an upper bound of `maxYear`. */
  function YearRangeMessage(maxYear: int): string
    requires 1 <= maxYear <= 9
  {
    "Year of Study must be between 1 and " + [DigitChar(maxYear)]
  }

  /** What a member loads successfully from, given the validators and the highest
      accepted year of study. */
  predicate Loadable(v: Validators, a: Adapted, maxYear: int) {
    (forall t :: t in a.tags ==> v.isValidTagName(t))
    && a.name.Some? && v.isValidName(a.name.value)
    && a.phone.Some? && Phone.IsValidPhone(a.phone.value)
    && a.email.Some? && v.isValidEmail(a.email.value)
    && a.yearOfStudy.Some? && 1 <= a.yearOfStudy.value <= maxYear
    && a.faculty.Some?
    && a.address.Some? && v.isValidAddress(a.address.value)
    && a.points.GetOr(0) >= 0
  }

  /** The checks `toModelType` makes in turn, each stage including the ones before it:
      tags, name, phone, email, year, faculty, address. */
  predicate PassesTags(v: Validators, a: Adapted) {
    forall t :: t in a.tags ==> v.isValidTagName(t)
  }

  predicate PassesName(v: Validators, a: Adapted) {
    PassesTags(v, a) && a.name.Some? && v.isValidName(a.name.value)
  }

  predicate PassesPhone(v: Validators, a: Adapted) {
    PassesName(v, a) && a.phone.Some? && Phone.IsValidPhone(a.phone.value)
  }

  predicate PassesEmail(v: Validators, a: Adapted) {
    PassesPhone(v, a) && a.email.Some? && v.isValidEmail(a.email.value)
  }

  predicate PassesYear(v: Validators, a: Adapted, maxYear: int) {
    PassesEmail(v, a) && a.yearOfStudy.Some? && 1 <= a.yearOfStudy.value <= maxYear
  }

  predicate PassesFaculty(v: Validators, a: Adapted, maxYear: int) {
    PassesYear(v, a, maxYear) && a.faculty.Some?
  }

  /** `toModelType` with the year range's upper bound as a parameter.  Checks run in
      the order tags, name, phone, email, year, faculty, address, then points; the
      first violation decides the error.  A negative points value escapes as the
      `IllegalArgumentException` of `Points`, not as an `IllegalValueException`. */
  function Load(v: Validators, a: Adapted, maxYear: int): (r: Result<Person, Error>)
    requires 1 <= maxYear <= 9
    ensures r.Success? <==> Loadable(v, a, maxYear)
    ensures r.Success? ==>
      && Some(r.value.name) == a.name && r.value.phone == Phone.Normalize(a.phone.value)
      && Some(r.value.email) == a.email && Some(r.value.year) == a.yearOfStudy
      && r.value.faculty == a.faculty && Some(r.value.address) == a.address
      && r.value.tags == a.tags && r.value.points == a.points.GetOr(0)
      && r.value.presence == (if a.isPresent == Some(true) then Present else Absent)
    ensures !PassesTags(v, a) ==> r == Failure(IllegalValue(ConstraintsOf(TAG)))
    ensures PassesTags(v, a) && a.name.None? ==> r == Failure(MissingField(NAME))
    ensures PassesTags(v, a) && a.name.Some? && !v.isValidName(a.name.value) ==>
      r == Failure(IllegalValue(ConstraintsOf(NAME)))
    ensures PassesName(v, a) && a.phone.None? ==> r == Failure(MissingField("Phone"))
    ensures PassesName(v, a) && a.phone.Some? && !Phone.IsValidPhone(a.phone.value) ==>
      r == Failure(IllegalValue(Text(Phone.MESSAGE_CONSTRAINTS)))
    ensures PassesPhone(v, a) && a.email.None? ==> r == Failure(MissingField(EMAIL))
    ensures PassesPhone(v, a) && a.email.Some? && !v.isValidEmail(a.email.value) ==>
      r == Failure(IllegalValue(ConstraintsOf(EMAIL)))
    ensures PassesEmail(v, a) && a.yearOfStudy.None? ==> r == Failure(MissingField("Year of Study"))
    ensures PassesEmail(v, a) && a.yearOfStudy.Some? && !(1 <= a.yearOfStudy.value <= maxYear) ==>
      r == Failure(IllegalValue(Text(YearRangeMessage(maxYear))))
    ensures PassesYear(v, a, maxYear) && a.faculty.None? ==> r == Failure(MissingField("Faculty"))
    ensures PassesFaculty(v, a, maxYear) && a.address.None? ==> r == Failure(MissingField(ADDRESS))
    ensures PassesFaculty(v, a, maxYear) && a.address.Some? && !v.isValidAddress(a.address.value) ==>
      r == Failure(IllegalValue(ConstraintsOf(ADDRESS)))
    ensures Loadable(v, a.(points := None), maxYear) && a.points.GetOr(0) < 0 ==>
      r == Failure(IllegalArgument(Text(Points.MESSAGE_CONSTRAINTS)))
  {
    if exists t :: t in a.tags && !v.isValidTagName(t) then Failure(IllegalValue(ConstraintsOf(TAG)))
    else if a.name.None? then Failure(MissingField(NAME))
    else if !v.isValidName(a.name.value) then Failure(IllegalValue(ConstraintsOf(NAME)))
    else if a.phone.None? then Failure(MissingField("Phone"))
    else if !Phone.IsValidPhone(a.phone.value) then Failure(IllegalValue(Text(Phone.MESSAGE_CONSTRAINTS)))
    else if a.email.None? then Failure(MissingField(EMAIL))
    else if !v.isValidEmail(a.email.value) then Failure(IllegalValue(ConstraintsOf(EMAIL)))
    else if a.yearOfStudy.None? then Failure(MissingField("Year of Study"))
    else if a.yearOfStudy.value < 1 || a.yearOfStudy.value > maxYear then
      Failure(IllegalValue(Text(YearRangeMessage(maxYear))))
    else if a.faculty.None? then Failure(MissingField("Faculty"))
    else if a.address.None? then Failure(MissingField(ADDRESS))
    else if !v.isValidAddress(a.address.value) then Failure(IllegalValue(ConstraintsOf(ADDRESS)))
    else
      var phone := Phone.New(a.phone.value).value;
      match Points.New(a.points.GetOr(0))
      case Failure(e) => Failure(e)
      case Success(points) =>
        Success(New9(a.name.value, phone, a.email.value, a.yearOfStudy.value, a.faculty,
                     a.address.value, a.tags, if a.isPresent == Some(true) then Present else Absent,
                     points))
  }

  /** `toModelType` as written: it accepts years 1 to 4 only, although `parseYearOfStudy`
      accepts 1 to 5. */
  function ToModelTypeAsWritten(v: Validators, a: Adapted): (r: Result<Person, Error>)
    ensures r.Success? <==> Loadable(v, a, 4)
    ensures a.yearOfStudy == Some(5) ==> r.Failure?
  {
    Load(v, a, 4)
  }

  /** `toModelType` with the year range the parser uses. */
  function ToModelType(v: Validators, a: Adapted): (r: Result<Person, Error>)
    ensures r.Success? <==> Loadable(v, a, 5)
  {
    Load(v, a, 5)
  }

  /** Presence as it comes back from storage: `null` returns as `false`. */
  function Reloaded(p: Person): Person {
    p.(presence := if p.presence == Present then Present else Absent)
  }

  /** What a member must satisfy to survive a save and a reload with the given
      highest year. */
  predicate Storable(v: Validators, p: Person, maxYear: int) {
    && (forall t :: t in p.tags ==> v.isValidTagName(t))
    && v.isValidName(p.name) && v.isValidEmail(p.email) && v.isValidAddress(p.address)
    && 1 <= p.year <= maxYear && p.faculty.Some?
  }
}

/** Save-and-reload properties of the stored form of a member. */
module JsonRoundTrip {
  import opened Wrappers
  import opened Validators
  import Phone
  import opened Persons
  import opened JsonAdaptedPerson

  /** A storable member's stored form passes every load-time check. */
  lemma StoredIsLoadable(v: Validators, p: Person, maxYear: int)
    requires 1 <= maxYear <= 9 && Storable(v, p, maxYear)
    ensures Load(v, FromPerson(p), maxYear).Success?
  {
    Phone.StoredIsValid(p.phone);
    assert Loadable(v, FromPerson(p), maxYear);
  }

  /** Whatever loads from a member's stored form is that member, reloaded. */
  lemma LoadedIsReloaded(v: Validators, p: Person, maxYear: int, q: Person)
    requires 1 <= maxYear <= 9 && Load(v, FromPerson(p), maxYear) == Success(q)
    ensures q == Reloaded(p)
  {
    Phone.StoredIsFixedPoint(p.phone);
  }

  /** Saving and reloading a member gives it back, except that an unmarked member
      returns as absent. */
  lemma RoundTrip(v: Validators, p: Person, maxYear: int)
    requires 1 <= maxYear <= 9 && Storable(v, p, maxYear)
    ensures Load(v, FromPerson(p), maxYear) == Success(Reloaded(p))
  {
    StoredIsLoadable(v, p, maxYear);
    LoadedIsReloaded(v, p, maxYear, Load(v, FromPerson(p), maxYear).value);
  }

  /** A member in year 5 is written out but cannot be read back by the loader as
      written. */
  lemma AsWrittenLosesYearFive(v: Validators, p: Person)
    requires p.year == 5
    ensures ToModelTypeAsWritten(v, FromPerson(p)).Failure?
  {
  }

  /** With the parser's range, every storable member survives a save and reload. */
  lemma CorrectedRoundTrip(v: Validators, p: Person)
    requires Storable(v, p, 5)
    ensures ToModelType(v, FromPerson(p)) == Success(Reloaded(p))
  {
    RoundTrip(v, p, 5);
  }
}

=== FILE: list_manager.dfy ===
/** `ClubTrackListManager`: switching between named list files and removing them.
    A switch loads, creates or recovers the list, then rewrites each member's
    points to the cross-list total for their identity key. */
module ClubTrackListManager {
  import opened Wrappers
  import opened JavaString
  import opened Exceptions
  import opened Persons
  import Points
  import opened ClubModel
  import opened ListStorage
  import opened PointsIndex

  /** Values that `UserPrefs` and `SampleDataUtil` supply; neither class is part
      of this model. */
  datatype Config = Config(defaultName: string, defaultPath: Path, defaultFileName: string, sample: seq<Person>)

  /** The parts of the application model the list manager reads and sets: the
      roster (`setClubTrack`) and the file it belongs to (`setClubTrackFilePath`). */
  datatype Session = Session(roster: seq<Person>, path: Path)

  /** Storage and model after an operation, and the exception it ended with. */
  datatype Outcome = Outcome(disk: Disk, session: Session, error: Option<Error>)

  /** The total a member's points are to be changed to: their key's total, when the
      index has one and it differs from their points. */
  function Correction(p: Person, totals: map<string, Int32>): Option<Int32> {
    match IdentityKey(p)
    case None => None
    case Some(key) => if key in totals && totals[key] != p.points then Some(totals[key]) else None
  }

  /** `new Points(total)` throws for this member: the total wrapped negative. */
  predicate Refused(p: Person, totals: map<string, Int32>) {
    Correction(p, totals).Some? && Correction(p, totals).value < 0
  }

  /** The member as reconciliation leaves them: the corrected points if there is a
      correction the points type admits, and every other field as it was. */
  function Adjusted(p: Person, totals: map<string, Int32>): (r: Person)
    ensures r.(points := p.points) == p
    ensures r != p <==> Correction(p, totals).Some? && !Refused(p, totals)
    ensures Correction(p, totals).Some? && !Refused(p, totals) ==> r.points == Correction(p, totals).value
  {
    match Correction(p, totals)
    case None => p
    case Some(total) => if total < 0 then p else WithPoints(p, total)
  }

  /** The end of the reconciliation loop: it finished, saying whether any member
      changed, or `new Points` threw partway with the roster as it was then. */
  datatype Reconciled =
    | Done(roster: seq<Person>, changed: bool)
    | Interrupted(roster: seq<Person>, error: Error)

  function Prepend(p: Person, changed: bool, r: Reconciled): Reconciled {
    match r
    case Done(rest, c) => Done([p] + rest, changed || c)
    case Interrupted(rest, e) => Interrupted([p] + rest, e)
  }

  /** `reconcilePointsWithTotals`: each member in turn, in roster order, is
      replaced in place by the copy with the corrected points. */
  function Reconcile(roster: seq<Person>, totals: map<string, Int32>): Reconciled
    decreases |roster|
  {
    if roster == [] then Done([], false)
    else
      var p := roster[0];
      match Correction(p, totals)
      case None => Prepend(p, false, Reconcile(roster[1..], totals))
      case Some(total) =>
        match Points.New(total)
        case Failure(e) => Interrupted(roster, e)
        case Success(points) => Prepend(WithPoints(p, points), true, Reconcile(roster[1..], totals))
  }

  /** Position of the first member whose correction is refused, or the length. */
  function FirstRefused(roster: seq<Person>, totals: map<string, Int32>): (j: nat)
    ensures j <= |roster|
    decreases |roster|
  {
    if roster == [] || Refused(roster[0], totals) then 0 else 1 + FirstRefused(roster[1..], totals)
  }

  /** Reconciliation keeps the roster's length, adjusts every member before the
      first refused one, leaves that one and everything after it as it was, and
      finishes exactly when no member is refused; when it does not finish, the
      error is the one `Points` throws for a negative value. */
  lemma {:induction false} ReconcileSpec(roster: seq<Person>, totals: map<string, Int32>)
    ensures var r := Reconcile(roster, totals);
      var j := FirstRefused(roster, totals);
      && |r.roster| == |roster|
      && (r.Done? <==> j == |roster|)
      && (forall i :: 0 <= i < j ==> !Refused(roster[i], totals) && r.roster[i] == Adjusted(roster[i], totals))
      && (j < |roster| ==> Refused(roster[j], totals))
      && (forall i :: j <= i < |roster| ==> r.roster[i] == roster[i])
      && (r.Interrupted? ==> r.error == IllegalArgument(Text(Points.MESSAGE_CONSTRAINTS)))
    decreases |roster|
  {
    if roster != [] {
      ReconcileSpec(roster[1..], totals);
      if !Refused(roster[0], totals) {
        assert Reconcile(roster, totals).roster == [Adjusted(roster[0], totals)] + Reconcile(roster[1..], totals).roster;
        forall i | 0 < i < |roster| ensures roster[i] == roster[1..][i - 1] {}
      }
    }
  }

  /** A finished reconciliation reports a change exactly when some member had a
      correction. */
  lemma {:induction false} ReconcileChanged(roster: seq<Person>, totals: map<string, Int32>)
    requires Reconcile(roster, totals).Done?
    ensures Reconcile(roster, totals).changed <==> exists i :: 0 <= i < |roster| && Correction(roster[i], totals).Some?
    decreases |roster|
  {
    if roster != [] {
      var p := roster[0];
      var r := Reconcile(roster, totals);
      assert Reconcile(roster[1..], totals).Done?;
      ReconcileChanged(roster[1..], totals);
      if !r.changed {
        forall i | 0 <= i < |roster| ensures Correction(roster[i], totals).None? {
          if i > 0 { assert roster[i] == roster[1..][i - 1]; }
        }
      } else if Correction(p, totals).None? {
        var k :| 0 <= k < |roster[1..]| && Correction(roster[1..][k], totals).Some?;
        assert roster[k + 1] == roster[1..][k];
      }
    }
  }

  /** A finished reconciliation leaves nothing to correct: reconciling its result
      against the same totals changes nobody. */
  lemma ReconcileStable(roster: seq<Person>, totals: map<string, Int32>)
    requires Reconcile(roster, totals).Done?
    ensures Reconcile(Reconcile(roster, totals).roster, totals) == Done(Reconcile(roster, totals).roster, false)
  {
    var once := Reconcile(roster, totals).roster;
    ReconcileSpec(roster, totals);
    forall i | 0 <= i < |once| ensures Correction(once[i], totals).None? {
      assert IdentityKey(once[i]) == IdentityKey(roster[i]);
    }
    NothingToCorrect(once, totals);
  }

  lemma {:induction false} NothingToCorrect(roster: seq<Person>, totals: map<string, Int32>)
    requires forall i :: 0 <= i < |roster| ==> Correction(roster[i], totals).None?
    ensures Reconcile(roster, totals) == Done(roster, false)
    decreases |roster|
  {
    if roster != [] {
      assert Correction(roster[0], totals).None?;
      forall i | 0 <= i < |roster[1..]| ensures Correction(roster[1..][i], totals).None? {
        assert roster[1..][i] == roster[i + 1];
      }
      NothingToCorrect(roster[1..], totals);
      assert [roster[0]] + roster[1..] == roster;
    }
  }

  /** In a roster without two members of the same identity, the member at each
      position is found at that position, so replacing "the member equal to this
      one" (`setPerson`) is replacing by position. */
  lemma PositionalIsSetPerson(roster: seq<Person>, i: nat)
    requires NoDuplicates(roster) && i < |roster|
    ensures IndexOf(roster, roster[i]) == i
  {
    var k := IndexOf(roster, roster[i]);
    if k < i {
      assert IsSamePerson(roster[k], roster[i]);
    }
  }

  /** The roster a missing list starts with: the sample members for the default
      list name, otherwise nobody. */
  function Fresh(cfg: Config, listName: string): seq<Person> {
    if listName == cfg.defaultName then cfg.sample else []
  }

  /** Reconciliation of the loaded roster and the save that follows a change. */
  function ReconcileAndSave(disk: Disk, roster: seq<Person>, path: Path, order: seq<Path>): (r: Outcome)
    ensures r.session.path == path
    ensures r.session.roster == Reconcile(roster, BuildTotals(disk, order)).roster
    ensures r.error.None? || r.disk == disk
    ensures r.error.None? <==>
      var rec := Reconcile(roster, BuildTotals(disk, order));
      rec.Done? && (rec.changed ==> path !in disk.readOnly)
    ensures r.error.Some? ==>
      r.error.value in {CommandError(FileOpsError), IllegalArgument(Text(Points.MESSAGE_CONSTRAINTS))}
    ensures r.error.None? ==>
      var rec := Reconcile(roster, BuildTotals(disk, order));
      && rec.Done?
      && (rec.changed ==> Save(disk, path, rec.roster).Success? && r.disk == Save(disk, path, rec.roster).value)
      && (!rec.changed ==> r.disk == disk)
  {
    ReconcileSpec(roster, BuildTotals(disk, order));
    match Reconcile(roster, BuildTotals(disk, order))
    case Interrupted(reconciled, e) => Outcome(disk, Session(reconciled, path), Some(e))
    case Done(reconciled, changed) =>
      if !changed then Outcome(disk, Session(reconciled, path), None)
      else
        match Save(disk, path, reconciled)
        case Failure(e) => Outcome(disk, Session(reconciled, path), Some(e))
        case Success(saved) => Outcome(saved, Session(reconciled, path), None)
  }

  /** What a switch leaves in the model is settled against the totals it was
      reconciled with: reconciling it again changes nobody. */
  lemma ReconciledIsSettled(disk: Disk, roster: seq<Person>, path: Path, order: seq<Path>)
    requires ReconcileAndSave(disk, roster, path, order).error.None?
    ensures var kept := ReconcileAndSave(disk, roster, path, order).session.roster;
      Reconcile(kept, BuildTotals(disk, order)) == Done(kept, false)
  {
    ReconcileStable(roster, BuildTotals(disk, order));
  }

  /** The exception a `Rejected` file's load lets escape: `new Points` refusing a
      negative value. */
  const LOAD_ESCAPE: Error := IllegalArgument(Text(Points.MESSAGE_CONSTRAINTS))

  /** `switchToList`.  `order` is the order in which the directory scan lists the
      `*.json` files of `data`; the scan runs after the target file has been loaded or
      created, so it lists those of the existing files and the target.  A `Rejected` target escapes
      the two `catch` clauses, before anything is written or set. */
  function SwitchToList(cfg: Config, disk: Disk, s: Session, listName: string, order: seq<Path>): (r: Outcome)
    requires IsListing(order, ListFiles(disk.files.Keys + {PathOf(listName)}))
    ensures r.error.None? ==> r.session.path == PathOf(listName)
    ensures r.error.Some? ==> r.error.value.kind in {CommandException, IllegalArgumentException}
    ensures PathOf(listName) in disk.files && disk.files[PathOf(listName)].Rejected? ==>
      r == Outcome(disk, s, Some(LOAD_ESCAPE))
    ensures PathOf(listName) in disk.files && disk.files[PathOf(listName)].Unreadable? ==>
      if PathOf(listName) in disk.readOnly
      then r == Outcome(disk, s.(roster := []), Some(CommandError(FileOpsError)))
      else r == Outcome(Save(disk, PathOf(listName), []).value, Session([], PathOf(listName)), None)
    ensures PathOf(listName) !in disk.files && PathOf(listName) in disk.readOnly ==>
      r == Outcome(disk, s.(roster := Fresh(cfg, listName)), Some(CommandError(FileOpsError)))
    ensures PathOf(listName) !in disk.files && PathOf(listName) !in disk.readOnly ==>
      var created := Save(disk, PathOf(listName), Fresh(cfg, listName)).value;
      r == ReconcileAndSave(created, Fresh(cfg, listName), PathOf(listName), order)
    ensures PathOf(listName) in disk.files && disk.files[PathOf(listName)].Readable? ==>
      r == ReconcileAndSave(disk, disk.files[PathOf(listName)].roster, PathOf(listName), order)
  {
    var path := PathOf(listName);
    if path in disk.files && disk.files[path].Rejected? then Outcome(disk, s, Some(LOAD_ESCAPE))
    else if path in disk.files && disk.files[path].Unreadable? then
      match Save(disk, path, [])
      case Failure(e) => Outcome(disk, s.(roster := []), Some(e))
      case Success(saved) => Outcome(saved, Session([], path), None)
    else if path in disk.files then
      ReconcileAndSave(disk, disk.files[path].roster, path, order)
    else
      var loaded := Fresh(cfg, listName);
      match Save(disk, path, loaded)
      case Failure(e) => Outcome(disk, s.(roster := loaded), Some(e))
      case Success(created) => ReconcileAndSave(created, loaded, path, order)
  }

  /** The outcome of a switch does not depend on the order the directory lists
      its files in. */
  lemma SwitchOrderIndependent(cfg: Config, disk: Disk, s: Session, listName: string, a: seq<Path>, b: seq<Path>)
    requires IsListing(a, ListFiles(disk.files.Keys + {PathOf(listName)}))
    requires IsListing(b, ListFiles(disk.files.Keys + {PathOf(listName)}))
    ensures SwitchToList(cfg, disk, s, listName, a) == SwitchToList(cfg, disk, s, listName, b)
  {
    var path := PathOf(listName);
    var paths := ListFiles(disk.files.Keys + {path});
    BuildTotalsOrderIndependent(disk, a, b, paths);
    if path !in disk.files && path !in disk.readOnly {
      BuildTotalsOrderIndependent(Save(disk, path, Fresh(cfg, listName)).value, a, b, paths);
    }
  }

  /** The index entry of a key shared by the single members of two list files. */
  lemma TwoListTotal(disk: Disk, a: Path, b: Path, p: Person, q: Person)
    requires a != b && disk.dirReadable
    requires disk.files == map[a := Readable([p]), b := Readable([q])]
    requires Trim(p.email) != [] && q.email == p.email
    ensures Get(BuildTotals(disk, [a, b]), IdentityKey(p).value) == Some(Wrap32(p.points + q.points) as int)
  {
    var key := IdentityKey(p).value;
    assert IdentityKey(q) == IdentityKey(p);
    BuildTotalsSpec(disk, [a, b], key);
    assert RosterTotal([p], key) == Some(p.points as int) by { assert [p][1..] == []; }
    assert RosterTotal([q], key) == Some(q.points as int) by { assert [q][1..] == []; }
    assert FileTotal(disk, a, key) == Some(p.points as int);
    assert FileTotal(disk, b, key) == Some(q.points as int);
    assert FilesTotal(disk, [b], key) == Some(q.points as int) by { assert [b][1..] == []; }
    assert [a, b][1..] == [b];
  }

  /** With two lists each holding one member of the same email, switching to
      either list sets that member's points to the sum over both lists, and saves
      the list. */
  lemma SwitchSumsTwoLists(cfg: Config, disk: Disk, s: Session, nameX: string, nameY: string,
                           x: Person, y: Person, order: seq<Path>)
    requires nameX != nameY && '/' !in nameX && '/' !in nameY && disk.dirReadable && disk.readOnly == {}
    requires disk.files == map[PathOf(nameX) := Readable([x]), PathOf(nameY) := Readable([y])]
    requires Trim(x.email) != [] && y.email == x.email && y.points > 0 && x.points + y.points <= INT_MAX
    requires IsListing(order, {PathOf(nameX), PathOf(nameY)})
    ensures var summed := WithPoints(x, x.points + y.points);
      SwitchToList(cfg, disk, s, nameX, order)
      == Outcome(disk.(files := disk.files[PathOf(nameX) := Readable([summed])], saves := disk.saves + [PathOf(nameX)]),
                 Session([summed], PathOf(nameX)), None)
  {
    var px, py := PathOf(nameX), PathOf(nameY);
    PathOfInjective(nameX, nameY);
    PathOfIsListFile(nameX);
    PathOfIsListFile(nameY);
    assert ListFiles(disk.files.Keys + {px}) == {px, py};
    var canonical := [px, py];
    assert IsListing(canonical, {px, py});
    TwoListTotal(disk, px, py, x, y);
    BuildTotalsOrderIndependent(disk, order, canonical, {px, py});
    var totals := BuildTotals(disk, order);
    assert Reconcile([x], totals) == Done([WithPoints(x, x.points + y.points)], true) by {
      assert Correction(x, totals) == Some(x.points + y.points);
      assert [x][1..] == [];
    }
  }

  /** Switching is not idempotent, because the total counts the active list's own
      points.  With a member holding 3 points in list A and the same member (same
      email) holding 4 in list B, switching to A sets 7 and saves it; switching
      to B then sets 11, and so would switching to A again. */
  lemma SwitchFeedsBackOwnPoints(cfg: Config, disk: Disk, s: Session, nameA: string, nameB: string,
                                 p: Person, q: Person, order: seq<Path>)
    requires nameA != nameB && '/' !in nameA && '/' !in nameB && disk.dirReadable && disk.readOnly == {}
    requires disk.files == map[PathOf(nameA) := Readable([p]), PathOf(nameB) := Readable([q])]
    requires Trim(p.email) != [] && q.email == p.email && p.points == 3 && q.points == 4
    requires IsListing(order, {PathOf(nameA), PathOf(nameB)})
    ensures var after := disk.(files := map[PathOf(nameA) := Readable([WithPoints(p, 7)]), PathOf(nameB) := Readable([q])],
                               saves := disk.saves + [PathOf(nameA)]);
      && SwitchToList(cfg, disk, s, nameA, order) == Outcome(after, Session([WithPoints(p, 7)], PathOf(nameA)), None)
      && SwitchToList(cfg, after, Session([WithPoints(p, 7)], PathOf(nameA)), nameB, order).session.roster
         == [WithPoints(q, 11)]
      && SwitchToList(cfg, after, Session([WithPoints(p, 7)], PathOf(nameA)), nameA, order).session.roster
         == [WithPoints(p, 11)]
  {
    var pa, pb := PathOf(nameA), PathOf(nameB);
    PathOfInjective(nameA, nameB);
    SwitchSumsTwoLists(cfg, disk, s, nameA, nameB, p, q, order);
    var p7 := WithPoints(p, 7);
    var after := disk.(files := map[pa := Readable([p7]), pb := Readable([q])], saves := disk.saves + [pa]);
    assert disk.files[pa := Readable([p7])] == after.files;
    var s7 := Session([p7], pa);
    assert after.files == map[pb := Readable([q]), pa := Readable([p7])];
    assert {pb, pa} == {pa, pb};
    SwitchSumsTwoLists(cfg, after, s7, nameB, nameA, q, p7, order);
    SwitchSumsTwoLists(cfg, after, s7, nameA, nameB, p7, q, order);
  }

  /** `removeList`.  When the active list is removed and the default file is
      `Rejected`, the exception escapes after the delete, with the session as it was. */
  function RemoveList(cfg: Config, disk: Disk, s: Session, listName: string): (r: Outcome)
    ensures PathOf(listName) == cfg.defaultPath ==>
      r == Outcome(disk, s, Some(CommandError(Text("Cannot remove the default list '" + cfg.defaultFileName + "'."))))
    ensures r.error.None? <==>
      && PathOf(listName) != cfg.defaultPath
      && !(PathOf(listName) in disk.files && PathOf(listName) in disk.readOnly)
      && !(PathOf(listName) == s.path && cfg.defaultPath !in disk.files && cfg.defaultPath in disk.readOnly)
      && !(PathOf(listName) == s.path && cfg.defaultPath in disk.files && disk.files[cfg.defaultPath].Rejected?)
    ensures r.error.None? ==> forall f :: f != PathOf(listName) && f != cfg.defaultPath ==>
      (f in r.disk.files <==> f in disk.files) && (f in disk.files ==> r.disk.files[f] == disk.files[f])
    ensures r.error.None? ==> PathOf(listName) !in r.disk.files
    ensures r.error.None? && PathOf(listName) != s.path ==> r.session == s && r.disk.saves == disk.saves
    ensures r.error.None? && PathOf(listName) == s.path ==> r.session.path == cfg.defaultPath
  {
    var path := PathOf(listName);
    if path == cfg.defaultPath then
      Outcome(disk, s, Some(CommandError(Text("Cannot remove the default list '" + cfg.defaultFileName + "'."))))
    else
      match Delete(disk, path)
      case Failure(e) => Outcome(disk, s, Some(e))
      case Success(deleted) =>
        if path != s.path then Outcome(deleted, s, None)
        else if cfg.defaultPath in deleted.files then
          match deleted.files[cfg.defaultPath]
          case Readable(roster) => Outcome(deleted, Session(roster, cfg.defaultPath), None)
          case Unreadable => Outcome(deleted, Session([], cfg.defaultPath), None)
          case Rejected => Outcome(deleted, s, Some(LOAD_ESCAPE))
        else
          match Save(deleted, cfg.defaultPath, cfg.sample)
          case Failure(e) => Outcome(deleted, s.(roster := cfg.sample), Some(e))
          case Success(saved) => Outcome(saved, Session(cfg.sample, cfg.defaultPath), None)
  }

  /** Removing the active list falls back to the default list: an existing one is
      loaded without a write, a missing one is written from the sample members,
      one that fails to load gives an empty roster and is not overwritten, and one
      whose load throws leaves the session alone although the list is deleted. */
  lemma RemoveActiveFallsBack(cfg: Config, disk: Disk, s: Session, listName: string)
    requires PathOf(listName) != cfg.defaultPath && PathOf(listName) == s.path
    requires PathOf(listName) !in disk.files || PathOf(listName) !in disk.readOnly
    ensures var r := RemoveList(cfg, disk, s, listName);
      var d := cfg.defaultPath;
      && (d in disk.files && disk.files[d].Readable? ==>
            r.error.None? && r.session == Session(disk.files[d].roster, d) && r.disk.saves == disk.saves)
      && (d in disk.files && disk.files[d].Unreadable? ==>
            r.error.None? && r.session == Session([], d) && r.disk.saves == disk.saves
            && r.disk.files[d] == Unreadable)
      && (d in disk.files && disk.files[d].Rejected? ==>
            r == Outcome(disk.(files := disk.files - {PathOf(listName)}), s, Some(LOAD_ESCAPE)))
      && (d !in disk.files && d !in disk.readOnly ==>
            r.error.None? && r.session == Session(cfg.sample, d) && r.disk.saves == disk.saves + [d]
            && r.disk.files[d] == Readable(cfg.sample))
  {
  }

  /** A removed list that is switched to again starts empty (or from the sample
      members, for the default list name): nothing of it survives. */
  lemma RemoveThenSwitch(cfg: Config, disk: Disk, s: Session, listName: string, order: seq<Path>)
    requires RemoveList(cfg, disk, s, listName).error.None?
    requires var after := RemoveList(cfg, disk, s, listName);
      IsListing(order, ListFiles(after.disk.files.Keys + {PathOf(listName)}))
    ensures var after := RemoveList(cfg, disk, s, listName);
      var again := SwitchToList(cfg, after.disk, after.session, listName, order);
      PathOf(listName) !in after.disk.readOnly ==>
        again.session.roster == Reconcile(Fresh(cfg, listName), BuildTotals(Save(after.disk, PathOf(listName), Fresh(cfg, listName)).value, order)).roster
  {
  }
}

=== FILE: list_name_parsers.dfy ===
/** `switch NAME`: any non-blank name without a path or glob character. */
module SwitchCommandParser {
  import opened Wrappers
  import opened JavaString
  import opened Exceptions

  const COMMAND_WORD: string := "switch"
  const MESSAGE_SPECIAL_CHARACTERS: string :=
    "List name cannot contain special characters: * ? < > | \" : \\ /"

  /** The characters `parse` looks for with `contains`. */
  predicate IsSpecial(c: char) {
    c == '*' || c == '?' || c == '<' || c == '>' || c == '|' || c == '"'
    || c == ':' || c == '\\' || c == '/'
  }

  predicate HasSpecial(s: string) {
    exists i :: 0 <= i < |s| && IsSpecial(s[i])
  }

  /** `parse`: the list name `SwitchCommand` is built with. */
  function Parse(args: string): (r: Result<string, Error>)
    ensures Trim(args) == [] ==> r == Failure(ParseError(InvalidCommandFormat(COMMAND_WORD)))
    ensures Trim(args) != [] && HasSpecial(Trim(args)) ==> r == Failure(ParseError(Text(MESSAGE_SPECIAL_CHARACTERS)))
    ensures r.Success? <==> Trim(args) != [] && !HasSpecial(Trim(args))
    ensures r.Success? ==> r.value == Trim(args)
  {
    var trimmed := Trim(args);
    if trimmed == [] then Failure(ParseError(InvalidCommandFormat(COMMAND_WORD)))
    else if HasSpecial(trimmed) then Failure(ParseError(Text(MESSAGE_SPECIAL_CHARACTERS)))
    else Success(trimmed)
  }

  /** An accepted name is accepted again, unchanged. */
  lemma ParseIdempotent(args: string)
    requires Parse(args).Success?
    ensures Parse(Parse(args).value) == Parse(args)
  {
    TrimIdempotent(args);
  }
}

/** `remove NAME`: only letters, digits, '_' and '-'. */
module RemoveCommandParser {
  import opened Wrappers
  import opened JavaString
  import opened Exceptions
  import SwitchCommandParser

  const COMMAND_WORD: string := "remove"

  /** The character class `[A-Za-z0-9_-]`. */
  predicate IsNameChar(c: char) {
    ('A' <= c <= 'Z') || ('a' <= c <= 'z') || ('0' <= c <= '9') || c == '_' || c == '-'
  }

  /** `matches("[A-Za-z0-9_-]+")`: the whole string, at least one character. */
  predicate IsListName(s: string) {
    s != [] && forall i :: 0 <= i < |s| ==> IsNameChar(s[i])
  }

  /** `parse`: the list name `RemoveCommand` is built with. */
  function Parse(args: string): (r: Result<string, Error>)
    ensures r.Success? <==> IsListName(Trim(args))
    ensures r.Failure? ==> r.error == ParseError(InvalidCommandFormat(COMMAND_WORD))
    ensures r.Success? ==> r.value == Trim(args)
  {
    var trimmed := Trim(args);
    if trimmed == [] then Failure(ParseError(InvalidCommandFormat(COMMAND_WORD)))
    else if !IsListName(trimmed) then Failure(ParseError(InvalidCommandFormat(COMMAND_WORD)))
    else Success(trimmed)
  }

  /** Every name `remove` accepts, `switch` accepts as the same name. */
  lemma AcceptedBySwitch(args: string)
    requires Parse(args).Success?
    ensures SwitchCommandParser.Parse(args) == Parse(args)
  {
    var s := Trim(args);
    forall i | 0 <= i < |s| ensures !SwitchCommandParser.IsSpecial(s[i]) {
      assert IsNameChar(s[i]);
    }
  }

  /** Two list-name words joined by a space or a '.' form a name `switch` accepts
      and `remove` refuses. */
  lemma SwitchOnlyNames(a: string, c: char, b: string)
    requires IsListName(a) && IsListName(b) && (c == ' ' || c == '.')
    ensures SwitchCommandParser.Parse(a + [c] + b) == Success(a + [c] + b)
    ensures Parse(a + [c] + b).Failure?
  {
    var s := a + [c] + b;
    assert s[0] == a[0] && s[|s| - 1] == b[|b| - 1];
    TrimOfTrimmed(s);
    assert s[|a|] == c;
    forall i | 0 <= i < |s| ensures !SwitchCommandParser.IsSpecial(s[i]) {
      if i < |a| {
        assert s[i] == a[i];
      } else if i > |a| {
        assert s[i] == b[i - |a| - 1];
      }
    }
  }
}

=== FILE: list_storage.dfy ===
/** The `data` directory as the list manager sees it through `Storage`: which list
    files exist, which of them load, which cannot be written, and whether the
    directory itself can be scanned.  JSON encoding and decoding are not part of
    this model: a file either loads as a roster or fails to load. */
module ListStorage {
  import opened Wrappers
  import opened Exceptions
  import opened Persons

  /** A file path, written as the text `Paths.get` would join. */
  type Path = string

  /** `Paths.get("data", listName + ".json")`. */
  function PathOf(listName: string): Path {
    "data/" + listName + ".json"
  }

  /** A path the directory stream `newDirectoryStream(data, "*.json")` lists: a
      name directly inside `data` that ends in `.json`, matched case-sensitively. */
  predicate IsListFile(p: Path) {
    |p| >= 10 && p[..5] == "data/" && p[|p| - 5..] == ".json" && '/' !in p[5..]
  }

  /** The paths of `paths` that the scan of `data` lists. */
  function ListFiles(paths: set<Path>): set<Path> {
    set p | p in paths && IsListFile(p)
  }

  /** A list name without `/`, which `switch` refuses, names a file the scan
      lists; one with `/` names a file in a sub-directory, which it does not. */
  lemma PathOfIsListFile(listName: string)
    ensures IsListFile(PathOf(listName)) <==> '/' !in listName
  {
    var p := PathOf(listName);
    assert p[..5] == "data/";
    assert p[|p| - 5..] == ".json";
    assert p[5..] == listName + ".json";
    if '/' in listName {
      var i :| 0 <= i < |listName| && listName[i] == '/';
      assert p[5..][i] == '/';
    }
  }

  /** A stored list file as `readClubTrack` treats it:
      - `Readable`: it loads as the roster;
      - `Unreadable`: it is refused with `DataLoadingException` (bad JSON, or a
        field that fails its `IllegalValueException` check);
      - `Rejected`: a member's negative points make `new Points` throw
        `IllegalArgumentException`, which `readClubTrack` does not catch. */
  datatype Stored = Readable(roster: seq<Person>) | Unreadable | Rejected

  /** The files, the paths whose writes and deletes fail with `IOException`,
      whether the directory scan succeeds, and the paths saved to so far, oldest
      first. */
  datatype Disk = Disk(files: map<Path, Stored>, readOnly: set<Path>, dirReadable: bool, saves: seq<Path>)

  /** `saveClubTrack(roster, path)`: the file now loads as `roster`, or the write
      fails and nothing changes. */
  function Save(disk: Disk, path: Path, roster: seq<Person>): (r: Result<Disk, Error>)
    ensures r.Failure? <==> path in disk.readOnly
    ensures r.Failure? ==> r.error == CommandError(FileOpsError)
    ensures r.Success? ==>
      && r.value.files == disk.files[path := Readable(roster)]
      && r.value.saves == disk.saves + [path]
      && r.value.readOnly == disk.readOnly && r.value.dirReadable == disk.dirReadable
  {
    if path in disk.readOnly then Failure(CommandError(FileOpsError))
    else Success(disk.(files := disk.files[path := Readable(roster)], saves := disk.saves + [path]))
  }

  /** `Files.deleteIfExists(path)`: a missing file is no error; an existing file
      that may not be written fails with `IOException`. */
  function Delete(disk: Disk, path: Path): (r: Result<Disk, Error>)
    ensures r.Failure? <==> path in disk.files && path in disk.readOnly
    ensures r.Failure? ==> r.error == CommandError(FileOpsError)
    ensures r.Success? ==> r.value == disk.(files := disk.files - {path}) && path !in r.value.files
  {
    if path in disk.files && path in disk.readOnly then Failure(CommandError(FileOpsError))
    else Success(disk.(files := disk.files - {path}))
  }

  /** Different list names name different files. */
  lemma PathOfInjective(a: string, b: string)
    requires a != b
    ensures PathOf(a) != PathOf(b)
  {
    if |a| == |b| {
      var i :| 0 <= i < |a| && a[i] != b[i];
      assert PathOf(a)[5 + i] == a[i];
      assert PathOf(b)[5 + i] == b[i];
    } else {
      assert |PathOf(a)| != |PathOf(b)|;
    }
  }

  /** A save is read back: the file then loads as the roster written. */
  lemma SaveThenRead(disk: Disk, path: Path, roster: seq<Person>)
    requires path !in disk.readOnly
    ensures path in Save(disk, path, roster).value.files
    ensures Save(disk, path, roster).value.files[path] == Readable(roster)
  {
  }
}

=== FILE: mark_command.dfy ===
/** `present INDEX`: marks the shown member at INDEX present, tags them
    "present" and awards one point. */
module MarkCommand {
  import opened Wrappers
  import opened JavaString
  import opened Exceptions
  import opened Persons
  import Points
  import opened ClubModel

  const PRESENT_TAG: string := "present"

  /** The zero-based position in the shown list. */
  datatype Command = Command(targetIndex: nat)

  /** The member as `execute` rebuilds it: the "present" tag added, presence set,
      one more point.  Fails only where `addPoint` fails, at `Integer.MAX_VALUE`. */
  function Marked(p: Person): (r: Result<Person, Error>)
    ensures r.Success? <==> p.points < INT_MAX
    ensures r.Failure? ==> r.error == IllegalArgument(Text(Points.MESSAGE_CONSTRAINTS))
    ensures r.Success? ==> SameDetails(r.value, p) && r.value.presence == Present
    ensures r.Success? ==> PRESENT_TAG in r.value.tags && r.value.tags - {PRESENT_TAG} == p.tags - {PRESENT_TAG}
    ensures r.Success? ==> r.value.points == p.points + 1
  {
    match Points.AddPoint(p.points)
    case Failure(e) => Failure(e)
    case Success(points) =>
      Success(New9(p.name, p.phone, p.email, p.year, p.faculty, p.address,
                   p.tags + {PRESENT_TAG}, Present, points))
  }

  function SuccessMessage(name: string, points: int): string {
    "Member '" + name + "' marked present. Points awarded: " + IntToDecimal(points)
  }

  /** `execute`: an index past the shown list is refused; otherwise the target is
      replaced by its marked copy, and only the target. */
  function Execute(c: Command, m: Model): (r: Result<Executed, Error>)
    ensures c.targetIndex >= |ShownList(m)| ==> r == Failure(CommandError(InvalidMemberDisplayedIndex))
    ensures c.targetIndex < |ShownList(m)| ==>
      var target := ShownList(m)[c.targetIndex];
      && (r.Success? <==> target.points < INT_MAX)
      && (r.Success? ==>
            && r.value.model.filter == m.filter
            && ReplacedAt(m.persons, r.value.model.persons, IndexOf(m.persons, target), Marked(target).value)
            && r.value.feedback == Said(SuccessMessage(target.name, target.points + 1)))
  {
    var shown := ShownList(m);
    if c.targetIndex >= |shown| then Failure(CommandError(InvalidMemberDisplayedIndex))
    else
      var target := shown[c.targetIndex];
      ShownAreMembers(m, c.targetIndex);
      match Marked(target)
      case Failure(e) => Failure(e)
      case Success(marked) =>
        Success(Executed(m.(persons := SetPerson(m.persons, target, marked)),
                         Said(SuccessMessage(target.name, marked.points))))
  }

  /** Marking keeps every identity unique. */
  lemma MarkKeepsNoDuplicates(c: Command, m: Model)
    requires NoDuplicates(m.persons) && Execute(c, m).Success?
    ensures NoDuplicates(Execute(c, m).value.model.persons)
  {
    var target := ShownList(m)[c.targetIndex];
    ShownAreMembers(m, c.targetIndex);
    SetPersonKeepsNoDuplicates(m.persons, target, Marked(target).value);
  }

  /** Marking twice leaves the tags and presence as one mark does, but awards a
      second point. */
  lemma MarkTwice(p: Person)
    requires p.points < INT_MAX - 1
    ensures Marked(p).Success? && Marked(Marked(p).value).Success?
    ensures Marked(Marked(p).value).value == Marked(p).value.(points := p.points + 2)
  {
    var once := Marked(p).value;
    assert once.tags + {PRESENT_TAG} == once.tags;
  }
}

=== FILE: minus_points_command.dfy ===
/** `minuspoints INDEX POINTS`: takes points from the shown member at INDEX,
    never going below zero. */
module MinusPointsCommand {
  import opened Wrappers
  import opened JavaString
  import opened Exceptions
  import opened Persons
  import Points
  import opened ClubModel
  import AddPointsCommand

  /** The zero-based position in the shown list and the points to subtract. */
  datatype Command = Command(targetIndex: nat, pointsToSubtract: Int32)

  function SuccessMessage(name: string, subtracted: int, total: int): string {
    "Subtracted " + IntToDecimal(subtracted) + " points from " + name + ". New total: "
      + IntToDecimal(total) + " points."
  }

  /** `execute`: an index past the shown list is refused, and so (by `Points`) is a
      negative amount; otherwise only the target's points change, to
      max(0, old - n). */
  function Execute(c: Command, m: Model): (r: Result<Executed, Error>)
    ensures c.targetIndex >= |ShownList(m)| ==> r == Failure(CommandError(InvalidMemberDisplayedIndex))
    ensures c.targetIndex < |ShownList(m)| ==>
      var target := ShownList(m)[c.targetIndex];
      var total := if target.points > c.pointsToSubtract then target.points - c.pointsToSubtract else 0;
      && (r.Success? <==> c.pointsToSubtract >= 0)
      && (r.Failure? ==> r.error == IllegalArgument(Text(Points.MESSAGE_NEGATIVE_DELTA)))
      && (r.Success? ==>
            && r.value.model.filter == m.filter
            && ReplacedAt(m.persons, r.value.model.persons, IndexOf(m.persons, target),
                          WithPoints(target, total))
            && r.value.feedback == Said(SuccessMessage(target.name, c.pointsToSubtract, total)))
  {
    var shown := ShownList(m);
    if c.targetIndex >= |shown| then Failure(CommandError(InvalidMemberDisplayedIndex))
    else
      var target := shown[c.targetIndex];
      ShownAreMembers(m, c.targetIndex);
      match Points.Subtract(target.points, c.pointsToSubtract)
      case Failure(e) => Failure(e)
      case Success(total) =>
        var updated := New9(target.name, target.phone, target.email, target.year, target.faculty,
                            target.address, target.tags, target.presence, total);
        Success(Executed(m.(persons := SetPerson(m.persons, target, updated)),
                         Said(SuccessMessage(target.name, c.pointsToSubtract, total))))
  }

  /** Subtracting points keeps every identity unique. */
  lemma MinusPointsKeepsNoDuplicates(c: Command, m: Model)
    requires NoDuplicates(m.persons) && Execute(c, m).Success?
    ensures NoDuplicates(Execute(c, m).value.model.persons)
  {
    var target := ShownList(m)[c.targetIndex];
    ShownAreMembers(m, c.targetIndex);
    var total := if target.points > c.pointsToSubtract then target.points - c.pointsToSubtract else 0;
    SetPersonKeepsNoDuplicates(m.persons, target, WithPoints(target, total));
  }

  /** Subtracting what was just added restores the member's points. */
  lemma SubtractUndoesAdd(p: Points.Points, n: Int32)
    requires n >= 0 && AddPointsCommand.NewTotal(p, n).Success?
    ensures Points.Subtract(AddPointsCommand.NewTotal(p, n).value, n) == Success(p)
  {
  }
}

=== FILE: model.dfy ===
/** The in-memory club: the ordered member list, the filter the user last chose,
    and the operations commands use on them (`hasPerson`, `addPerson`,
    `setPerson`, the filtered list). */
module ClubModel {
  import opened Wrappers
  import opened Persons
  import NamePrefixPredicate
  import TagsPredicate
  import NameContainsKeywordsPredicate

  /** The predicate behind the shown list: everyone, a `search`, or a keyword `find`. */
  datatype Filter =
    | ShowAll
    | Search(names: NamePrefixPredicate.Predicate, tags: TagsPredicate.Predicate)
    | Keywords(keywords: NameContainsKeywordsPredicate.Predicate)

  predicate Shows(f: Filter, p: Person) {
    match f
    case ShowAll => true
    case Search(names, tags) => NamePrefixPredicate.Test(names, p) && TagsPredicate.Test(tags, p)
    case Keywords(keywords) => NameContainsKeywordsPredicate.Test(keywords, p)
  }

  /** The members `f` shows, in roster order. */
  function Shown(persons: seq<Person>, f: Filter): (r: seq<Person>)
    ensures |r| <= |persons|
    ensures forall x :: x in r <==> x in persons && Shows(f, x)
  {
    if persons == [] then []
    else (if Shows(f, persons[0]) then [persons[0]] else []) + Shown(persons[1..], f)
  }

  datatype Model = Model(persons: seq<Person>, filter: Filter)

  /** `getFilteredPersonList`. */
  function ShownList(m: Model): seq<Person> {
    Shown(m.persons, m.filter)
  }

  /** `hasPerson`: some member has the same identity (email or phone). */
  predicate HasPerson(persons: seq<Person>, p: Person) {
    exists x :: x in persons && IsSamePerson(x, p)
  }

  /** No two members share an identity. */
  predicate NoDuplicates(persons: seq<Person>) {
    forall i, j :: 0 <= i < j < |persons| ==> !IsSamePerson(persons[i], persons[j])
  }

  /** Position of the first member equal to `target`. */
  function IndexOf(persons: seq<Person>, target: Person): (k: nat)
    requires target in persons
    ensures k < |persons| && persons[k] == target
    ensures forall j :: 0 <= j < k ==> persons[j] != target
  {
    if persons[0] == target then 0 else 1 + IndexOf(persons[1..], target)
  }

  /** `after` is `before` with position `k` replaced by `q` and nothing else changed. */
  predicate ReplacedAt(before: seq<Person>, after: seq<Person>, k: nat, q: Person) {
    k < |before| && |after| == |before| && after[k] == q
    && forall j :: 0 <= j < |before| && j != k ==> after[j] == before[j]
  }

  /** `setPerson`: the first member equal to `target` becomes `edited`. */
  function SetPerson(persons: seq<Person>, target: Person, edited: Person): (r: seq<Person>)
    requires target in persons
    ensures ReplacedAt(persons, r, IndexOf(persons, target), edited)
  {
    persons[IndexOf(persons, target) := edited]
  }

  /** Replacing a member by one with the same email and phone keeps identities unique. */
  lemma SetPersonKeepsNoDuplicates(persons: seq<Person>, target: Person, edited: Person)
    requires NoDuplicates(persons) && target in persons
    requires edited.email == target.email && edited.phone == target.phone
    ensures NoDuplicates(SetPerson(persons, target, edited))
  {
    var r := SetPerson(persons, target, edited);
    var k := IndexOf(persons, target);
    forall i, j | 0 <= i < j < |r| ensures !IsSamePerson(r[i], r[j]) {
      SamePersonIgnoresOtherFields(target, edited, r[j]);
      SamePersonIgnoresOtherFields(target, edited, r[i]);
    }
  }

  /** Appending a member whose identity is new keeps identities unique. */
  lemma AppendKeepsNoDuplicates(persons: seq<Person>, p: Person)
    requires NoDuplicates(persons) && !HasPerson(persons, p)
    ensures NoDuplicates(persons + [p])
  {
    var r := persons + [p];
    forall i, j | 0 <= i < j < |r| ensures !IsSamePerson(r[i], r[j]) {
      if j == |persons| {
        assert r[i] in persons;
      }
    }
  }

  /** Every shown member is a member, so the model can always find a command's target. */
  lemma ShownAreMembers(m: Model, i: nat)
    requires i < |ShownList(m)|
    ensures ShownList(m)[i] in m.persons && Shows(m.filter, ShownList(m)[i])
  {
    assert ShownList(m)[i] in ShownList(m);
  }

  /** What a successful command reports: literal text, or one of the two messages
      formatted by classes this model does not contain (`Messages.format` of a
      member, `Tag.toString`). */
  datatype Feedback =
    | Said(text: string)
    | NewMemberAdded(person: Person)
    | TagRemoved(tagName: string)

  /** `CommandResult` together with the model the command leaves behind. */
  datatype Executed = Executed(model: Model, feedback: Feedback)
}

=== FILE: parser_util.dfy ===
/** `ParserUtil`: turns user-typed field values into model values, trimming them
    and enforcing the length caps and ranges before the value classes' own checks. */
module ParserUtil {
  import opened Wrappers
  import opened JavaString
  import opened Exceptions
  import opened Validators
  import Phone

  const NAME_MAX_LEN: nat := 100
  const ADDRESS_MAX_LEN: nat := 200
  const FACULTY_MAX_LEN: nat := 100
  const EMAIL_MAX_LEN: nat := 254

  const MESSAGE_NAME_TOO_LONG: string := "Name is too long (max 100 characters)."
  const MESSAGE_ADDRESS_TOO_LONG: string := "Address is too long (max 200 characters)."
  const MESSAGE_FACULTY_TOO_LONG: string := "Faculty is too long (max 100 characters)."
  const MESSAGE_EMAIL_TOO_LONG: string := "Email is too long (max 254 characters)."
  const MESSAGE_INVALID_INDEX: string := "Index is not a non-zero unsigned integer."
  const MESSAGE_INVALID_YOS: string := "Year of study must be an integer between 1 and 5."
  const MESSAGE_INVALID_FACULTY: string := "Faculty cannot be empty."

  const MIN_YEAR: int := 1
  const MAX_YEAR: int := 5

  /** `parseIndex`: the trimmed text must pass `isNonZeroUnsignedInteger`; it is then
      read by `Integer.parseInt` and turned into a zero-based index by
      `Index.fromOneBased`.  Those two library calls throw their own unchecked
      exceptions if the validator lets through text they refuse. */
  function ParseIndex(v: Validators, oneBasedIndex: string): (r: Result<nat, Error>)
    ensures r.Success? <==>
      v.isNonZeroUnsignedInteger(Trim(oneBasedIndex))
      && ParseInt(Trim(oneBasedIndex)).Some? && ParseInt(Trim(oneBasedIndex)).value >= 1
    ensures r.Success? ==> ParseInt(Trim(oneBasedIndex)) == Some(r.value + 1)
    ensures !v.isNonZeroUnsignedInteger(Trim(oneBasedIndex)) ==>
      r == Failure(ParseError(Text(MESSAGE_INVALID_INDEX)))
    ensures v.isNonZeroUnsignedInteger(Trim(oneBasedIndex)) && ParseInt(Trim(oneBasedIndex)).None? ==>
      r == Failure(Error(NumberFormatException, LibraryMessage))
  {
    var trimmed := Trim(oneBasedIndex);
    if !v.isNonZeroUnsignedInteger(trimmed) then Failure(ParseError(Text(MESSAGE_INVALID_INDEX)))
    else
      match ParseInt(trimmed)
      case None => Failure(Error(NumberFormatException, LibraryMessage))
      case Some(n) =>
        if n < 1 then Failure(Error(IndexOutOfBoundsException, LibraryMessage)) else Success(n - 1)
  }

  /** Decimal text has nothing for `trim` to remove. */
  lemma TrimOfDecimal(n: int)
    ensures Trim(IntToDecimal(n)) == IntToDecimal(n)
  {
    var s := IntToDecimal(n);
    if n < 0 {
      assert s[|s| - 1] == NatToDecimal(-n)[|NatToDecimal(-n)| - 1];
      assert IsDigit(NatToDecimal(-n)[|NatToDecimal(-n)| - 1]);
    } else {
      assert IsDigit(s[0]) && IsDigit(s[|s| - 1]);
    }
    TrimOfTrimmed(s);
  }

  /** A one-based position written in decimal parses back to the zero-based
      index one below it, whenever the validator accepts the text. */
  lemma ParseIndexOfDecimal(v: Validators, k: nat)
    requires k + 1 <= INT_MAX && v.isNonZeroUnsignedInteger(IntToDecimal(k + 1))
    ensures ParseIndex(v, IntToDecimal(k + 1)) == Success(k)
  {
    TrimOfDecimal(k + 1);
    ParseIntOfDecimal(k + 1);
  }

  /** Java's `Integer.parseInt` refuses text with a non-digit after its first character. */
  lemma ParseIntRejectsNonDigit(s: string, i: nat)
    requires 0 < i < |s| && !IsDigit(s[i])
    ensures ParseInt(s) == None
  {
  }

  /** Text made of two non-blank parts around a space is never an index;
      "10 a" is one such text. */
  lemma ParseIndexRejectsSpaced(v: Validators, a: string, b: string)
    requires a != [] && b != [] && !IsTrimmable(a[0]) && !IsTrimmable(b[|b| - 1])
    ensures ParseIndex(v, a + " " + b).Failure?
  {
    var s := a + " " + b;
    assert s[0] == a[0] && s[|s| - 1] == b[|b| - 1];
    TrimOfTrimmed(s);
    assert s[|a|] == ' ';
    ParseIntRejectsNonDigit(s, |a|);
  }

  /** Zero and negative numbers are never indices, whatever the validator says;
      this covers `Long.toString(Integer.MAX_VALUE + 1)`, which Java's `int`
      addition makes "-2147483648". */
  lemma ParseIndexRejectsNonPositive(v: Validators, n: Int32)
    requires n < 1
    ensures ParseIndex(v, IntToDecimal(n)).Failure?
  {
    TrimOfDecimal(n);
    ParseIntOfDecimal(n);
  }

  /** Decimal numbers beyond `Integer.MAX_VALUE`, such as 2147483648, are never indices. */
  lemma ParseIndexRejectsTooLarge(v: Validators, n: nat)
    requires n > INT_MAX
    ensures ParseIndex(v, NatToDecimal(n)).Failure?
  {
    TrimOfDecimal(n);
    DigitsValueOfDecimal(n);
  }

  /** The shared shape of `parseName`, `parseAddress` and `parseEmail`: trim, then
      reject an over-long value, then ask the value class's validator. */
  function ParseCapped(raw: string, maxLen: nat, tooLong: string,
                       isValid: string -> bool, className: string): (r: Result<string, Error>)
    ensures r.Success? <==> |Trim(raw)| <= maxLen && isValid(Trim(raw))
    ensures r.Success? ==> r.value == Trim(raw) && |r.value| <= maxLen
    ensures |Trim(raw)| > maxLen ==> r == Failure(ParseError(Text(tooLong)))
    ensures |Trim(raw)| <= maxLen && !isValid(Trim(raw)) ==>
      r == Failure(ParseError(ConstraintsOf(className)))
  {
    var trimmed := Trim(raw);
    if |trimmed| > maxLen then Failure(ParseError(Text(tooLong)))
    else if !isValid(trimmed) then Failure(ParseError(ConstraintsOf(className)))
    else Success(trimmed)
  }

  /** Parsing what a capped parse returned gives it back unchanged. */
  lemma ParseCappedIdempotent(raw: string, maxLen: nat, tooLong: string,
                              isValid: string -> bool, className: string)
    requires ParseCapped(raw, maxLen, tooLong, isValid, className).Success?
    ensures var s := ParseCapped(raw, maxLen, tooLong, isValid, className).value;
      ParseCapped(s, maxLen, tooLong, isValid, className) == Success(s)
  {
    TrimIdempotent(raw);
  }

  function ParseName(v: Validators, name: string): (r: Result<string, Error>)
    ensures r.Success? <==> |Trim(name)| <= NAME_MAX_LEN && v.isValidName(Trim(name))
    ensures r.Success? ==> r.value == Trim(name)
    ensures |Trim(name)| > NAME_MAX_LEN ==> r == Failure(ParseError(Text(MESSAGE_NAME_TOO_LONG)))
    ensures |Trim(name)| <= NAME_MAX_LEN && !v.isValidName(Trim(name)) ==>
      r == Failure(ParseError(ConstraintsOf(NAME)))
  {
    ParseCapped(name, NAME_MAX_LEN, MESSAGE_NAME_TOO_LONG, v.isValidName, NAME)
  }

  function ParseAddress(v: Validators, address: string): (r: Result<string, Error>)
    ensures r.Success? <==> |Trim(address)| <= ADDRESS_MAX_LEN && v.isValidAddress(Trim(address))
    ensures r.Success? ==> r.value == Trim(address)
    ensures |Trim(address)| > ADDRESS_MAX_LEN ==> r == Failure(ParseError(Text(MESSAGE_ADDRESS_TOO_LONG)))
    ensures |Trim(address)| <= ADDRESS_MAX_LEN && !v.isValidAddress(Trim(address)) ==>
      r == Failure(ParseError(ConstraintsOf(ADDRESS)))
  {
    ParseCapped(address, ADDRESS_MAX_LEN, MESSAGE_ADDRESS_TOO_LONG, v.isValidAddress, ADDRESS)
  }

  function ParseEmail(v: Validators, email: string): (r: Result<string, Error>)
    ensures r.Success? <==> |Trim(email)| <= EMAIL_MAX_LEN && v.isValidEmail(Trim(email))
    ensures r.Success? ==> r.value == Trim(email)
    ensures |Trim(email)| > EMAIL_MAX_LEN ==> r == Failure(ParseError(Text(MESSAGE_EMAIL_TOO_LONG)))
    ensures |Trim(email)| <= EMAIL_MAX_LEN && !v.isValidEmail(Trim(email)) ==>
      r == Failure(ParseError(ConstraintsOf(EMAIL)))
  {
    ParseCapped(email, EMAIL_MAX_LEN, MESSAGE_EMAIL_TOO_LONG, v.isValidEmail, EMAIL)
  }

  /** `parsePhone`: the trimmed text must be a valid phone; the phone then holds its
      normalised digits. */
  function ParsePhone(phone: string): (r: Result<Phone.Phone, Error>)
    ensures r.Success? <==> Phone.IsValidPhone(phone)
    ensures r.Success? ==> r.value == Phone.Normalize(phone)
    ensures r.Failure? ==> r.error == ParseError(Text(Phone.MESSAGE_CONSTRAINTS))
  {
    TrimIdempotent(phone);
    var trimmed := Trim(phone);
    if !Phone.IsValidPhone(trimmed) then Failure(ParseError(Text(Phone.MESSAGE_CONSTRAINTS)))
    else Phone.New(trimmed)
  }

  /** `parseYearOfStudy`: the trimmed text read as an `int` in [1, 5]. */
  function ParseYearOfStudy(yearOfStudy: string): (r: Result<Int32, Error>)
    ensures r.Success? <==>
      ParseInt(Trim(yearOfStudy)).Some? && MIN_YEAR <= ParseInt(Trim(yearOfStudy)).value <= MAX_YEAR
    ensures r.Success? ==> ParseInt(Trim(yearOfStudy)) == Some(r.value)
    ensures r.Failure? ==> r.error == ParseError(Text(MESSAGE_INVALID_YOS))
  {
    match ParseInt(Trim(yearOfStudy))
    case None => Failure(ParseError(Text(MESSAGE_INVALID_YOS)))
    case Some(year) =>
      if year < MIN_YEAR || year > MAX_YEAR then Failure(ParseError(Text(MESSAGE_INVALID_YOS)))
      else Success(year)
  }

  /** Every year in range written in decimal is read back as itself. */
  lemma ParseYearOfDecimal(y: Int32)
    requires MIN_YEAR <= y <= MAX_YEAR
    ensures ParseYearOfStudy(IntToDecimal(y)) == Success(y)
  {
    TrimOfDecimal(y);
    ParseIntOfDecimal(y);
  }

  /** Numbers outside [1, 5], such as "0" and "6", are refused. */
  lemma ParseYearRejectsOutOfRange(y: Int32)
    requires y < MIN_YEAR || y > MAX_YEAR
    ensures ParseYearOfStudy(IntToDecimal(y)).Failure?
  {
    TrimOfDecimal(y);
    ParseIntOfDecimal(y);
  }

  /** Text with a non-digit after its first character, such as "2.0", is refused. */
  lemma ParseYearRejectsNonDigit(s: string, i: nat)
    requires 0 < i < |s| - 1 && !IsDigit(s[i]) && !IsTrimmable(s[0]) && !IsTrimmable(s[|s| - 1])
    ensures ParseYearOfStudy(s).Failure?
  {
    TrimOfTrimmed(s);
    ParseIntRejectsNonDigit(s, i);
  }

  /** `parseFaculty`: the trimmed text, which must be non-empty and at most 100 long. */
  function ParseFaculty(faculty: string): (r: Result<string, Error>)
    ensures r.Success? <==> Trim(faculty) != [] && |Trim(faculty)| <= FACULTY_MAX_LEN
    ensures r.Success? ==> r.value == Trim(faculty)
    ensures Trim(faculty) == [] ==> r == Failure(ParseError(Text(MESSAGE_INVALID_FACULTY)))
    ensures |Trim(faculty)| > FACULTY_MAX_LEN ==> r == Failure(ParseError(Text(MESSAGE_FACULTY_TOO_LONG)))
  {
    var trimmed := Trim(faculty);
    if trimmed == [] then Failure(ParseError(Text(MESSAGE_INVALID_FACULTY)))
    else if |trimmed| > FACULTY_MAX_LEN then Failure(ParseError(Text(MESSAGE_FACULTY_TOO_LONG)))
    else Success(trimmed)
  }

  /** Re-parsing a parsed faculty returns it unchanged. */
  lemma ParseFacultyIdempotent(faculty: string)
    requires ParseFaculty(faculty).Success?
    ensures ParseFaculty(ParseFaculty(faculty).value) == ParseFaculty(faculty)
  {
    TrimIdempotent(faculty);
  }

  /** `parseTag`: the trimmed text, if it is a valid tag name. */
  function ParseTag(v: Validators, tag: string): (r: Result<string, Error>)
    ensures r.Success? <==> v.isValidTagName(Trim(tag))
    ensures r.Success? ==> r.value == Trim(tag)
    ensures r.Failure? ==> r.error == ParseError(ConstraintsOf(TAG))
  {
    var trimmed := Trim(tag);
    if !v.isValidTagName(trimmed) then Failure(ParseError(ConstraintsOf(TAG))) else Success(trimmed)
  }

  /** The set of the trimmed names of `tags`. */
  function TrimmedNames(tags: seq<string>): set<string> {
    set i | 0 <= i < |tags| :: Trim(tags[i])
  }

  lemma TrimmedNamesCons(tags: seq<string>)
    requires tags != []
    ensures TrimmedNames(tags) == {Trim(tags[0])} + TrimmedNames(tags[1..])
  {
    forall i | 0 <= i < |tags| ensures Trim(tags[i]) in {Trim(tags[0])} + TrimmedNames(tags[1..]) {
      if i > 0 { assert tags[i] == tags[1..][i - 1]; }
    }
    forall t | t in TrimmedNames(tags[1..]) ensures t in TrimmedNames(tags) {
      var j :| 0 <= j < |tags[1..]| && Trim(tags[1..][j]) == t;
      assert tags[1..][j] == tags[j + 1];
    }
  }

  /** `parseTags`: every tag must parse, checked in order; the result is the set
      of the trimmed names. */
  function ParseTags(v: Validators, tags: seq<string>): (r: Result<set<string>, Error>)
    ensures r.Success? <==> forall i :: 0 <= i < |tags| ==> v.isValidTagName(Trim(tags[i]))
    ensures r.Success? ==> r.value == TrimmedNames(tags)
    ensures r.Failure? ==> r.error == ParseError(ConstraintsOf(TAG))
  {
    if tags == [] then Success({})
    else
      match ParseTag(v, tags[0])
      case Failure(e) => Failure(e)
      case Success(first) =>
        match ParseTags(v, tags[1..])
        case Failure(e) =>
          assert exists i :: 0 <= i < |tags| && !v.isValidTagName(Trim(tags[i])) by {
            var j :| 0 <= j < |tags[1..]| && !v.isValidTagName(Trim(tags[1..][j]));
            assert tags[1..][j] == tags[j + 1];
          }
          Failure(e)
        case Success(rest) =>
          TrimmedNamesCons(tags);
          assert forall i :: 0 <= i < |tags| ==> v.isValidTagName(Trim(tags[i])) by {
            forall i | 0 <= i < |tags| ensures v.isValidTagName(Trim(tags[i])) {
              if i > 0 { assert tags[i] == tags[1..][i - 1]; }
            }
          }
          Success({first} + rest)
  }
}

=== FILE: person.dfy ===
/** A club member: nine fields, immutable.  Equality of two `Person` values is
    the structural equality Java's `equals` spells out field by field. */
module Persons {
  import opened Wrappers
  import opened JavaString
  import Phone
  import Points

  /** The tri-state `Boolean isPresent`: `null`, `true` or `false`. */
  datatype Presence = Unmarked | Present | Absent

  /** A member.  `Name`, `Email` and `Address` are held as the strings they wrap;
      tags as the set of their names; `faculty` may be Java's `null`. */
  datatype Person = Person(
    name: string,
    phone: Phone.Phone,
    email: string,
    year: Int32,
    faculty: Option<string>,
    address: string,
    tags: set<string>,
    presence: Presence,
    points: Points.Points)

  /** The seven-argument constructor: unmarked, with no points. */
  function New7(name: string, phone: Phone.Phone, email: string, year: Int32,
                faculty: Option<string>, address: string, tags: set<string>): (r: Person)
    ensures r.presence == Unmarked && r.points == Points.Zero
    ensures r == New9(name, phone, email, year, faculty, address, tags, Unmarked, Points.Zero)
  {
    Person(name, phone, email, year, faculty, address, tags, Unmarked, Points.Zero)
  }

  /** The eight-argument constructor: the given presence, with no points. */
  function New8(name: string, phone: Phone.Phone, email: string, year: Int32,
                faculty: Option<string>, address: string, tags: set<string>,
                presence: Presence): (r: Person)
    ensures r.presence == presence && r.points == Points.Zero
    ensures r == New9(name, phone, email, year, faculty, address, tags, presence, Points.Zero)
  {
    Person(name, phone, email, year, faculty, address, tags, presence, Points.Zero)
  }

  /** The nine-argument constructor: every field as given. */
  function New9(name: string, phone: Phone.Phone, email: string, year: Int32,
                faculty: Option<string>, address: string, tags: set<string>,
                presence: Presence, points: Points.Points): (r: Person)
    ensures r.name == name && r.phone == phone && r.email == email && r.year == year
    ensures r.faculty == faculty && r.address == address && r.tags == tags
    ensures r.presence == presence && r.points == points
  {
    Person(name, phone, email, year, faculty, address, tags, presence, points)
  }

  /** The same member with a different points value; every other field kept. */
  function WithPoints(p: Person, points: Points.Points): (r: Person)
    ensures r.points == points
    ensures r.(points := p.points) == p
  {
    p.(points := points)
  }

  /** The six descriptive fields agree: name, phone, email, year, faculty and address. */
  predicate SameDetails(a: Person, b: Person) {
    a.name == b.name && a.phone == b.phone && a.email == b.email
    && a.year == b.year && a.faculty == b.faculty && a.address == b.address
  }

  /** `isSamePerson`: members are identified by email or by phone, never by name. */
  predicate IsSamePerson(a: Person, b: Person) {
    a.email == b.email || a.phone == b.phone
  }

  /** Equal members are the same member. */
  lemma EqualIsSamePerson(a: Person, b: Person)
    requires a == b
    ensures IsSamePerson(a, b)
  {
  }

  /** Identity is not transitive: `b` shares an email with `a` and a phone with
      `c`, while `a` and `c` share neither. */
  lemma SamePersonNotTransitive(a: Person, b: Person, c: Person)
    requires a.email == b.email && b.phone == c.phone
    requires a.email != c.email && a.phone != c.phone
    ensures IsSamePerson(a, b) && IsSamePerson(b, c) && !IsSamePerson(a, c)
  {
  }

  /** Changing anything other than email and phone keeps a member's identity
      with respect to everyone. */
  lemma SamePersonIgnoresOtherFields(a: Person, a': Person, b: Person)
    requires a'.email == a.email && a'.phone == a.phone
    ensures IsSamePerson(a', b) <==> IsSamePerson(a, b)
  {
  }
}

=== FILE: phone.dfy ===
/** A member's mobile number: eight digits starting with 8 or 9, stored after
    separators have been stripped. */
module Phone {
  import opened Wrappers
  import opened JavaString
  import opened Exceptions

  const MESSAGE_CONSTRAINTS: string :=
    "Mobile number must be exactly 8 digits and start with 8 or 9 (e.g., 91234567)."

  /** Characters matched by the character class `[\s-]`. */
  predicate IsSeparator(c: char) {
    IsRegexSpace(c) || c == '-'
  }

  /** `replaceAll("[\\s-]", "")`. */
  function RemoveSeparators(s: string): string {
    if s == [] then []
    else (if IsSeparator(s[0]) then [] else [s[0]]) + RemoveSeparators(s[1..])
  }

  /** What remains holds no separator, and text without separators is kept whole. */
  lemma {:induction false} RemoveSeparatorsShape(s: string)
    ensures |RemoveSeparators(s)| <= |s|
    ensures forall i :: 0 <= i < |RemoveSeparators(s)| ==> !IsSeparator(RemoveSeparators(s)[i])
    ensures (forall i :: 0 <= i < |s| ==> !IsSeparator(s[i])) ==> RemoveSeparators(s) == s
  {
    if s != [] {
      RemoveSeparatorsShape(s[1..]);
      var head: string := if IsSeparator(s[0]) then [] else [s[0]];
      var rest := RemoveSeparators(s[1..]);
      assert RemoveSeparators(s) == head + rest;
      forall i | 0 <= i < |head + rest| ensures !IsSeparator((head + rest)[i]) {
        if i >= |head| { assert (head + rest)[i] == rest[i - |head|]; }
      }
      if forall i :: 0 <= i < |s| ==> !IsSeparator(s[i]) {
        assert forall i :: 0 <= i < |s[1..]| ==> !IsSeparator(s[1..][i]) by {
          forall i | 0 <= i < |s[1..]| ensures !IsSeparator(s[1..][i]) {
            assert s[1..][i] == s[i + 1];
          }
        }
        assert s == [s[0]] + s[1..];
      }
    }
  }

  /** `normalize`: trim, then delete every whitespace and '-' character. */
  function Normalize(raw: string): string {
    RemoveSeparators(Trim(raw))
  }

  /** The pattern `^[89]\d{7}$`. */
  predicate MatchesPattern(t: string) {
    |t| == 8 && (t[0] == '8' || t[0] == '9') && AllDigits(t)
  }

  /** `isValidPhone`: the normalised text matches the pattern. */
  predicate IsValidPhone(test: string) {
    MatchesPattern(Normalize(test))
  }

  /** The value a `Phone` holds; equality of phones is equality of these values. */
  type Phone = p: string | MatchesPattern(p) witness "80000000"

  /** Text that already matches the pattern is unchanged by normalisation. */
  lemma NormalizeOfPattern(t: string)
    requires MatchesPattern(t)
    ensures Normalize(t) == t
  {
    TrimOfTrimmed(t);
    DigitsKeepAll(t);
  }

  /** The constructor as the source writes it: it stores `normalize(phone)` after
      checking `isValidPhone(normalized)`, which normalises a second time. */
  function NewAsWritten(phone: string): (r: Result<string, Error>)
    ensures r.Success? <==> IsValidPhone(Normalize(phone))
    ensures r.Success? ==> r.value == Normalize(phone)
  {
    var normalized := Normalize(phone);
    if IsValidPhone(normalized) then Success(normalized)
    else Failure(IllegalArgument(Text(MESSAGE_CONSTRAINTS)))
  }

  /** Deleting separators distributes over concatenation. */
  lemma {:induction false} RemoveSeparatorsAppend(a: string, b: string)
    ensures RemoveSeparators(a + b) == RemoveSeparators(a) + RemoveSeparators(b)
  {
    if a == [] {
      assert a + b == b;
    } else {
      assert (a + b)[0] == a[0];
      assert (a + b)[1..] == a[1..] + b;
      RemoveSeparatorsAppend(a[1..], b);
    }
  }

  /** Trimming happens before separators are deleted, so a control character
      that a leading '-' shields from `trim` survives the first normalisation;
      the second one trims it, so the check passes and a value that is not eight
      digits is stored.  `"-\u0001" + "91234567"` is one such input. */
  lemma AsWrittenStoresNonDigits(x: char, t: string)
    requires IsTrimmable(x) && !IsSeparator(x) && MatchesPattern(t)
    ensures NewAsWritten("-" + [x] + t) == Success([x] + t)
    ensures !MatchesPattern([x] + t)
  {
    var raw := "-" + [x] + t;
    var once := [x] + t;
    assert raw == "-" + once;
    TrimOfTrimmed(raw);
    RemoveSeparatorsAppend("-", once);
    RemoveSeparatorsAppend([x], t);
    DigitsKeepAll(t);
    assert RemoveSeparators(once) == once;
    assert Normalize(raw) == once;
    assert TrimStart(once) == TrimStart(t) by {
      assert once[1..] == t;
    }
    NormalizeOfPattern(t);
    TrimOfTrimmed(t);
    assert Trim(once) == t;
    assert Normalize(once) == t;
  }

  /** `new Phone(String)`, corrected to check the normalised value itself, so that
      the stored value always matches the pattern. */
  function New(phone: string): (r: Result<Phone, Error>)
    ensures r.Success? <==> IsValidPhone(phone)
    ensures r.Success? ==> r.value == Normalize(phone)
    ensures r.Failure? ==> r.error == IllegalArgument(Text(MESSAGE_CONSTRAINTS))
  {
    var normalized := Normalize(phone);
    if MatchesPattern(normalized) then Success(normalized)
    else Failure(IllegalArgument(Text(MESSAGE_CONSTRAINTS)))
  }

  /** On every input the source's own check calls valid, the corrected constructor
      stores what the source stores. */
  lemma NewAgreesWithAsWritten(phone: string)
    requires IsValidPhone(phone)
    ensures NewAsWritten(phone) == Success(New(phone).value)
  {
    NormalizeOfPattern(Normalize(phone));
  }

  /** A stored value is a fixed point of normalisation and validates again. */
  lemma StoredIsFixedPoint(p: Phone)
    ensures Normalize(p) == p
  {
    NormalizeOfPattern(p);
  }

  lemma StoredIsValid(p: Phone)
    ensures IsValidPhone(p)
  {
    NormalizeOfPattern(p);
  }

  /** Building a phone from a stored value gives back the same phone. */
  lemma RebuildStored(p: Phone)
    ensures New(p) == Success(p)
  {
    NormalizeOfPattern(p);
  }

  /** Phones built from two inputs are equal exactly when the inputs normalise alike. */
  lemma EqualityIsOnNormalizedValue(a: string, b: string)
    requires IsValidPhone(a) && IsValidPhone(b)
    ensures New(a) == New(b) <==> Normalize(a) == Normalize(b)
  {
  }

  /** Two groups of digits joined by one space or '-' normalise to the digits
      alone, so "9312 1534" and "9312-1534" both hold the number 93121534. */
  lemma SeparatedGroupsNormalize(a: string, c: char, b: string)
    requires a != [] && b != [] && AllDigits(a) && AllDigits(b) && IsSeparator(c)
    ensures Normalize(a + [c] + b) == a + b
  {
    var s := a + [c] + b;
    assert s[0] == a[0] && s[|s| - 1] == b[|b| - 1];
    assert IsDigit(a[0]) && IsDigit(b[|b| - 1]);
    TrimOfTrimmed(s);
    GroupsLoseSeparator(a, c, b);
  }

  lemma GroupsLoseSeparator(a: string, c: char, b: string)
    requires AllDigits(a) && AllDigits(b) && IsSeparator(c)
    ensures RemoveSeparators(a + [c] + b) == a + b
  {
    RemoveSeparatorsAppend(a, [c]);
    RemoveSeparatorsAppend(a + [c], b);
    assert RemoveSeparators([c]) == [];
    DigitsKeepAll(a);
    DigitsKeepAll(b);
  }

  lemma DigitsKeepAll(d: string)
    requires AllDigits(d)
    ensures RemoveSeparators(d) == d
  {
    RemoveSeparatorsShape(d);
    assert forall i :: 0 <= i < |d| ==> !IsSeparator(d[i]) by {
      forall i | 0 <= i < |d| ensures !IsSeparator(d[i]) {
        assert IsDigit(d[i]);
      }
    }
  }

  /** A string of digits is a valid phone exactly when it has eight digits and
      starts with 8 or 9: "71234567" and "8123456" are invalid, and so is "". */
  lemma DigitsValidIff(d: string)
    requires AllDigits(d)
    ensures IsValidPhone(d) <==> |d| == 8 && (d[0] == '8' || d[0] == '9')
  {
    if d != [] {
      assert IsDigit(d[0]) && IsDigit(d[|d| - 1]);
    }
    TrimOfTrimmed(d);
    DigitsKeepAll(d);
  }

  /** A number written with one separator makes the same `Phone` as the plain digits. */
  lemma SeparatedEqualsPlain(a: string, c: char, b: string)
    requires a != [] && b != [] && AllDigits(a) && AllDigits(b) && IsSeparator(c)
    ensures New(a + [c] + b) == New(a + b)
  {
    SeparatedGroupsNormalize(a, c, b);
    var t := a + b;
    assert t[0] == a[0] && t[|t| - 1] == b[|b| - 1];
    TrimOfTrimmed(t);
    assert AllDigits(t) by {
      forall i | 0 <= i < |t| ensures IsDigit(t[i]) {
        if i >= |a| { assert t[i] == b[i - |a|]; }
      }
    }
    DigitsKeepAll(t);
  }
}

=== FILE: points.dfy ===
/** A member's points: a non-negative Java `int`, immutable. */
module Points {
  import opened Wrappers
  import opened JavaString
  import opened Exceptions

  const MESSAGE_CONSTRAINTS: string := "Points should be a non-negative integer"
  const MESSAGE_NEGATIVE_DELTA: string := "Delta must be non-negative"

  /** A points value. Two values are equal exactly when their numbers are equal,
      which is what `equals` and `hashCode` compare. */
  type Points = v: int | 0 <= v <= INT_MAX

  /** `new Points(int)`: rejects a negative argument, otherwise keeps it unchanged. */
  function New(points: Int32): (r: Result<Points, Error>)
    ensures r.Success? <==> points >= 0
    ensures r.Success? ==> r.value == points
    ensures r.Failure? ==> r.error == IllegalArgument(Text(MESSAGE_CONSTRAINTS))
  {
    if points < 0 then Failure(IllegalArgument(Text(MESSAGE_CONSTRAINTS))) else Success(points)
  }

  /** `new Points()`: a new member starts with no points. */
  const Zero: Points := 0

  /** `addPoint`: one more point; the Java `int` sum wraps at `Integer.MAX_VALUE`,
      and the constructor then rejects the negative result. */
  function AddPoint(p: Points): (r: Result<Points, Error>)
    ensures p < INT_MAX ==> r == Success(p + 1)
    ensures p == INT_MAX ==> r == Failure(IllegalArgument(Text(MESSAGE_CONSTRAINTS)))
  {
    New(Wrap32(p + 1))
  }

  /** `subtract`: a negative delta is rejected; otherwise the result floors at zero. */
  function Subtract(p: Points, delta: Int32): (r: Result<Points, Error>)
    ensures r.Failure? <==> delta < 0
    ensures r.Failure? ==> r.error == IllegalArgument(Text(MESSAGE_NEGATIVE_DELTA))
    ensures r.Success? ==> r.value <= p
    ensures r.Success? && delta <= p ==> r.value == p - delta
    ensures r.Success? && delta > p ==> r.value == 0
  {
    if delta < 0 then Failure(IllegalArgument(Text(MESSAGE_NEGATIVE_DELTA)))
    else New(if p - delta > 0 then p - delta else 0)
  }

  /** `subtractPoint`: `subtract(1)`, which never fails, so zero stays zero. */
  function SubtractPoint(p: Points): (r: Points)
    ensures Subtract(p, 1) == Success(r)
    ensures p == 0 ==> r == 0
    ensures p > 0 ==> r == p - 1
  {
    Subtract(p, 1).value
  }

  /** Every stored value rebuilds to itself, so `getValue` and the constructor are
      inverse. */
  lemma NewOfValue(p: Points)
    ensures New(p) == Success(p)
  {
  }

  /** Taking a point back after awarding one restores the original value. */
  lemma SubtractPointUndoesAddPoint(p: Points)
    requires p < INT_MAX
    ensures SubtractPoint(AddPoint(p).value) == p
  {
  }

  /** Two subtractions in a row are one subtraction of the sum: the floor at zero
      loses nothing that a later subtraction could see. */
  lemma SubtractComposes(p: Points, a: Int32, b: Int32)
    requires a >= 0 && b >= 0 && a + b <= INT_MAX
    ensures Subtract(Subtract(p, a).value, b) == Subtract(p, a + b)
  {
  }
}

=== FILE: points_command.dfy ===
/** `points INDEX`: reports the points of the shown member at INDEX. */
module PointsCommand {
  import opened Wrappers
  import opened JavaString
  import opened Exceptions
  import opened Persons
  import opened ClubModel

  /** The zero-based position in the shown list. */
  datatype Command = Command(targetIndex: nat)

  function SuccessMessage(name: string, points: int): string {
    "Member '" + name + "' has " + IntToDecimal(points) + " points."
  }

  /** `execute`: succeeds for every index inside the shown list, reports that
      member's name and points, and leaves the model as it was. */
  function Execute(c: Command, m: Model): (r: Result<Executed, Error>)
    ensures r.Success? <==> c.targetIndex < |ShownList(m)|
    ensures r.Failure? ==> r.error == CommandError(InvalidMemberDisplayedIndex)
    ensures r.Success? ==> r.value.model == m
    ensures r.Success? ==>
      var person := ShownList(m)[c.targetIndex];
      r.value.feedback == Said(SuccessMessage(person.name, person.points))
  {
    var shown := ShownList(m);
    if c.targetIndex >= |shown| then Failure(CommandError(InvalidMemberDisplayedIndex))
    else
      var person := shown[c.targetIndex];
      Success(Executed(m, Said(SuccessMessage(person.name, person.points))))
  }
}

=== FILE: points_command_parsers.dfy ===
/** The argument shape `addpoints` and `minuspoints` share: a one-based index and
    a positive point count, separated by whitespace. */
module PointsArguments {
  import opened Wrappers
  import opened JavaString
  import opened Exceptions
  import opened Validators
  import opened ParserUtil

  const MESSAGE_NOT_POSITIVE: string := "Points must be a positive integer"

  function Usage(commandWord: string): Error {
    ParseError(InvalidCommandFormat(commandWord))
  }

  /** The `try` block of both parsers on the two pieces of the argument: the index
      goes through `parseIndex`, the count through `Integer.parseInt`, and a
      `NumberFormatException` from either becomes the usage error. */
  function IndexAndAmount(v: Validators, index: string, amount: string, commandWord: string)
    : (r: Result<(nat, Int32), Error>)
    ensures r.Success? <==>
      ParseIndex(v, index).Success? && ParseInt(amount).Some? && ParseInt(amount).value > 0
    ensures r.Success? ==> Success(r.value.0) == ParseIndex(v, index) && Some(r.value.1) == ParseInt(amount)
    ensures ParseIndex(v, index).Failure? && ParseIndex(v, index).error.kind != NumberFormatException ==>
      r == Failure(ParseIndex(v, index).error)
    ensures ParseIndex(v, index).Failure? && ParseIndex(v, index).error.kind == NumberFormatException ==>
      r == Failure(Usage(commandWord))
    ensures ParseIndex(v, index).Success? && ParseInt(amount).None? ==> r == Failure(Usage(commandWord))
    ensures ParseIndex(v, index).Success? && ParseInt(amount).Some? && ParseInt(amount).value <= 0 ==>
      r == Failure(ParseError(Text(MESSAGE_NOT_POSITIVE)))
  {
    match ParseIndex(v, index)
    case Failure(e) => if e.kind == NumberFormatException then Failure(Usage(commandWord)) else Failure(e)
    case Success(i) =>
      match ParseInt(amount)
      case None => Failure(Usage(commandWord))
      case Some(points) =>
        if points <= 0 then Failure(ParseError(Text(MESSAGE_NOT_POSITIVE))) else Success((i, points))
  }

  /** Decimal text is a single word. */
  lemma DecimalIsWord(n: int)
    ensures IsWord(IntToDecimal(n))
  {
    var s := IntToDecimal(n);
    forall i | 0 <= i < |s| ensures !IsRegexSpace(s[i]) {
      if n < 0 && i > 0 {
        assert s[i] == NatToDecimal(-n)[i - 1];
      }
    }
  }

  /** An index and a count written in decimal with one space between them are
      split back into the two numbers' texts. */
  lemma FormattedPair(k: nat, n: int)
    ensures var s := IntToDecimal(k + 1) + " " + IntToDecimal(n);
      Trim(s) == s && SplitWs(s) == [IntToDecimal(k + 1), IntToDecimal(n)]
  {
    var a := IntToDecimal(k + 1);
    var b := IntToDecimal(n);
    var s := a + " " + b;
    DecimalIsWord(n);
    assert s[0] == a[0];
    assert s[|s| - 1] == b[|b| - 1];
    assert IsDigit(b[|b| - 1]) by {
      if n < 0 { assert b[|b| - 1] == NatToDecimal(-n)[|NatToDecimal(-n)| - 1]; }
    }
    TrimOfTrimmed(s);
    DecimalIsWord(k + 1);
    SplitWsTwoWords(a, b);
  }
}

/** `addpoints INDEX POINTS`. */
module AddPointsCommandParser {
  import opened Wrappers
  import opened JavaString
  import opened Exceptions
  import opened Validators
  import opened ParserUtil
  import opened PointsArguments
  import AddPointsCommand

  const COMMAND_WORD: string := "addpoints"
  const MESSAGE_TOO_LARGE: string := "Points value too large"

  /** The largest count accepted: `Integer.MAX_VALUE / 2`. */
  const MAX_POINTS_TO_ADD: int := INT_MAX / 2

  /** `parse`: blank input and anything but exactly two whitespace-separated pieces
      are usage errors; then the index and a positive count, which may not exceed
      half of `Integer.MAX_VALUE`. */
  function Parse(v: Validators, args: string): (r: Result<AddPointsCommand.Command, Error>)
    ensures Trim(args) == [] || |SplitWs(Trim(args))| != 2 ==> r == Failure(Usage(COMMAND_WORD))
    ensures r.Success? <==>
      var parts := SplitWs(Trim(args));
      && Trim(args) != [] && |parts| == 2
      && IndexAndAmount(v, parts[0], parts[1], COMMAND_WORD).Success?
      && IndexAndAmount(v, parts[0], parts[1], COMMAND_WORD).value.1 <= MAX_POINTS_TO_ADD
    ensures r.Success? ==>
      var parts := SplitWs(Trim(args));
      && Success(r.value.targetIndex) == ParseIndex(v, parts[0])
      && Some(r.value.pointsToAdd) == ParseInt(parts[1])
      && 0 < r.value.pointsToAdd <= MAX_POINTS_TO_ADD
  {
    var trimmed := Trim(args);
    if trimmed == [] then Failure(Usage(COMMAND_WORD))
    else
      var parts := SplitWs(trimmed);
      if |parts| != 2 then Failure(Usage(COMMAND_WORD))
      else
        match IndexAndAmount(v, parts[0], parts[1], COMMAND_WORD)
        case Failure(e) => Failure(e)
        case Success((index, points)) =>
          if points > MAX_POINTS_TO_ADD then Failure(ParseError(Text(MESSAGE_TOO_LARGE)))
          else Success(AddPointsCommand.Command(index, points))
  }

  /** `addpoints K N` with K the one-based index and N in (0, MAX_VALUE / 2] gives
      back exactly that command. */
  lemma ParseOfFormatted(v: Validators, k: nat, n: Int32)
    requires k + 1 <= INT_MAX && v.isNonZeroUnsignedInteger(IntToDecimal(k + 1))
    requires 0 < n <= MAX_POINTS_TO_ADD
    ensures Parse(v, IntToDecimal(k + 1) + " " + IntToDecimal(n)) == Success(AddPointsCommand.Command(k, n))
  {
    FormattedPair(k, n);
    ParseIndexOfDecimal(v, k);
    ParseIntOfDecimal(n);
  }

  /** A positive count above `MAX_VALUE / 2` is refused as too large. */
  lemma TooLargeRefused(v: Validators, k: nat, n: Int32)
    requires k + 1 <= INT_MAX && v.isNonZeroUnsignedInteger(IntToDecimal(k + 1))
    requires n > MAX_POINTS_TO_ADD
    ensures Parse(v, IntToDecimal(k + 1) + " " + IntToDecimal(n)) == Failure(ParseError(Text(MESSAGE_TOO_LARGE)))
  {
    FormattedPair(k, n);
    ParseIndexOfDecimal(v, k);
    ParseIntOfDecimal(n);
  }

  /** A count of zero or below is refused with the positive-integer message. */
  lemma NonPositiveRefused(v: Validators, k: nat, n: Int32)
    requires k + 1 <= INT_MAX && v.isNonZeroUnsignedInteger(IntToDecimal(k + 1))
    requires n <= 0
    ensures Parse(v, IntToDecimal(k + 1) + " " + IntToDecimal(n)) == Failure(ParseError(Text(MESSAGE_NOT_POSITIVE)))
  {
    FormattedPair(k, n);
    ParseIndexOfDecimal(v, k);
    ParseIntOfDecimal(n);
  }

  /** A count beyond `int` makes `Integer.parseInt` throw, which is reported as the
      usage error. */
  lemma OverflowIsUsage(v: Validators, k: nat, n: nat)
    requires k + 1 <= INT_MAX && v.isNonZeroUnsignedInteger(IntToDecimal(k + 1))
    requires n > INT_MAX
    ensures Parse(v, IntToDecimal(k + 1) + " " + IntToDecimal(n)) == Failure(Usage(COMMAND_WORD))
  {
    FormattedPair(k, n);
    ParseIndexOfDecimal(v, k);
    DigitsValueOfDecimal(n);
  }
}

/** `minuspoints INDEX POINTS`. */
module MinusPointsCommandParser {
  import opened Wrappers
  import opened JavaString
  import opened Exceptions
  import opened Validators
  import opened ParserUtil
  import opened PointsArguments
  import MinusPointsCommand
  import AddPointsCommandParser

  const COMMAND_WORD: string := "minuspoints"

  /** `parse`: anything but exactly two whitespace-separated pieces is a usage
      error (blank input splits into one empty piece); then the index and a
      positive count, with no upper bound. */
  function Parse(v: Validators, args: string): (r: Result<MinusPointsCommand.Command, Error>)
    ensures |SplitWs(Trim(args))| != 2 ==> r == Failure(Usage(COMMAND_WORD))
    ensures r.Success? <==>
      var parts := SplitWs(Trim(args));
      |parts| == 2 && IndexAndAmount(v, parts[0], parts[1], COMMAND_WORD).Success?
    ensures r.Success? ==>
      var parts := SplitWs(Trim(args));
      && Success(r.value.targetIndex) == ParseIndex(v, parts[0])
      && Some(r.value.pointsToSubtract) == ParseInt(parts[1])
      && r.value.pointsToSubtract > 0
  {
    var parts := SplitWs(Trim(args));
    if |parts| != 2 then Failure(Usage(COMMAND_WORD))
    else
      match IndexAndAmount(v, parts[0], parts[1], COMMAND_WORD)
      case Failure(e) => Failure(e)
      case Success((index, points)) => Success(MinusPointsCommand.Command(index, points))
  }

  /** Without the explicit blank check, blank input is still a usage error. */
  lemma BlankIsUsage(v: Validators, args: string)
    requires Trim(args) == []
    ensures Parse(v, args) == Failure(Usage(COMMAND_WORD))
  {
  }

  /** `minuspoints K N` gives back exactly that command for every positive `int` N. */
  lemma ParseOfFormatted(v: Validators, k: nat, n: Int32)
    requires k + 1 <= INT_MAX && v.isNonZeroUnsignedInteger(IntToDecimal(k + 1))
    requires n > 0
    ensures Parse(v, IntToDecimal(k + 1) + " " + IntToDecimal(n)) == Success(MinusPointsCommand.Command(k, n))
  {
    FormattedPair(k, n);
    ParseIndexOfDecimal(v, k);
    ParseIntOfDecimal(n);
  }

  /** Whatever `addpoints` accepts, `minuspoints` accepts with the same index and
      count; the converse holds exactly for counts up to `MAX_VALUE / 2`. */
  lemma AgreesWithAddPoints(v: Validators, args: string)
    ensures AddPointsCommandParser.Parse(v, args).Success? ==>
      var a := AddPointsCommandParser.Parse(v, args).value;
      Parse(v, args) == Success(MinusPointsCommand.Command(a.targetIndex, a.pointsToAdd))
    ensures Parse(v, args).Success? ==>
      (AddPointsCommandParser.Parse(v, args).Success?
       <==> Parse(v, args).value.pointsToSubtract <= AddPointsCommandParser.MAX_POINTS_TO_ADD)
  {
    if Trim(args) == [] {
      BlankIsUsage(v, args);
    }
  }
}

=== FILE: points_index.dfy ===
/** The cross-list points index the list manager builds on every switch: each
    member's identity key, and per key the `int` sum of the points of every member
    with that key in every list file that loads. */
module PointsIndex {
  import opened Wrappers
  import opened JavaString
  import opened Persons
  import opened ListStorage

  /** `getIdentityKey`: "E:" and the trimmed email if that is not empty, otherwise
      "P:" and the trimmed phone if that is not empty, otherwise no key.  The
      email keeps its case. */
  function IdentityKey(p: Person): Option<string> {
    var email := Trim(p.email);
    if email != [] then Some("E:" + email)
    else
      var phone := Trim(p.phone);
      if phone != [] then Some("P:" + phone) else None
  }

  /** A phone is eight digits, so every member has a key: the "no key" branch of
      `getIdentityKey` never applies. */
  lemma EveryMemberHasKey(p: Person)
    ensures IdentityKey(p).Some?
  {
    var phone: string := p.phone;
    assert !IsTrimmable(phone[0]) && !IsTrimmable(phone[|phone| - 1]) by {
      assert IsDigit(phone[0]) && IsDigit(phone[|phone| - 1]);
    }
    TrimOfTrimmed(phone);
  }

  /** Two members share an email key only if their trimmed emails are the same
      text, letter case included. */
  lemma EmailKeyIsCaseSensitive(p: Person, q: Person)
    requires Trim(p.email) != [] && IdentityKey(p) == IdentityKey(q)
    ensures Trim(q.email) == Trim(p.email)
  {
    KeyKind(p);
    KeyKind(q);
    var kp := "E:" + Trim(p.email);
    if Trim(q.email) != [] {
      var kq := "E:" + Trim(q.email);
      assert kq == kp;
      assert kq[2..] == Trim(q.email) && kp[2..] == Trim(p.email);
    }
  }

  /** An email key starts with 'E', a phone key with 'P'. */
  lemma KeyKind(p: Person)
    ensures IdentityKey(p).Some? ==> (IdentityKey(p).value[0] == 'E' <==> Trim(p.email) != [])
  {
    if Trim(p.email) != [] {
      assert ("E:" + Trim(p.email))[0] == 'E';
    } else if Trim(p.phone) != [] {
      assert ("P:" + Trim(p.phone))[0] == 'P';
    }
  }

  /** A partial sum: `None` when no member with the key has been seen, otherwise
      the exact (unwrapped) sum of their points. */
  function Plus(a: Option<int>, b: Option<int>): Option<int> {
    match a
    case None => b
    case Some(x) => match b case None => a case Some(y) => Some(x + y)
  }

  /** Arithmetic helper for the fold and sum lemmas below: partial sums regroup. */
  lemma PlusAssociative(a: Option<int>, b: Option<int>, c: Option<int>)
    ensures Plus(Plus(a, b), c) == Plus(a, Plus(b, c))
  {
  }

  /** Arithmetic helper for FilesTotalRemove: partial sums commute. */
  lemma PlusCommutative(a: Option<int>, b: Option<int>)
    ensures Plus(a, b) == Plus(b, a)
  {
  }

  /** The exact points total of the members of `roster` with key `key`. */
  function RosterTotal(roster: seq<Person>, key: string): Option<int> {
    if roster == [] then None
    else Plus(if IdentityKey(roster[0]) == Some(key) then Some(roster[0].points as int) else None,
              RosterTotal(roster[1..], key))
  }

  /** What one listed file adds: its members if it loads, nothing otherwise. */
  function FileTotal(disk: Disk, path: Path, key: string): Option<int> {
    if path in disk.files && disk.files[path].Readable? then RosterTotal(disk.files[path].roster, key)
    else None
  }

  /** The exact total over the files in `order`. */
  function FilesTotal(disk: Disk, order: seq<Path>, key: string): Option<int> {
    if order == [] then None
    else Plus(FileTotal(disk, order[0], key), FilesTotal(disk, order[1..], key))
  }

  /** The entry a map holds for a key, as an option. */
  function Get(m: map<string, Int32>, key: string): Option<int> {
    if key in m then Some(m[key] as int) else None
  }

  function WrapTotal(t: Option<int>): Option<int> {
    match t case None => None case Some(x) => Some(Wrap32(x) as int)
  }

  /** `totals.merge(key, v, Integer::sum)`. */
  function Merge(totals: map<string, Int32>, key: string, v: Int32): map<string, Int32> {
    totals[key := if key in totals then Wrap32(totals[key] + v) else v]
  }

  /** The inner loop of `buildGlobalPointsIndex` over one roster. */
  function MergeRoster(totals: map<string, Int32>, roster: seq<Person>): map<string, Int32>
    decreases |roster|
  {
    if roster == [] then totals
    else
      var next := (match IdentityKey(roster[0])
        case None => totals
        case Some(key) => Merge(totals, key, roster[0].points));
      MergeRoster(next, roster[1..])
  }

  /** The outer loop over the listed files; a file that fails to load is skipped. */
  function MergeFiles(totals: map<string, Int32>, disk: Disk, order: seq<Path>): map<string, Int32>
    decreases |order|
  {
    if order == [] then totals
    else
      var next := if order[0] in disk.files && disk.files[order[0]].Readable?
        then MergeRoster(totals, disk.files[order[0]].roster) else totals;
      MergeFiles(next, disk, order[1..])
  }

  /** `order` lists every path of `paths` exactly once, in the order the
      directory stream chooses.  The scan lists `ListFiles` of the files present. */
  predicate IsListing(order: seq<Path>, paths: set<Path>) {
    multiset(order) == multiset(paths)
  }

  /** `buildGlobalPointsIndex`: an unreadable directory gives no totals. */
  function BuildTotals(disk: Disk, order: seq<Path>): map<string, Int32> {
    if disk.dirReadable then MergeFiles(map[], disk, order) else map[]
  }

  /** Merging one value adds it to the key's running total, wrapped. */
  lemma MergeSpec(totals: map<string, Int32>, k: string, v: Int32, key: string)
    ensures Get(Merge(totals, k, v), key)
         == if key == k then WrapTotal(Plus(Get(totals, key), Some(v as int))) else Get(totals, key)
  {
  }

  /** Arithmetic helper for MergeRosterSpec and MergeFilesSpec: wrapping the
      running total at every step is wrapping the exact sum once. */
  lemma WrapPlus(a: Option<int>, b: Option<int>)
    ensures WrapTotal(Plus(WrapTotal(a), b)) == WrapTotal(Plus(a, b))
  {
    if a.Some? && b.Some? {
      Wrap32Add(a.value, b.value);
    }
  }

  lemma {:induction false} MergeRosterSpec(totals: map<string, Int32>, roster: seq<Person>, key: string)
    ensures Get(MergeRoster(totals, roster), key) == WrapTotal(Plus(Get(totals, key), RosterTotal(roster, key)))
    decreases |roster|
  {
    if roster == [] {
      if key in totals { assert Wrap32(totals[key]) == totals[key]; }
    } else {
      var head := if IdentityKey(roster[0]) == Some(key) then Some(roster[0].points as int) else None;
      var next := (match IdentityKey(roster[0])
        case None => totals
        case Some(k) => Merge(totals, k, roster[0].points));
      MergeRosterSpec(next, roster[1..], key);
      match IdentityKey(roster[0]) {
        case None =>
        case Some(k) =>
          MergeSpec(totals, k, roster[0].points, key);
          if k == key {
            WrapPlus(Plus(Get(totals, key), head), RosterTotal(roster[1..], key));
          }
      }
      PlusAssociative(Get(totals, key), head, RosterTotal(roster[1..], key));
    }
  }

  lemma {:induction false} MergeFilesSpec(totals: map<string, Int32>, disk: Disk, order: seq<Path>, key: string)
    ensures Get(MergeFiles(totals, disk, order), key) == WrapTotal(Plus(Get(totals, key), FilesTotal(disk, order, key)))
    decreases |order|
  {
    if order == [] {
      if key in totals { assert Wrap32(totals[key]) == totals[key]; }
    } else {
      var next := if order[0] in disk.files && disk.files[order[0]].Readable?
        then MergeRoster(totals, disk.files[order[0]].roster) else totals;
      MergeFilesSpec(next, disk, order[1..], key);
      var file := FileTotal(disk, order[0], key);
      if order[0] in disk.files && disk.files[order[0]].Readable? {
        MergeRosterSpec(totals, disk.files[order[0]].roster, key);
        WrapPlus(Plus(Get(totals, key), file), FilesTotal(disk, order[1..], key));
      } else if key in totals {
        assert Wrap32(totals[key]) == totals[key];
      }
      PlusAssociative(Get(totals, key), file, FilesTotal(disk, order[1..], key));
    }
  }

  /** The index holds a key exactly when some member of some loadable file has it,
      and its value is the exact sum of those members' points wrapped into `int`.
      Files that fail to load and an unreadable directory contribute nothing. */
  lemma BuildTotalsSpec(disk: Disk, order: seq<Path>, key: string)
    ensures Get(BuildTotals(disk, order), key)
         == if disk.dirReadable then WrapTotal(FilesTotal(disk, order, key)) else None
  {
    if disk.dirReadable {
      MergeFilesSpec(map[], disk, order, key);
    }
  }

  lemma {:induction false} FilesTotalAppend(disk: Disk, a: seq<Path>, b: seq<Path>, key: string)
    ensures FilesTotal(disk, a + b, key) == Plus(FilesTotal(disk, a, key), FilesTotal(disk, b, key))
  {
    if a == [] {
      assert a + b == b;
    } else {
      assert (a + b)[1..] == a[1..] + b;
      FilesTotalAppend(disk, a[1..], b, key);
      PlusAssociative(FileTotal(disk, a[0], key), FilesTotal(disk, a[1..], key), FilesTotal(disk, b, key));
    }
  }

  /** Taking one file out of a listing takes its share out of the total. */
  lemma FilesTotalRemove(disk: Disk, b: seq<Path>, i: nat, key: string)
    requires i < |b|
    ensures FilesTotal(disk, b, key) == Plus(FileTotal(disk, b[i], key), FilesTotal(disk, b[..i] + b[i + 1..], key))
  {
    assert b == b[..i] + ([b[i]] + b[i + 1..]);
    FilesTotalAppend(disk, b[..i], [b[i]] + b[i + 1..], key);
    FilesTotalAppend(disk, [b[i]], b[i + 1..], key);
    FilesTotalAppend(disk, b[..i], b[i + 1..], key);
    assert FilesTotal(disk, [b[i]], key) == FileTotal(disk, b[i], key) by {
      assert [b[i]][1..] == [];
    }
    PlusAssociative(FilesTotal(disk, b[..i], key), FileTotal(disk, b[i], key), FilesTotal(disk, b[i + 1..], key));
    PlusCommutative(FilesTotal(disk, b[..i], key), FileTotal(disk, b[i], key));
    PlusAssociative(FileTotal(disk, b[i], key), FilesTotal(disk, b[..i], key), FilesTotal(disk, b[i + 1..], key));
  }

  lemma MultisetRemove(b: seq<Path>, i: nat)
    requires i < |b|
    ensures multiset(b[..i] + b[i + 1..]) == multiset(b) - multiset{b[i]}
  {
    assert b == b[..i] + [b[i]] + b[i + 1..];
  }

  /** The exact total does not depend on the order the files are listed in. */
  lemma {:induction false} FilesTotalPermutation(disk: Disk, a: seq<Path>, b: seq<Path>, key: string)
    requires multiset(a) == multiset(b)
    ensures FilesTotal(disk, a, key) == FilesTotal(disk, b, key)
  {
    if a == [] {
      assert |b| == |multiset(b)| == 0;
    } else {
      assert a[0] in multiset(b);
      var i :| 0 <= i < |b| && b[i] == a[0];
      MultisetRemove(b, i);
      MultisetRemove(a, 0);
      assert a[..0] + a[1..] == a[1..];
      FilesTotalPermutation(disk, a[1..], b[..i] + b[i + 1..], key);
      FilesTotalRemove(disk, b, i, key);
    }
  }

  /** The outer loop never looks at a path it is not given. */
  lemma {:induction false} MergeFilesSkipsUnlisted(totals: map<string, Int32>, disk: Disk, order: seq<Path>, p: Path, f: Stored)
    requires p !in order
    ensures MergeFiles(totals, disk.(files := disk.files[p := f]), order) == MergeFiles(totals, disk, order)
    decreases |order|
  {
    if order != [] {
      var disk' := disk.(files := disk.files[p := f]);
      assert order[0] != p;
      var next := if order[0] in disk.files && disk.files[order[0]].Readable?
        then MergeRoster(totals, disk.files[order[0]].roster) else totals;
      assert p !in order[1..];
      MergeFilesSkipsUnlisted(next, disk, order[1..], p, f);
    }
  }

  /** A file the scan does not list (outside `data`, in a sub-directory, or not
      ending in `.json`) adds nothing to the index, whatever it holds, and leaves
      the listing unchanged. */
  lemma BuildTotalsIgnoresOtherFiles(disk: Disk, order: seq<Path>, p: Path, f: Stored)
    requires IsListing(order, ListFiles(disk.files.Keys)) && !IsListFile(p)
    ensures IsListing(order, ListFiles(disk.files[p := f].Keys))
    ensures BuildTotals(disk.(files := disk.files[p := f]), order) == BuildTotals(disk, order)
  {
    assert ListFiles(disk.files[p := f].Keys) == ListFiles(disk.files.Keys);
    assert p !in multiset(order);
    if disk.dirReadable {
      MergeFilesSkipsUnlisted(map[], disk, order, p, f);
    }
  }

  /** Every listing order of the same files gives the same index. */
  lemma BuildTotalsOrderIndependent(disk: Disk, a: seq<Path>, b: seq<Path>, paths: set<Path>)
    requires IsListing(a, paths) && IsListing(b, paths)
    ensures BuildTotals(disk, a) == BuildTotals(disk, b)
  {
    var ta, tb := BuildTotals(disk, a), BuildTotals(disk, b);
    forall key ensures Get(ta, key) == Get(tb, key) {
      BuildTotalsSpec(disk, a, key);
      BuildTotalsSpec(disk, b, key);
      FilesTotalPermutation(disk, a, b, key);
    }
    assert ta.Keys == tb.Keys by {
      forall key ensures key in ta <==> key in tb {
        assert Get(ta, key) == Get(tb, key);
      }
    }
    forall key | key in ta ensures ta[key] == tb[key] {
      assert Get(ta, key) == Get(tb, key);
    }
  }
}

=== FILE: predicates.dfy ===
/** `NamePrefixPredicate`: every query token must begin some word of the
    member's name, ignoring case. */
module NamePrefixPredicate {
  import opened Wrappers
  import opened JavaString
  import Persons

  /** The lower-cased query tokens; no tokens means "match everyone". */
  datatype Predicate = Predicate(tokens: seq<string>)

  /** `NamePrefixPredicate(String)`: a null or blank query gives no tokens;
      otherwise the trimmed query is split on `\s+` and lower-cased. */
  function FromQuery(query: Option<string>): (r: Predicate)
    ensures r.tokens == [] <==> query.None? || IsBlank(query.value)
    ensures forall k :: 0 <= k < |r.tokens| ==> ToLower(r.tokens[k]) == r.tokens[k]
  {
    match query
    case None => Predicate([])
    case Some(q) =>
      if IsBlank(q) then Predicate([])
      else
        NonBlankHasTokens(q);
        LowerAllIsLower(SplitWs(Trim(q)));
        Predicate(ToLowerAll(SplitWs(Trim(q))))
  }

  /** `NamePrefixPredicate(List<String>)`: a null list gives no tokens;
      otherwise every token is lower-cased, in order. */
  function FromList(tokens: Option<seq<string>>): (r: Predicate)
    ensures tokens.None? ==> r.tokens == []
    ensures tokens.Some? ==> |r.tokens| == |tokens.value|
    ensures tokens.Some? ==> forall k :: 0 <= k < |r.tokens| ==> r.tokens[k] == ToLower(tokens.value[k])
    ensures forall k :: 0 <= k < |r.tokens| ==> ToLower(r.tokens[k]) == r.tokens[k]
  {
    match tokens
    case None => Predicate([])
    case Some(ts) =>
      LowerAllIsLower(ts);
      Predicate(ToLowerAll(ts))
  }

  lemma LowerAllIsLower(ts: seq<string>)
    ensures forall k :: 0 <= k < |ts| ==> ToLower(ToLowerAll(ts)[k]) == ToLowerAll(ts)[k]
  {
    forall k | 0 <= k < |ts| ensures ToLower(ToLowerAll(ts)[k]) == ToLowerAll(ts)[k] {
      ToLowerIdempotent(ts[k]);
    }
  }

  /** A query that is not blank yields at least one token. */
  lemma NonBlankHasTokens(q: string)
    requires !IsBlank(q)
    ensures SplitWs(Trim(q)) != []
  {
    var t := Trim(q);
    if t != [] {
      TrimShape(q);
      assert !IsRegexSpace(t[0]);
    }
  }

  /** The lower-cased words of a name, split on `\s+`. */
  function NameWords(name: string): seq<string> {
    SplitWs(ToLower(name))
  }

  /** Some word begins with `token`. */
  predicate PrefixOfSome(words: seq<string>, token: string) {
    exists w :: w in words && StartsWith(w, token)
  }

  /** `test`: no tokens matches everyone; otherwise every token must begin some
      lower-cased word of the member's name. */
  predicate Test(p: Predicate, person: Persons.Person) {
    p.tokens == [] || forall t :: t in p.tokens ==> PrefixOfSome(NameWords(person.name), t)
  }

  /** A null or blank query matches every member. */
  lemma BlankQueryMatchesAll(query: Option<string>, person: Persons.Person)
    requires query.None? || IsBlank(query.value)
    ensures Test(FromQuery(query), person)
  {
  }

  /** Appending a token can only shrink the set of members matched. */
  lemma AddingTokenNarrows(tokens: seq<string>, token: string, person: Persons.Person)
    ensures Test(FromList(Some(tokens + [token])), person) ==> Test(FromList(Some(tokens)), person)
  {
    if Test(FromList(Some(tokens + [token])), person) && tokens != [] {
      var longer := FromList(Some(tokens + [token])).tokens;
      forall t | t in FromList(Some(tokens)).tokens
        ensures PrefixOfSome(NameWords(person.name), t)
      {
        var k :| 0 <= k < |tokens| && FromList(Some(tokens)).tokens[k] == t;
        assert longer[k] == t;
      }
    }
  }

  /** Equal predicates come from token lists that agree once lower-cased, so the
      case of the tokens never matters. */
  lemma FromListIgnoresCase(tokens: seq<string>)
    ensures FromList(Some(ToLowerAll(tokens))) == FromList(Some(tokens))
  {
    LowerAllIsLower(tokens);
  }

  /** The string constructor is the list constructor applied to the trimmed query's
      `\s+` pieces. */
  lemma QueryAgreesWithList(q: string)
    requires !IsBlank(q)
    ensures FromQuery(Some(q)) == FromList(Some(SplitWs(Trim(q))))
  {
  }

  /** The case of the member's name never matters. */
  lemma MatchIgnoresNameCase(p: Predicate, person: Persons.Person)
    ensures Test(p, person) == Test(p, person.(name := ToLower(person.name)))
  {
    ToLowerIdempotent(person.name);
  }

  /** A two-word name is matched by a prefix of each word, in either case, as
      "char oli" matches "Charlotte Oliveira". */
  lemma PrefixesOfBothWordsMatch(first: string, last: string, t1: string, t2: string,
                                 person: Persons.Person)
    requires IsWord(first) && IsWord(last) && person.name == first + " " + last
    requires StartsWith(ToLower(first), ToLower(t1)) && StartsWith(ToLower(last), ToLower(t2))
    ensures Test(FromList(Some([t1, t2])), person)
  {
    LowerWordsSplit(first, last);
  }

  /** A token that begins neither word of a two-word name rejects it, as "cha dav"
      does not match "Charlotte Oliveira". */
  lemma TokenBeginningNoWordRejects(first: string, last: string, tokens: seq<string>, k: nat,
                                    person: Persons.Person)
    requires IsWord(first) && IsWord(last) && person.name == first + " " + last
    requires k < |tokens|
    requires !StartsWith(ToLower(first), ToLower(tokens[k]))
    requires !StartsWith(ToLower(last), ToLower(tokens[k]))
    ensures !Test(FromList(Some(tokens)), person)
  {
    LowerWordsSplit(first, last);
    var t := FromList(Some(tokens)).tokens[k];
    assert t in FromList(Some(tokens)).tokens;
  }

  lemma LowerWordsSplit(first: string, last: string)
    requires IsWord(first) && IsWord(last)
    ensures NameWords(first + " " + last) == [ToLower(first), ToLower(last)]
  {
    ToLowerAppend(first + " ", last);
    ToLowerAppend(first, " ");
    assert ToLower(" ") == " ";
    ToLowerKeepsSpaces(first);
    ToLowerKeepsSpaces(last);
    SplitWsTwoWords(ToLower(first), ToLower(last));
  }
}

/** `TagsPredicate`: case-insensitive whole-name tag matching, all of the tags
    (AND) or any of them (OR). */
module TagsPredicate {
  import opened Wrappers
  import opened JavaString
  import Persons

  /** The lower-cased tag names required, and whether one of them suffices. */
  datatype Predicate = Predicate(needed: set<string>, any: bool)

  function LowerSet(names: set<string>): set<string> {
    set t | t in names :: ToLower(t)
  }

  /** `TagsPredicate(Collection<String>, boolean)`: a null collection needs nothing;
      otherwise the needed set is the collection's names lower-cased. */
  function New(tags: Option<seq<string>>, any: bool): (r: Predicate)
    ensures r.any == any
    ensures tags.None? ==> r.needed == {}
    ensures tags.Some? ==> forall t :: t in r.needed <==> exists i :: 0 <= i < |tags.value| && t == ToLower(tags.value[i])
  {
    match tags
    case None => Predicate({}, any)
    case Some(ts) => Predicate(set i | 0 <= i < |ts| :: ToLower(ts[i]), any)
  }

  /** The member's tag names, lower-cased. */
  function Has(person: Persons.Person): set<string> {
    LowerSet(person.tags)
  }

  /** `test`: nothing needed matches everyone; OR needs one needed name among the
      member's, AND needs all of them. */
  predicate Test(p: Predicate, person: Persons.Person) {
    p.needed == {} || (if p.any then p.needed * Has(person) != {} else p.needed <= Has(person))
  }

  /** An empty or null tag collection matches everyone, in both modes. */
  lemma NoTagsMatchAll(tags: Option<seq<string>>, any: bool, person: Persons.Person)
    requires tags.None? || tags.value == []
    ensures Test(New(tags, any), person)
  {
  }

  /** AND mode matches exactly the members holding every requested tag, in any case. */
  lemma AndMatchesIffAll(tags: seq<string>, person: Persons.Person)
    ensures Test(New(Some(tags), false), person)
        <==> forall i :: 0 <= i < |tags| ==> ToLower(tags[i]) in Has(person)
  {
    var p := New(Some(tags), false);
    if forall i :: 0 <= i < |tags| ==> ToLower(tags[i]) in Has(person) {
      forall t | t in p.needed ensures t in Has(person) {
        var i :| 0 <= i < |tags| && t == ToLower(tags[i]);
      }
    }
    if Test(p, person) {
      forall i | 0 <= i < |tags| ensures ToLower(tags[i]) in Has(person) {
        assert ToLower(tags[i]) in p.needed;
      }
    }
  }

  /** OR mode matches exactly the members holding some requested tag, in any case,
      or everyone when nothing is requested. */
  lemma OrMatchesIffSome(tags: seq<string>, person: Persons.Person)
    ensures Test(New(Some(tags), true), person)
        <==> tags == [] || exists i :: 0 <= i < |tags| && ToLower(tags[i]) in Has(person)
  {
    var p := New(Some(tags), true);
    if tags != [] {
      assert ToLower(tags[0]) in p.needed;
      if exists i :: 0 <= i < |tags| && ToLower(tags[i]) in Has(person) {
        var i :| 0 <= i < |tags| && ToLower(tags[i]) in Has(person);
        assert ToLower(tags[i]) in p.needed * Has(person);
      }
      if Test(p, person) {
        var t :| t in p.needed * Has(person);
        var i :| 0 <= i < |tags| && t == ToLower(tags[i]);
      }
    }
  }

  /** Two collections with the same names, in whatever order and multiplicity, make
      the same predicate. */
  lemma OrderAndDuplicatesIrrelevant(a: seq<string>, b: seq<string>, any: bool)
    requires forall t :: t in a <==> t in b
    ensures New(Some(a), any) == New(Some(b), any)
  {
    var na, nb := New(Some(a), any).needed, New(Some(b), any).needed;
    forall t | t in na ensures t in nb {
      var i :| 0 <= i < |a| && t == ToLower(a[i]);
      assert a[i] in b;
      var j :| 0 <= j < |b| && b[j] == a[i];
    }
    forall t | t in nb ensures t in na {
      var j :| 0 <= j < |b| && t == ToLower(b[j]);
      assert b[j] in a;
      var i :| 0 <= i < |a| && a[i] == b[j];
    }
  }

  /** Requesting upper- or lower-case names makes the same predicate. */
  lemma RequestCaseIrrelevant(tags: seq<string>, any: bool)
    ensures New(Some(ToLowerAll(tags)), any) == New(Some(tags), any)
  {
    var lowered := ToLowerAll(tags);
    forall i | 0 <= i < |tags| ensures ToLower(lowered[i]) == ToLower(tags[i]) {
      ToLowerIdempotent(tags[i]);
    }
  }

  /** The case of the member's own tag names does not matter either. */
  lemma MemberCaseIrrelevant(p: Predicate, person: Persons.Person)
    ensures Test(p, person) == Test(p, person.(tags := LowerSet(person.tags)))
  {
    var lowered := person.(tags := LowerSet(person.tags));
    forall t | t in Has(lowered) ensures t in Has(person) {
      var u :| u in LowerSet(person.tags) && t == ToLower(u);
      var v :| v in person.tags && u == ToLower(v);
      ToLowerIdempotent(v);
    }
    forall t | t in Has(person) ensures t in Has(lowered) {
      var v :| v in person.tags && t == ToLower(v);
      ToLowerIdempotent(v);
      assert ToLower(t) == t;
    }
    assert Has(lowered) == Has(person);
  }

  /** A requested name matches only whole tag names: a tag that merely begins with
      it does not count. */
  lemma NotPrefixMatching(name: string, suffix: string, any: bool, person: Persons.Person)
    requires suffix != [] && person.tags == {name + suffix}
    ensures !Test(New(Some([name]), any), person)
  {
    var p := New(Some([name]), any);
    assert ToLower([name][0]) in p.needed;
    assert Has(person) == {ToLower(name + suffix)};
    forall t | t in p.needed ensures t !in Has(person) {
      assert |ToLower(name + suffix)| != |t|;
    }
    assert p.needed * Has(person) == {};
  }
}

/** `NameContainsKeywordsPredicate`: some keyword occurs, ignoring case, in one of
    six text fields of the member. */
module NameContainsKeywordsPredicate {
  import opened Wrappers
  import opened JavaString
  import Persons

  /** The keywords as given, `null` entries included; equality is on this list. */
  datatype Predicate = Predicate(keywords: seq<Option<string>>)

  /** `String.valueOf` of a possibly null faculty. */
  function FacultyText(faculty: Option<string>): string {
    match faculty
    case Some(f) => f
    case None => "null"
  }

  /** The searched fields: name, phone, email, address, faculty and the decimal
      year.  Tags are not among them. */
  function SearchedFields(person: Persons.Person): seq<string> {
    [person.name, person.phone, person.email, person.address,
     FacultyText(person.faculty), IntToDecimal(person.year)]
  }

  /** A raw keyword as compared: null becomes empty, otherwise trimmed and lower-cased. */
  function Keyword(raw: Option<string>): (kw: string)
    ensures raw.None? ==> kw == []
    ensures raw.Some? ==> |kw| <= |raw.value|
    ensures kw == [] <==> raw.None? || Trim(raw.value) == []
  {
    match raw
    case None => []
    case Some(s) => TrimShape(s); ToLower(Trim(s))
  }

  /** A non-empty keyword occurs in some lower-cased searched field. */
  predicate Hits(kw: string, person: Persons.Person) {
    kw != [] && exists f :: f in SearchedFields(person) && Contains(ToLower(f), kw)
  }

  /** `test`: some keyword hits. */
  predicate Test(p: Predicate, person: Persons.Person) {
    exists i :: 0 <= i < |p.keywords| && Hits(Keyword(p.keywords[i]), person)
  }

  /** Null and blank keywords never match, so a list made only of them (or an
      empty list) matches nobody. */
  lemma BlankKeywordsMatchNobody(p: Predicate, person: Persons.Person)
    requires forall i :: 0 <= i < |p.keywords| ==> p.keywords[i].None? || Trim(p.keywords[i].value) == []
    ensures !Test(p, person)
  {
  }

  /** Changing a member's tags never changes whether they match. */
  lemma TagsNeverSearched(p: Predicate, person: Persons.Person, tags: set<string>)
    ensures Test(p, person) == Test(p, person.(tags := tags))
  {
    assert SearchedFields(person) == SearchedFields(person.(tags := tags));
  }

  /** Keywords combine by OR: adding one never loses a match. */
  lemma MoreKeywordsMatchMore(keywords: seq<Option<string>>, extra: Option<string>,
                              person: Persons.Person)
    ensures Test(Predicate(keywords), person) ==> Test(Predicate(keywords + [extra]), person)
  {
    if Test(Predicate(keywords), person) {
      var i :| 0 <= i < |keywords| && Hits(Keyword(keywords[i]), person);
      assert (keywords + [extra])[i] == keywords[i];
    }
  }

  /** A member's year written in decimal finds that member. */
  lemma YearFindsMember(person: Persons.Person)
    ensures Test(Predicate([Some(IntToDecimal(person.year))]), person)
  {
    var y := IntToDecimal(person.year);
    DecimalIsTrimmedLower(person.year);
    assert Keyword(Some(y)) == y;
    assert Hits(y, person) by {
      assert SearchedFields(person)[5] == y;
      assert OccursAt(y, y, 0);
    }
    assert Predicate([Some(y)]).keywords[0] == Some(y);
  }

  lemma DecimalIsTrimmedLower(n: int)
    ensures Trim(IntToDecimal(n)) == IntToDecimal(n)
    ensures ToLower(IntToDecimal(n)) == IntToDecimal(n)
  {
    var d := IntToDecimal(n);
    var m: nat := if n < 0 then -n else n;
    var digits := NatToDecimal(m);
    assert d[|d| - 1] == digits[|digits| - 1];
    assert IsDigit(d[|d| - 1]);
    TrimOfTrimmed(d);
    forall i | 0 <= i < |d| ensures LowerChar(d[i]) == d[i] {
      if n < 0 && i > 0 {
        assert d[i] == digits[i - 1];
      }
      if n >= 0 {
        assert IsDigit(d[i]);
      }
    }
  }
}

=== FILE: search_command_parser.dfy ===
/** `search [n/NAME_QUERY] [t/TAG]... [any/]`: builds the filter that keeps the
    members matching the name query and the tags. */
module SearchCommandParser {
  import opened Wrappers
  import opened JavaString
  import opened Exceptions
  import opened CliSyntax
  import opened ArgumentMultimap
  import NamePrefixPredicate
  import TagsPredicate
  import opened ClubModel

  const COMMAND_WORD: string := "search"
  const MESSAGE_ANY_WITHOUT_TAG: string := "any/ requires at least one t/TAG."

  /** The tag values trimmed, with the ones left empty dropped, in order. */
  function NonBlankTrimmed(values: seq<string>): (r: seq<string>)
    ensures |r| <= |values|
  {
    if values == [] then []
    else (if Trim(values[0]) == [] then [] else [Trim(values[0])]) + NonBlankTrimmed(values[1..])
  }

  /** The kept tag values are exactly the non-empty trimmed ones. */
  lemma {:induction false} NonBlankTrimmedMembers(values: seq<string>)
    ensures forall t :: (t in NonBlankTrimmed(values)
                         <==> t != [] && exists i :: 0 <= i < |values| && Trim(values[i]) == t)
  {
    if values != [] {
      NonBlankTrimmedMembers(values[1..]);
      forall t ensures t in NonBlankTrimmed(values)
        <==> t != [] && exists i :: 0 <= i < |values| && Trim(values[i]) == t
      {
        if t != [] && exists i :: 0 <= i < |values| && Trim(values[i]) == t {
          var i :| 0 <= i < |values| && Trim(values[i]) == t;
          if i > 0 { assert values[1..][i - 1] == values[i]; }
        }
        if t in NonBlankTrimmed(values[1..]) {
          var i :| 0 <= i < |values[1..]| && Trim(values[1..][i]) == t;
          assert values[i + 1] == values[1..][i];
        }
      }
    }
  }

  /** The trimmed name query; an absent `n/` counts as empty. */
  function NameQuery(m: ArgMap): string {
    Trim(GetValue(m, Name).GetOr(""))
  }

  function TagValues(m: ArgMap): seq<string> {
    NonBlankTrimmed(AllValues(m, Tag))
  }

  /** `parse`: no preamble, at most one `n/`, at least one non-empty filter, and
      `any/` only together with a tag; the filter is the name-prefix predicate AND
      the tags predicate. */
  function Parse(m: ArgMap): (r: Result<Filter, Error>)
    ensures m.preamble != [] ==> r == Failure(ParseError(InvalidCommandFormat(COMMAND_WORD)))
    ensures m.preamble == [] && |AllValues(m, Name)| > 1 ==> r == Failure(ParseError(DuplicatePrefixes({Name})))
    ensures r.Success? <==>
      && m.preamble == [] && |AllValues(m, Name)| <= 1
      && (NameQuery(m) != [] || TagValues(m) != [])
      && (GetValue(m, Any).Some? ==> TagValues(m) != [])
    ensures r.Success? ==>
      r.value == Search(NamePrefixPredicate.FromQuery(Some(NameQuery(m))),
                        TagsPredicate.New(Some(TagValues(m)), GetValue(m, Any).Some?))
  {
    if m.preamble != [] then Failure(ParseError(InvalidCommandFormat(COMMAND_WORD)))
    else match VerifyNoDuplicates(m, {Name})
      case Some(e) =>
        assert Repeated(m, {Name}) == {Name};
        Failure(e)
      case None =>
        var nameQuery := NameQuery(m);
        var tagValues := TagValues(m);
        var anyTags := GetValue(m, Any).Some?;
        if nameQuery == [] && tagValues == [] then Failure(ParseError(InvalidCommandFormat(COMMAND_WORD)))
        else if anyTags && tagValues == [] then Failure(ParseError(Text(MESSAGE_ANY_WITHOUT_TAG)))
        else Success(Search(NamePrefixPredicate.FromQuery(Some(nameQuery)),
                            TagsPredicate.New(Some(tagValues), anyTags)))
  }

  /** `any/` with neither a name nor a tag is reported as a usage error, not as the
      `any/` message, because the "no filter" check comes first. */
  lemma AnyAloneIsUsageError(m: ArgMap)
    requires m.preamble == [] && |AllValues(m, Name)| <= 1
    requires NameQuery(m) == [] && TagValues(m) == []
    ensures Parse(m) == Failure(ParseError(InvalidCommandFormat(COMMAND_WORD)))
  {
  }

  /** `any/` with a name but no usable tag gets its own message. */
  lemma AnyWithoutTagIsRejected(m: ArgMap)
    requires m.preamble == [] && |AllValues(m, Name)| <= 1
    requires NameQuery(m) != [] && TagValues(m) == [] && GetValue(m, Any).Some?
    ensures Parse(m) == Failure(ParseError(Text(MESSAGE_ANY_WITHOUT_TAG)))
  {
  }

  /** Tags that are all blank count as no tags. */
  lemma BlankTagsAreNoTags(m: ArgMap)
    requires forall i :: 0 <= i < |AllValues(m, Tag)| ==> Trim(AllValues(m, Tag)[i]) == []
    ensures TagValues(m) == []
  {
    BlankValuesDropped(AllValues(m, Tag));
  }

  lemma {:induction false} BlankValuesDropped(values: seq<string>)
    requires forall i :: 0 <= i < |values| ==> Trim(values[i]) == []
    ensures NonBlankTrimmed(values) == []
  {
    if values != [] {
      assert forall i :: 0 <= i < |values[1..]| ==> values[1..][i] == values[i + 1];
      BlankValuesDropped(values[1..]);
    }
  }

  /** Without a name query the filter keeps exactly the members the tags predicate keeps. */
  lemma TagsOnlySearch(m: ArgMap, p: Persons.Person)
    requires Parse(m).Success? && NameQuery(m) == []
    ensures Shows(Parse(m).value, p) <==> TagsPredicate.Test(Parse(m).value.tags, p)
  {
    TrimEmptyIff(GetValue(m, Name).GetOr(""));
  }
}

=== FILE: unmark_command.dfy ===
/** `absent INDEX`: marks the shown member at INDEX absent, removes the "present"
    tag and takes back a point if there is one. */
module UnmarkCommand {
  import opened Wrappers
  import opened JavaString
  import opened Exceptions
  import opened Persons
  import Points
  import opened ClubModel
  import MarkCommand

  /** The zero-based position in the shown list. */
  datatype Command = Command(targetIndex: nat)

  /** The member as `execute` rebuilds it: the "present" tag gone, presence false,
      one point fewer unless there were none. */
  function Unmarked(p: Person): (r: Person)
    ensures SameDetails(r, p) && r.presence == Absent
    ensures r.tags == p.tags - {MarkCommand.PRESENT_TAG}
    ensures r.points == if p.points > 0 then p.points - 1 else 0
  {
    var points := if p.points > 0 then Points.SubtractPoint(p.points) else p.points;
    New9(p.name, p.phone, p.email, p.year, p.faculty, p.address,
         p.tags - {MarkCommand.PRESENT_TAG}, Absent, points)
  }

  /** The report always says one point was deducted, even when there was none. */
  function SuccessMessage(name: string, points: int): string {
    "Member '" + name + "' marked absent. 1 point deducted. New total: " + IntToDecimal(points)
  }

  /** `execute`: an index past the shown list is refused; otherwise the target is
      replaced by its unmarked copy, and only the target. */
  function Execute(c: Command, m: Model): (r: Result<Executed, Error>)
    ensures r.Success? <==> c.targetIndex < |ShownList(m)|
    ensures r.Failure? ==> r.error == CommandError(InvalidMemberDisplayedIndex)
    ensures r.Success? ==>
      var target := ShownList(m)[c.targetIndex];
      && r.value.model.filter == m.filter
      && ReplacedAt(m.persons, r.value.model.persons, IndexOf(m.persons, target), Unmarked(target))
      && r.value.feedback == Said(SuccessMessage(target.name, Unmarked(target).points))
  {
    var shown := ShownList(m);
    if c.targetIndex >= |shown| then Failure(CommandError(InvalidMemberDisplayedIndex))
    else
      var target := shown[c.targetIndex];
      ShownAreMembers(m, c.targetIndex);
      var unmarked := Unmarked(target);
      Success(Executed(m.(persons := SetPerson(m.persons, target, unmarked)),
                       Said(SuccessMessage(target.name, unmarked.points))))
  }

  /** Unmarking keeps every identity unique. */
  lemma UnmarkKeepsNoDuplicates(c: Command, m: Model)
    requires NoDuplicates(m.persons) && Execute(c, m).Success?
    ensures NoDuplicates(Execute(c, m).value.model.persons)
  {
    var target := ShownList(m)[c.targetIndex];
    ShownAreMembers(m, c.targetIndex);
    SetPersonKeepsNoDuplicates(m.persons, target, Unmarked(target));
  }

  /** Unmarking a marked member gives back their points and leaves them absent
      without the "present" tag. */
  lemma UnmarkUndoesMark(p: Person)
    requires p.points < INT_MAX
    ensures Unmarked(MarkCommand.Marked(p).value)
         == p.(tags := p.tags - {MarkCommand.PRESENT_TAG}, presence := Absent)
  {
  }

  /** A member with no points stays at zero, yet is told a point was deducted. */
  lemma UnmarkAtZero(c: Command, m: Model)
    requires c.targetIndex < |ShownList(m)| && ShownList(m)[c.targetIndex].points == 0
    ensures Execute(c, m).Success?
    ensures Execute(c, m).value.feedback
         == Said("Member '" + ShownList(m)[c.targetIndex].name + "' marked absent. 1 point deducted. New total: 0")
  {
    assert IntToDecimal(0) == "0";
  }
}

=== FILE: untag_command.dfy ===
/** `untag INDEX TAG`: removes one tag from the shown member at INDEX. */
module UntagCommand {
  import opened Wrappers
  import opened JavaString
  import opened Exceptions
  import opened Persons
  import opened ClubModel

  const MESSAGE_INVALID_INDEX: string := "The person index provided is invalid"

  /** The zero-based position (a plain `int`, checked at execution) and the tag
      name; equality is on this pair. */
  datatype Command = Command(index: Int32, tag: string)

  /** The member with `tag` removed from their tags, everything else kept. */
  function Untagged(p: Person, tag: string): (r: Person)
    ensures r.tags == p.tags - {tag}
    ensures r.(tags := p.tags) == p
  {
    New9(p.name, p.phone, p.email, p.year, p.faculty, p.address,
         p.tags - {tag}, p.presence, p.points)
  }

  /** `execute`: a negative index or one past the shown list is refused; otherwise
      only the target is replaced, by its copy without the tag. */
  function Execute(c: Command, m: Model): (r: Result<Executed, Error>)
    ensures r.Success? <==> 0 <= c.index < |ShownList(m)|
    ensures r.Failure? ==> r.error == CommandError(Text(MESSAGE_INVALID_INDEX))
    ensures r.Success? ==>
      var target := ShownList(m)[c.index];
      && r.value.model.filter == m.filter
      && ReplacedAt(m.persons, r.value.model.persons, IndexOf(m.persons, target), Untagged(target, c.tag))
      && r.value.feedback == TagRemoved(c.tag)
  {
    var shown := ShownList(m);
    if c.index < 0 || c.index >= |shown| then Failure(CommandError(Text(MESSAGE_INVALID_INDEX)))
    else
      var target := shown[c.index];
      ShownAreMembers(m, c.index);
      Success(Executed(m.(persons := SetPerson(m.persons, target, Untagged(target, c.tag))),
                       TagRemoved(c.tag)))
  }

  /** Removing a tag the member does not have leaves the member list as it was. */
  lemma UntagAbsentTagChangesNothing(c: Command, m: Model)
    requires 0 <= c.index < |ShownList(m)| && c.tag !in ShownList(m)[c.index].tags
    ensures Execute(c, m).Success? && Execute(c, m).value.model == m
  {
    var target := ShownList(m)[c.index];
    ShownAreMembers(m, c.index);
    assert Untagged(target, c.tag) == target;
    assert SetPerson(m.persons, target, target) == m.persons;
  }

  /** Untagging keeps every identity unique. */
  lemma UntagKeepsNoDuplicates(c: Command, m: Model)
    requires NoDuplicates(m.persons) && Execute(c, m).Success?
    ensures NoDuplicates(Execute(c, m).value.model.persons)
  {
    var target := ShownList(m)[c.index];
    ShownAreMembers(m, c.index);
    SetPersonKeepsNoDuplicates(m.persons, target, Untagged(target, c.tag));
  }
}

=== FILE: untag_command_parser.dfy ===
/** `untag INDEX TAG`: the tag is everything after the first run of whitespace, so
    it may itself contain spaces. */
module UntagCommandParser {
  import opened Wrappers
  import opened JavaString
  import opened Exceptions
  import opened Validators
  import UntagCommand
  import PointsArguments

  const COMMAND_WORD: string := "untag"
  const MESSAGE_INDEX_NOT_POSITIVE: string := "Index must be a positive integer."

  function Usage(): Error {
    ParseError(InvalidCommandFormat(COMMAND_WORD))
  }

  /** `parse`: a null or blank argument and a missing or blank tag part are usage
      errors; the index must read as a positive `int`; the trimmed tag part must
      be a valid tag name, or the `Tag` constructor throws. */
  function Parse(v: Validators, args: Option<string>): (r: Result<UntagCommand.Command, Error>)
    ensures args.None? ==> r == Failure(Usage())
    ensures args.Some? && Trim(args.value) == [] ==> r == Failure(Usage())
    ensures r.Success? <==>
      && args.Some? && Trim(args.value) != []
      && var parts := SplitWsLimit2(Trim(args.value));
      && |parts| == 2 && !IsBlank(parts[1])
      && ParseInt(parts[0]).Some? && ParseInt(parts[0]).value > 0
      && v.isValidTagName(Trim(parts[1]))
    ensures r.Success? ==>
      var parts := SplitWsLimit2(Trim(args.value));
      && ParseInt(parts[0]) == Some(r.value.index + 1)
      && 0 <= r.value.index && r.value.tag == Trim(parts[1])
  {
    var trimmed := if args.None? then "" else Trim(args.value);
    if trimmed == [] then Failure(Usage())
    else
      var parts := SplitWsLimit2(trimmed);
      if |parts| < 2 || IsBlank(parts[1]) then Failure(Usage())
      else
        match ParseInt(parts[0])
        case None => Failure(ParseError(Text(MESSAGE_INDEX_NOT_POSITIVE)))
        case Some(oneBased) =>
          if oneBased <= 0 then Failure(ParseError(Text(MESSAGE_INDEX_NOT_POSITIVE)))
          else
            var tag := Trim(parts[1]);
            if !v.isValidTagName(tag) then Failure(IllegalArgument(ConstraintsOf(TAG)))
            else Success(UntagCommand.Command(oneBased - 1, tag))
  }

  /** A word followed by a run of `\s` characters and a piece starting with a
      non-space splits, with limit 2, into the word and that whole piece. */
  lemma SplitAtFirstSpace(w: string, t: string)
    requires IsWord(w) && t != [] && !IsRegexSpace(t[0])
    ensures SplitWsLimit2(w + " " + t) == [w, t]
  {
    var s := w + " " + t;
    NonSpacePrefixOfWord(w, " " + t);
    assert s == w + (" " + t);
    assert s[..|w|] == w;
    assert s[|w|..] == " " + t;
    assert (" " + t)[1..] == t;
  }

  /** The pieces of a well-formed argument, checked one at a time. */
  lemma FormattedPieces(k: int, t: string)
    requires t != [] && Trim(t) == t
    ensures var s := IntToDecimal(k) + " " + t;
      && Trim(s) == s && s != []
      && SplitWsLimit2(s) == [IntToDecimal(k), t]
      && !IsBlank(t)
  {
    var d := IntToDecimal(k);
    var s := d + " " + t;
    TrimShape(t);
    PointsArguments.DecimalIsWord(k);
    assert s[0] == d[0] && s[|s| - 1] == t[|t| - 1];
    TrimOfTrimmed(s);
    SplitAtFirstSpace(d, t);
    assert !IsJavaWhitespace(t[0]);
  }

  /** `untag K TAG` gives back the zero-based index and the whole tag, spaces
      included, for every tag text that `trim` leaves alone. */
  lemma ParseOfFormatted(v: Validators, k: nat, t: string)
    requires k + 1 <= INT_MAX
    requires t != [] && Trim(t) == t && v.isValidTagName(t)
    ensures Parse(v, Some(IntToDecimal(k + 1) + " " + t)) == Success(UntagCommand.Command(k, t))
  {
    FormattedPieces(k + 1, t);
    ParseIntOfDecimal(k + 1);
  }

  /** An index of zero or below is refused with the positive-index message. */
  lemma NonPositiveIndexRefused(v: Validators, n: Int32, t: string)
    requires n <= 0
    requires t != [] && Trim(t) == t
    ensures Parse(v, Some(IntToDecimal(n) + " " + t)) == Failure(ParseError(Text(MESSAGE_INDEX_NOT_POSITIVE)))
  {
    FormattedPieces(n, t);
    ParseIntOfDecimal(n);
  }
}

=== FILE: validators.dfy ===
/** Validity checks that the value classes define and this model does not contain
    (`Name.isValidName`, `Email.isValidEmail`, `Address.isValidAddress`,
    `Tag.isValidTagName`, `StringUtil.isNonZeroUnsignedInteger`).  They are taken
    as parameters, so every property below holds whatever they accept. */
module Validators {

  datatype Validators = Validators(
    isValidName: string -> bool,
    isValidEmail: string -> bool,
    isValidAddress: string -> bool,
    isValidTagName: string -> bool,
    isNonZeroUnsignedInteger: string -> bool)

  /** The `MESSAGE_CONSTRAINTS` class names used in error messages. */
  const NAME: string := "Name"
  const EMAIL: string := "Email"
  const ADDRESS: string := "Address"
  const TAG: string := "Tag"
}

=== FILE: wrappers.dfy ===
/** Failure-compatible Option and Result types, the model's stand-ins for Java's
    nullable references and thrown exceptions. */
module Wrappers {

  /** A value that may be absent: Java's `null` or `Optional.empty()`. */
  datatype Option<+T> = None | Some(value: T) {

    predicate IsFailure() {
      None?
    }

    function PropagateFailure<U>(): Option<U>
      requires None?
    {
      None
    }

    function Extract(): T
      requires Some?
    {
      value
    }

    /** The value, or `default` when absent. */
    function GetOr(default: T): T {
      match this
      case Some(v) => v
      case None => default
    }
  }

  /** Either a computed value or the exception the Java code would throw. */
  datatype Result<+R, +E> = Success(value: R) | Failure(error: E) {

    predicate IsFailure() {
      Failure?
    }

    function PropagateFailure<U>(): Result<U, E>
      requires Failure?
    {
      Failure(error)
    }

    function Extract(): R
      requires Success?
    {
      value
    }
  }
}
